=== FILE: README.md ===
# agntz, modelled in Dafny

`agntz` is a command-line dispatcher for AI coding agents. Each subcommand turns its
options into an argument vector for a companion program and runs that program:

- `mmry` for memories;
- `mailz-cli` for mail and file reservations;
- `trx` for issues;
- `skdlr` for schedules;
- `cass` for session-history search;
- `cargo` for installing the tools themselves.

The dispatcher also does a few things of its own:

- it names the repository from its `git` remote;
- it detects which coding agent is calling, so memories can be attributed;
- it renders a Markdown export of memories;
- it edits the `## agntz` section of `AGENTS.md` during `init`.

This project models that logic as pure Dafny functions over immutable data. It proves:

- what every argument vector contains;
- that the companion program reads each vector back as the request that was made;
- how the exit status of every wrapped program decides the command's outcome;
- what `init` writes to `AGENTS.md`;
- that the Markdown export lists every memory once, under its own category.

## Layout

| file | module | models |
|---|---|---|
| `common.dfy` | `Common` | `Option`, and the integer widths `u8`, `u32` and `usize` |
| `text.dfy` | `Text` | `str::contains`, `trim`, `trim_end_matches`, `rsplit`, `lines`, `split_whitespace` and `to_string` on numbers |
| `argv.dfy` | `Argv` | A reader for argument vectors, in the style of getopt. It stands for how the companion programs read what they are given. |
| `process.dfy` | `Process` | Exit statuses, and the rule that turns a spawned program into an `Ok`/error outcome |
| `repo_name.dfy` | `RepoName` | `get_repo_name` |
| `memory.dfy` | `Memory` | The `memory` subcommands, the export plan and `run_mmry`'s store selection |
| `memory_export.dfy` | `MemoryExport` | `export_markdown`'s rendering |
| `agent_identity.dfy` | `AgentIdentity` | `detect_agent` and the attribution variables `run_mmry` sets |
| `mail.dfy` | `Mail` | The `mail` subcommands and `run_mailz` |
| `issues.dfy` | `Issues` | The `issues` subcommands and `run_trx` |
| `schedule.dfy` | `Schedule` | The `schedule` subcommands and `run_skdlr` |
| `tools.dfy` | `Tools` | The tool catalogue, `install`/`update` planning, and `doctor`/`list` |
| `top_level.dfy` | `TopLevel` | `reserve`, `reservations`, `release`, `ready`, `search` and `run_mailz_cli` |
| `agents_md.dfy` | `AgentsMd` | `remove_agntz_section` and the `AGENTS.md` step of `init` |
| `init.dfy` | `Init` | `handle_init` |

### The round-trip partners

Each argument-vector builder has a partner: a decoder in the style of the program that
receives the vector. `Argv.Parse` is that reader:

- it knows which flags take a value;
- it knows which flags are switches;
- every other word is a positional argument.

Each `Decode…` lemma proves that reading the built vector gives back the original
request. It needs one precondition: the user-supplied positional strings are not
themselves flag names of the receiving program (`Plain`). The source passes such
strings through unchanged, and the receiver would misread them, so this is a real
limit, not a convenience.

## Model

| member | source | states |
|---|---|---|
| `Process.Relay` | src/main.rs:219-235 | A program that cannot be started fails with the wrapper's context message. A program that ran fails only when the wrapper checks its status and the status is unsuccessful. |
| `Process.Checked` | src/mail.rs:70-74 | The outcome is `Ok` exactly when the exit status is a success, and otherwise carries the wrapper's message |
| `RepoName.NameFromUrl` | src/main.rs:244-253 | After the URL is trimmed and every trailing `.git` removed, the name is the text after the last `/`, or the whole text when there is no `/`. It holds no `/` and does not end in `.git`. |
| `RepoName.NameIsAfterLastSlash` | src/main.rs:247-250 | A text is the name exactly when it is a suffix of the stripped URL that holds no `/` and starts the text or follows a `/`: the name is the whole last segment |
| `RepoName.GetRepoName` | src/main.rs:238-260 | A `git` that cannot be started gives no name. A successful `git` gives exactly the name in the URL it printed. A failing `git` falls back to the directory's name. |
| `RepoName.NameOfRemote` | src/memory.rs:358-366 | Every URL `<path>/<name>` or `<path>/<name>.git` with trailing whitespace names the repository `<name>`; the SSH and HTTPS examples are instances |
| `RepoName.TrailingSlashGivesEmptyName` | src/main.rs:244-256 | After a successful `git` the directory fallback is never used, even when the URL ends in `/` and the name is empty |
| `TopLevel.ReserveArgv` | src/main.rs:133-149 | `["reserve"] ++ files ++ ["--ttl", ttl]`, then `["--reason", r]` exactly when a reason is given |
| `TopLevel.ReserveDefaultTtl` | src/main.rs:49-51 | A reservation without `--ttl` passes `["--ttl", "1800"]` |
| `TopLevel.ReleaseArgv` | src/main.rs:155-167 | With `--all` the vector is exactly `["release", "--all"]` and the files are ignored; otherwise it is `["release"] ++ files` |
| `TopLevel.DecodeReserve` | src/main.rs:133-149 | `mailz-cli` reads the reserve vector back as the same files, reason and time to live |
| `TopLevel.DecodeRelease` | src/main.rs:155-167 | `mailz-cli` reads the release vector back as the files, or as "everything" with no files |
| `TopLevel.DecodeReservationArgv` | src/main.rs:133-167 | Every reservation request reaches `mailz-cli` intact |
| `TopLevel.RunMailzCli` | src/main.rs:219-235 | `run_mailz_cli` succeeds exactly when `mailz-cli` starts and exits successfully. It fails with the install hint when it cannot start and with `mailz-cli failed` on a bad exit status. |
| `TopLevel.RunReady` | src/main.rs:169-181 | `ready` fails only when `trx` cannot be started; the exit status is ignored |
| `TopLevel.SearchArgv` | src/main.rs:183-196 | `["search", query]`, then `--workspace` when a repo is given, then `--days` when a limit is given |
| `TopLevel.DecodeSearchArgv` | src/main.rs:183-196 | `cass` reads back the same query, workspace and day limit |
| `TopLevel.RunCass` | src/main.rs:198-206 | `search` fails only when `cass` cannot be started; the exit status is ignored |
| `Memory.ActualContent` | src/memory.rs:129-137 | The content `-` stands for the standard input; any other content is used as given |
| `Memory.AddArgv` | src/memory.rs:127-154 | The vector starts with `["add", content]`. The `-c`, `-t` and `-i` pairs follow, each present exactly when given. The importance is printed in decimal. |
| `Memory.SearchArgv` | src/memory.rs:159-174 | Exactly `["search", q, "--mode", m, "--limit", l]`, with `--json` as a seventh word exactly when asked |
| `Memory.SearchDefaults` | src/memory.rs:29-34 | A search given only its query asks for `["search", q, "--mode", "hybrid", "--limit", "10"]` |
| `Memory.ListArgv` | src/memory.rs:297-324 | `["ls"]`, then `--limit`, `--category`, `--json` and `--full`, in that order, each present exactly when set |
| `Memory.ExportFileName` | src/memory.rs:185-188 | The default file is `export.md` exactly when the format is `md` or `markdown`, and `export.json` otherwise |
| `Memory.PlanExport` | src/memory.rs:176-197 | The exporter is Markdown exactly when the format is. The output file is the one given. `mmry` writes to the temporary file for Markdown and to the output file for JSON, with `--all` as the fourth word exactly when asked. |
| `Memory.ExportDefaults` | src/memory.rs:45-47 | An export with neither output nor format writes JSON straight to `.memories/export.json` |
| `Memory.DefaultFileMatchesExporter` | src/memory.rs:178-196 | Without an output path the file lies in `.memories/`. Its name is `export.md` exactly when the Markdown exporter runs: file name and exporter never disagree. |
| `Memory.WithStore` | src/memory.rs:434-442 | `["--store", repo] ++ args` when the repository has a name, `args` unchanged otherwise |
| `Memory.MemoryArgs` | src/memory.rs:89-118 | Each request's handler builds its own vector: `AddArgv` with `-` replaced by the standard input, `SearchArgv`, the export plan's vector, `ListArgv`, and the fixed `import`, `stats`, `stores list` and `rm` vectors |
| `Memory.MmryArgv` | src/memory.rs:121-330 | Every request but the store listing runs `mmry` with `WithStore(repo, <its handler's vector>)`, so `--store` comes first. The store listing goes through `run_mmry_raw` and selects no store. |
| `Memory.DecodeAdd` | src/memory.rs:121-157 | `mmry` reads the add vector back as the same content, category, tags and importance |
| `Memory.ParseAddArgv` | src/memory.rs:121-157 | For content that is not an `mmry` option name, `mmry` parses the add vector as `add content` with `-c`, `-t` and `-i` carrying exactly the options given, and no switch |
| `Memory.DecodeSearch` | src/memory.rs:159-174 | `mmry` reads the search vector back as the same query, mode, limit and JSON switch |
| `Memory.DecodeList` | src/memory.rs:297-324 | `mmry` reads the list vector back as the same limit, category and switches |
| `Memory.ParseListArgv` | src/memory.rs:297-324 | `mmry` parses the list vector as `ls` with `--limit` and `--category` carrying exactly the options given, and `--json` and `--full` exactly when set |
| `Memory.DecodeExport` | src/memory.rs:199-213 | `mmry` reads the export vector back as the same path and `--all` switch |
| `Memory.DecodeMemoryArgs` | src/memory.rs:89-118 | Every memory command's vector, read without the store, gives the intended request |
| `Memory.InterpretIgnoresStore` | src/memory.rs:436-439 | Selecting a store changes nothing else `mmry` reads |
| `Memory.DecodeMmryArgv` | src/memory.rs:433-442 | Every memory request reaches `mmry` intact. It is addressed to the repository's store when there is a name; the store listing selects none. |
| `Memory.RunMmry` | src/memory.rs:331-347 | A request succeeds exactly when `mmry` starts and exits successfully, with the source's two error messages |
| `AgentIdentity.NonEmpty` | src/memory.rs:403-404 | An empty value reads as absent; any other value is kept |
| `AgentIdentity.DetectAgent` | src/memory.rs:400-431 | An identity exists exactly when `PI_HARNESS`, `OPENCODE` or `AGENT_HARNESS` is set. Pi's empty session and model are dropped. opencode has neither. The generic harness takes its variables as they are. |
| `AgentIdentity.PiOutranksOthers` | src/memory.rs:402-410 | Once `PI_HARNESS` is set, no other variable changes the identity |
| `AgentIdentity.OpencodeOutranksGeneric` | src/memory.rs:413-419 | Without Pi, once `OPENCODE` is set, no other variable changes the identity |
| `AgentIdentity.EmptyValuesDiffer` | src/memory.rs:403-428 | The generic variables give their session and model as they are, empty or not. The same values under Pi's names give the same identity exactly when neither is empty. |
| `AgentIdentity.Meta` | src/memory.rs:454-464 | The metadata holds `repo`, `session` and `model` exactly when each is known, with their values, and nothing else |
| `AgentIdentity.MetaEmpty` | src/memory.rs:454-465 | The metadata is empty exactly when repository, session and model are all unknown |
| `AgentIdentity.AgentVarsFor` | src/memory.rs:449-469 | Variables are set exactly when an agent is detected. The kind is always `coding_agent`. The metadata variable is set exactly when the metadata is non-empty. `Memory.MmryEnv` says which requests receive them. |
| `Memory.MmryEnv` | src/memory.rs:292-347 | The store listing, which goes through `run_mmry_raw`, gets no attribution variables. Every other memory request goes through `run_mmry` and gets those of the detected agent. |
| `MemoryExport.Group` | src/memory.rs:243-251 | A category's group holds only memories of the input with that category |
| `MemoryExport.GroupMembers` | src/memory.rs:243-251 | A memory is in its category's group exactly when it is in the input; an absent category reads as `uncategorized` |
| `MemoryExport.GroupAppend` | src/memory.rs:243-251 | Grouping keeps input order within a category: grouping a concatenation groups each part |
| `MemoryExport.GroupsPartition` | src/memory.rs:243-264 | The document is the title followed by the rendered groups, one per category, in the map's order. Each group holds only memories of its category, and the groups together hold every memory exactly as often as the input does. |
| `MemoryExport.ImportanceTagShape` | src/memory.rs:256-259 | An importance `n` is tagged ` [i:n]`, with `n` in decimal digits that read back as `n` |
| `MemoryExport.ItemLineShape` | src/memory.rs:256-260 | A memory's line is `- ` and its trimmed content, then a line feed without an importance, or ` [i:n]` and a line feed with importance `n` |
| `MemoryExport.ItemsAppend` | src/memory.rs:255-261 | A group's items are its memories' lines one after the other: no text for no memories, and for a list the items of its parts in order |
| `MemoryExport.ItemsOne` | src/memory.rs:255-261 | A single memory is listed as exactly its own line |
| `MemoryExport.RenderGroupsAt` | src/memory.rs:253-264 | The k-th category's section sits between the sections of the categories before it and those after it, each section once |
| `MemoryExport.SectionsInOrder` | src/memory.rs:237-264 | The document is `# Memories` and a blank line, then per category, in the map's order: `## c`, a blank line, the items of that category's memories in input order, and a blank line |
| `MemoryExport.ExportDocument` | src/memory.rs:233-238 | An export whose JSON does not decode renders only the title. A decoded export renders the Markdown document of the decoded memories. |
| `MemoryExport.NoCategories` | src/memory.rs:243-264 | An empty export has no category sections |
| `MemoryExport.EveryMemoryListed` | src/memory.rs:253-263 | Every memory's line is in the section headed `## <category>`, and that section is in the document |
| `Mail.SendArgv` | src/mail.rs:43-52 | `["send", to, subject]`, with `["--body", b]` appended exactly when a body is given |
| `Mail.MailArgv` | src/mail.rs:40-57 | Inbox is exactly `["inbox"]`; read, ack and search are `[verb, arg]` |
| `Mail.DecodeMailArgv` | src/mail.rs:40-57 | Every mail request reaches `mailz-cli` intact, with a body exactly when one was given |
| `Mail.RunMailz` | src/mail.rs:59-75 | A request succeeds exactly when `mailz-cli` starts and exits successfully |
| `Issues.CreateArgv` | src/issues.rs:86-96 | The vector starts with `["create", title, "-t", type, "-p", priority]`, followed by exactly `["-d", d]` when a description is given and by nothing otherwise |
| `Issues.IssuesArgv` | src/issues.rs:60-133 | A bare `issues` is `["list"]`. List puts `--status` at words 1-2 and `--issue-type` last, each exactly when given. Create is `CreateArgv`. Update is `["update", id]`, then `--status` at words 2-3 and `--priority` in decimal last, each exactly when given. Close is `["close", id]` with `["-r", r]` exactly when a reason is given. Show is `["show", id]`. |
| `Issues.DecodeList` | src/issues.rs:63-79 | `trx` reads the list vector back with `--status` and `--issue-type` exactly as given |
| `Issues.DecodeCreate` | src/issues.rs:80-98 | `trx` reads the create vector back as the same title, type, priority and description |
| `Issues.DecodeUpdate` | src/issues.rs:99-119 | `trx` reads the update vector back as the same id, status and priority |
| `Issues.DecodeClose` | src/issues.rs:120-130 | `trx` reads the close vector back as the same id and reason |
| `Issues.DecodeIssuesArgv` | src/issues.rs:60-133 | Every issues request reaches `trx` intact |
| `Issues.BareIssuesLists` | src/issues.rs:62 | A bare `issues` reaches `trx` as a list with no filters |
| `Issues.CreateDefaults` | src/issues.rs:22-26 | With the defaults, `trx` is asked for a `task` of priority `2` |
| `Issues.RunTrx` | src/issues.rs:135-151 | Only a `trx` that cannot be started fails; any exit status succeeds |
| `Schedule.AddArgv` | src/schedule.rs:142-175 | The vector starts with `["add", name, "--schedule", s, "--command", c]`. Then come `--workdir` and `--description` when given. `["--enabled", "false"]` comes last exactly when the schedule starts disabled. |
| `Schedule.EditArgv` | src/schedule.rs:192-222 | `["edit", name]`, then the `--schedule`, `--command`, `--workdir` and `--description` pairs in that order, each present exactly when given |
| `Schedule.ScheduleArgv` | src/schedule.rs:111-275 | add and edit give exactly `AddArgv` and `EditArgv` of their fields; show, enable and disable give `[verb, name]`; status, next, backend and doctor give their one word; list gives `["list"]`, with `["--status", s]` exactly when filtered. `--yes` and `--dry-run` are appended exactly when set. Logs give exactly `["logs", name, "--last", n]`. |
| `Schedule.ParseAddArgv` | src/schedule.rs:142-175 | The add vector reads as the positional `add name` with exactly the options given |
| `Schedule.DecodeAdd` | src/schedule.rs:142-175 | `skdlr` reads the add vector back as the same request, the disabled flag included |
| `Schedule.ParseEditArgv` | src/schedule.rs:192-222 | The edit vector reads as the positional `edit name` with exactly the options given |
| `Schedule.DecodeEdit` | src/schedule.rs:192-222 | `skdlr` reads the edit vector back as the same request |
| `Schedule.LogsDefault` | src/schedule.rs:93-95 | `logs <name>` without `--last` asks for `["logs", name, "--last", "10"]` |
| `Schedule.DecodeLogs` | src/schedule.rs:252-259 | `skdlr` reads the logs vector back with the same count |
| `Schedule.DecodeList` | src/schedule.rs:177-186 | `skdlr` reads the list vector back with the status filter exactly as given |
| `Schedule.DecodeScheduleArgv` | src/schedule.rs:111-275 | Every schedule request reaches `skdlr` intact |
| `Schedule.RunSkdlr` | src/schedule.rs:277-293 | A request succeeds exactly when `skdlr` starts and exits successfully |
| `Tools.CatalogueWellFormed` | src/tools.rs:33-64 | Tool names are distinct, and every install command's crate is one word, so the command has a first word |
| `Tools.InstallWords` | src/tools.rs:117 | `cargo install <crate>` splits into exactly the words `cargo`, `install` and the crate |
| `Tools.InstallCommand` | src/tools.rs:117-121 | The install command runs `cargo` with `install <crate>` |
| `Tools.UpdateCommand` | src/tools.rs:156-163 | The update command is the install command with `--force` added as the last argument |
| `Tools.Find` | src/tools.rs:98 | A tool is found exactly when some catalogue entry has that name, and the one found has it |
| `Tools.FindByName` | src/tools.rs:98 | Every catalogue entry is found by its own name |
| `Tools.MissingTools` | src/tools.rs:110-113 | The tools of the catalogue whose binary is not installed, and no others |
| `Tools.InstallEachMissing` | src/tools.rs:91-95 | `install all` installs exactly the missing tools, in catalogue order |
| `Tools.InstallEach` | src/tools.rs:91-95 | `install all` plans only install steps of tools that are not installed |
| `Tools.InstallAllMissing` | src/tools.rs:91-95 | With nothing installed, `install all` plans every tool in catalogue order |
| `Tools.InstallStepsAt` | src/tools.rs:91-95 | The k-th planned step installs the k-th tool |
| `Tools.InstallNoneMissing` | src/tools.rs:110-113 | With everything installed, `install all` plans nothing |
| `Tools.UpdateEach` | src/tools.rs:133-138 | `update all` plans only update steps of installed tools |
| `Tools.InstalledTools` | src/tools.rs:134-135 | The installed tools of the catalogue, no others, in catalogue order |
| `Tools.UpdateEachInstalled` | src/tools.rs:133-138 | `update all` updates exactly the installed tools, in catalogue order |
| `Tools.UpdateEachCount` | src/tools.rs:133-138 | Every installed tool is updated by `update all` |
| `Tools.PlanInstall` | src/tools.rs:90-130 | An unknown name plans nothing. A known tool is planned exactly when it is not installed, as `cargo install <crate>` reported with `failed to run: cargo install <crate>`. `all` plans `install all`. |
| `Tools.InstallStepShape` | src/tools.rs:117-121 | Splitting `cargo install <crate>` at whitespace runs `cargo` with `install <crate>`, and a failed start is reported as `failed to run: cargo install <crate>` |
| `Tools.PlanUpdate` | src/tools.rs:132-163 | An unknown name plans nothing. A known tool is updated whether or not it is installed, with `--force` and the context message naming it. `all` plans `update all`. |
| `Tools.RunPlan` | src/tools.rs:92-95 | A plan succeeds exactly when every command could be started. The first command that cannot be started stops it with that command's message. |
| `Tools.Doctor` | src/tools.rs:174-200 | Each tool's status says whether it is installed, and the verdict is "all ready" exactly when every tool is installed |
| `AgentsMd.MarkerIsHeading` | src/main.rs:375-381 | A line starting with `## agntz` also starts with `## `, so a marker never closes a section |
| `AgentsMd.Scan` | src/main.rs:374-386 | No kept line starts with the marker, and every kept line comes from the input |
| `AgentsMd.RemoveSection` | src/main.rs:370-389 | No line of the result starts with `## agntz` |
| `AgentsMd.InSectionStep` | src/main.rs:375-381 | The loop's flag is set by a marker line, cleared by another heading, and otherwise carried over |
| `AgentsMd.ScanMatchesReference` | src/main.rs:374-386 | The loop keeps exactly the lines that are not markers and are outside a section or close it |
| `AgentsMd.RemoveSectionKeeps` | src/main.rs:370-389 | `remove_agntz_section` writes exactly the surviving lines, in order, each followed by one line feed |
| `AgentsMd.RemoveSectionWithoutMarker` | src/main.rs:374-388 | Without a marker line, every line is kept unchanged and in order |
| `AgentsMd.ScanKeepsUnmarked` | src/main.rs:383-386 | Lines before the first marker pass through unchanged |
| `AgentsMd.ScanDropsBody` | src/main.rs:379-385 | Inside a section, the lines up to the next heading are dropped |
| `AgentsMd.RemoveBlock` | src/main.rs:375-385 | The marker line and the body up to the next heading go; that heading and everything around it stay |
| `AgentsMd.SectionLinesShape` | src/main.rs:320-335 | The written section is the marker line followed by lines that are not headings |
| `AgentsMd.ComposeAgentsMd` | src/main.rs:337-364 | A missing file is created as `# Agent Instructions` and the section. A file without the marker is kept, less its trailing whitespace, and the section appended. A file with the marker is left alone without `--force`. With it, the file less its section and trailing whitespace is followed by the section. |
| `AgentsMd.AppendKeepsFile` | src/main.rs:351-357 | Any marker-free file ending in whitespace `w` becomes the file without `w`, then the section |
| `AgentsMd.ReplaceKeepsRest` | src/main.rs:340-348 | With `--force`, whatever survives section removal, less its trailing whitespace, is followed by the section |
| `AgentsMd.WrittenHasShape` | src/main.rs:337-364 | Every written text is a marker-free text followed by the section |
| `AgentsMd.WrittenDocument` | src/main.rs:320-364 | A marker-free text followed by a section ends with the section's lines, and its only marker line is the section's first |
| `AgentsMd.WrittenEndsWithSection` | src/main.rs:337-364 | Every text `init` writes ends with the section's lines and has exactly one marker line, the section's first |
| `AgentsMd.SectionAfter` | src/main.rs:320-364 | A marker-free text followed by the section ends with the section's lines, and its only marker line is the section's first |
| `AgentsMd.DocumentMentionsMarker` | src/main.rs:339 | A written text contains `## agntz` |
| `AgentsMd.SecondInitIsNoOp` | src/main.rs:339-350 | Running `init` again without `--force` leaves the written file alone |
| `AgentsMd.RemoveSectionOfDocument` | src/main.rs:342 | Removing the section from a written text gives back the text before it |
| `AgentsMd.ForceOverDocument` | src/main.rs:340-346 | Forcing over a written text rewrites the text before the section, with trailing whitespace removed |
| `AgentsMd.ForceIsStable` | src/main.rs:340-356 | Forcing again over a file `init` appended to or rewrote changes nothing, when the file holds no carriage return |
| `AgentsMd.WrittenPrefix` | src/main.rs:340-357 | What `init` writes over an existing file without carriage returns is a marker-free text, itself without carriage returns and not ending in whitespace, followed by the section |
| `AgentsMd.ForceOverPrefix` | src/main.rs:340-348 | Forcing over such a text followed by the section rewrites it unchanged |
| `AgentsMd.ForceAfterTitle` | src/main.rs:340-346 | Forcing over a one-line title, a blank line and the section drops the blank line |
| `AgentsMd.ForceAfterCreate` | src/main.rs:358-363 | Forcing over a freshly created file drops the blank line after `# Agent Instructions` |
| `Init.MmryInitArgv` | src/main.rs:268-271 | `["init", "--store", repo]`, with `--force` appended exactly when forced |
| `Init.MailzInitArgv` | src/main.rs:286-289 | `["init"]`, or `["init", "--force"]` exactly when forced |
| `Init.ParseMmryInit` | src/main.rs:268-275 | `mmry` reads the init vector as initialising the repository's store, forced exactly when asked |
| `Init.ParseMailzInit` | src/main.rs:286-293 | `mailz-cli` reads the init vector as initialisation, forced exactly when asked |
| `Init.ParseTrxInit` | src/main.rs:304-308 | `trx` reads the init vector with the repository's name as issue prefix |
| `Init.RunInit` | src/main.rs:262-368 | Without a repository name, `init` fails first. It fails next at the first program that cannot be started, with that program's message. Otherwise it performs the `AGENTS.md` step. |
| `Init.StatusesIgnored` | src/main.rs:277-315 | The programs' exit statuses never change what `init` does |
| `Init.InitTwice` | src/main.rs:337-350 | A second `init` without `--force` reports the section as already present |
| `Text.TrimEndUnique` | src/main.rs:344 | `str::trim_end` gives the one prefix that does not end in whitespace and is followed by whitespace only |
| `Text.Lines` | src/main.rs:374 | `str::lines`: no line holds a line feed |
| `Text.LinesOfJoin` | src/main.rs:374-388 | Splitting joined lines gives them back, less one trailing carriage return each |
| `Text.JoinLinesOfLines` | src/main.rs:374-388 | Rejoining the lines of text that has no carriage return and ends at a line break gives the text back |
| `Text.LinesAppend` | src/main.rs:374 | Text ending at a line break splits independently of what follows |
| `Text.SplitWhitespaceKeepsText` | src/tools.rs:117 | `split_whitespace`: the words together are exactly the non-whitespace characters, in order |
| `Text.AfterLastUnique` | src/main.rs:249-250 | A text is `rsplit(sep).next()` exactly when it is a suffix without `sep` that starts the text or follows a `sep` |
| `Text.ParseNatToString` | src/memory.rs:153 | Reading a number's decimal text gives the number back |

## Left out

- **Running programs.** Running companion programs, relaying their output, and `is_installed`'s `which` are left out.
  - Whether a program could be started, and its exit status, are inputs (`Process.Spawn`).
  - The set of installed binaries is an input. `Tools` reads it once per plan, where the source asks `which` again for every tool.
- **Files, environment and standard input.**
  - Reading and writing `AGENTS.md`, the temporary export file, `create_dir_all` and `remove_file` are left out. File contents are parameters and results, and I/O errors are not modelled.
  - Environment variables are a map parameter. `std::env::var` treats a variable whose value is not valid Unicode as unset; the map holds strings only, so such a variable is modelled as absent.
  - Standard input is a string parameter.
  - The temporary export file's path is a parameter (`Memory.PlanExport`'s `tempPath`). The source fixes it as `agnt_export_temp.json` in the system temporary directory.
- **JSON.** `serde_json` decoding of the export and encoding of the metadata map are left out.
  - The decoded memories are an input, `None` when the text does not decode. The source then falls back to an empty list.
  - The metadata stays a map.
  - `created_at` is not modelled because it is never read.
- **Category order.** The order of category sections in the Markdown export follows `HashMap` iteration, which is unspecified. It is an input constrained only to list each present category once.
- **`get_repo_name` called twice.** `run_mmry` calls it twice, once for the store and once for the metadata. The model uses one result for both.
- **Command-line parsing.** clap parsing, help text, shell completions, `println!` wording and async execution are left out. The clap defaults that reach a vector are modelled as constants, each with a lemma that fixes the words it produces: search mode `hybrid` and limit `10` (`Memory.SearchDefaults`), export format `json` (`Memory.ExportDefaults`), issue type `task` and priority `2` (`Issues.CreateDefaults`), reservation time `1800` (`TopLevel.ReserveDefaultTtl`), and logs count `10` (`Schedule.LogsDefault`).
- **Tool entries.** A catalogue entry keeps the crate name. Its install command is `cargo install ` followed by the crate, which is exactly the form of every entry in the table.
- **Search post-processing.** No filtering, truncation or compact rendering of search hits exists in the source. `search` only forwards the query, the workspace and the day limit to `cass`, so none is modelled.
- **Decoders.** The receiving programs' real argument parsers are not part of this model. `Argv.Parse` stands for them, and the round trips hold for any reader that treats valued flags, switches and positionals this way.
- **Init messages.** `Init.RunInit` does not model the progress messages, nor the echoing of a program's error output when it fails.
- **Carriage returns.**
  - `AgentsMd.ForceIsStable` is stated only for files without a carriage return. `str::lines` drops a `\r` before each line feed, so a file with CRLF line ends is normalised by the first forced run, not left as it was.
  - `Text.JoinLinesOfLines` carries the same restriction.
- `Text.Lines`: its contract states only that no line holds a line feed. Its exact meaning is given by `LinesOfJoin`, `JoinLinesOfLines` and `LinesAppend`.

=== FILE: agent_identity.dfy ===
/** Attribution of memories to the coding agent that asked for them (src/memory.rs,
    `detect_agent` and the environment `run_mmry` gives `mmry`). The process
    environment is an input: a map from variable name to value, holding the variables
    that are set. */
module AgentIdentity {
  import opened Common

  type Env = map<string, string>

  function Var(env: Env, name: string): Option<string> {
    if name in env then Some(env[name]) else None
  }

  /** The harness driving the agent, with its session and model when known. */
  datatype Identity = Identity(harness: string, session: Option<string>, model: Option<string>)

  /** `Option::filter(|s| !s.is_empty())`. */
  function NonEmpty(o: Option<string>): (r: Option<string>)
    ensures r.Some? <==> o.Some? && o.value != ""
    ensures r.Some? ==> r == o
  {
    match o
    case Some(s) => if s == "" then None else o
    case None => None
  }

  /** `detect_agent`: Pi first, then opencode, then the generic `AGENT_HARNESS`. */
  function DetectAgent(env: Env): (r: Option<Identity>)
    ensures r.Some? <==> "PI_HARNESS" in env || "OPENCODE" in env || "AGENT_HARNESS" in env
    ensures "PI_HARNESS" in env ==>
              r.value.harness == env["PI_HARNESS"]
              && (r.value.session.Some? <==> "PI_SESSION_ID" in env && env["PI_SESSION_ID"] != "")
              && (r.value.session.Some? ==> r.value.session.value == env["PI_SESSION_ID"])
              && (r.value.model.Some? <==> "PI_MODEL" in env && env["PI_MODEL"] != "")
              && (r.value.model.Some? ==> r.value.model.value == env["PI_MODEL"])
    ensures "PI_HARNESS" !in env && "OPENCODE" in env ==>
              r == Some(Identity("opencode", None, None))
    ensures "PI_HARNESS" !in env && "OPENCODE" !in env && "AGENT_HARNESS" in env ==>
              r.value.harness == env["AGENT_HARNESS"]
              && (r.value.session.Some? <==> "AGENT_SESSION_ID" in env)
              && (r.value.session.Some? ==> r.value.session.value == env["AGENT_SESSION_ID"])
              && (r.value.model.Some? <==> "AGENT_MODEL" in env)
              && (r.value.model.Some? ==> r.value.model.value == env["AGENT_MODEL"])
  {
    if "PI_HARNESS" in env then
      Some(Identity(env["PI_HARNESS"], NonEmpty(Var(env, "PI_SESSION_ID")), NonEmpty(Var(env, "PI_MODEL"))))
    else if "OPENCODE" in env then
      Some(Identity("opencode", None, None))
    else if "AGENT_HARNESS" in env then
      Some(Identity(env["AGENT_HARNESS"], Var(env, "AGENT_SESSION_ID"), Var(env, "AGENT_MODEL")))
    else
      None
  }

  /** Variables of a lower-priority harness never change the identity once a
      higher-priority harness is detected. */
  lemma PiOutranksOthers(env: Env, name: string, value: string)
    requires "PI_HARNESS" in env
    requires name != "PI_HARNESS" && name != "PI_SESSION_ID" && name != "PI_MODEL"
    ensures DetectAgent(env[name := value]) == DetectAgent(env)
  {
    var e := env[name := value];
    assert Var(e, "PI_SESSION_ID") == Var(env, "PI_SESSION_ID");
    assert Var(e, "PI_MODEL") == Var(env, "PI_MODEL");
  }

  lemma OpencodeOutranksGeneric(env: Env, name: string, value: string)
    requires "PI_HARNESS" !in env && "OPENCODE" in env
    requires name != "PI_HARNESS"
    ensures DetectAgent(env[name := value]) == DetectAgent(env)
  {
  }

  /** The generic variables are taken as they are, empty values included, while Pi's
      empty values read as absent: the same variables, renamed, can give different
      identities. */
  lemma {:induction false} EmptyValuesDiffer(harness: string, session: string, model: string)
    ensures var generic := DetectAgent(map["AGENT_HARNESS" := harness, "AGENT_SESSION_ID" := session,
                                           "AGENT_MODEL" := model]);
            var pi := DetectAgent(map["PI_HARNESS" := harness, "PI_SESSION_ID" := session,
                                      "PI_MODEL" := model]);
            generic == Some(Identity(harness, Some(session), Some(model)))
            && (pi == generic <==> session != "" && model != "")
  {
    var g := map["AGENT_HARNESS" := harness, "AGENT_SESSION_ID" := session, "AGENT_MODEL" := model];
    assert "PI_HARNESS" !in g && "OPENCODE" !in g;
  }

  /** The attribution metadata: the repository, session and model that are known. */
  function Meta(repo: Option<string>, id: Identity): (m: map<string, string>)
    ensures "repo" in m <==> repo.Some?
    ensures "session" in m <==> id.session.Some?
    ensures "model" in m <==> id.model.Some?
    ensures repo.Some? ==> m["repo"] == repo.value
    ensures id.session.Some? ==> m["session"] == id.session.value
    ensures id.model.Some? ==> m["model"] == id.model.value
    ensures m.Keys <= {"repo", "session", "model"}
  {
    var m0: map<string, string> := map[];
    var m1 := if repo.Some? then m0["repo" := repo.value] else m0;
    var m2 := if id.session.Some? then m1["session" := id.session.value] else m1;
    if id.model.Some? then m2["model" := id.model.value] else m2
  }

  const KindCodingAgent := "coding_agent"

  /** The variables `run_mmry` sets on `mmry`: the agent, its kind, and the metadata
      (kept as a map; its JSON text is left to the serialiser). */
  datatype AgentVars = AgentVars(agent: string, kind: string, meta: Option<map<string, string>>)

  function AgentVarsFor(env: Env, repo: Option<string>): (r: Option<AgentVars>)
    ensures r.Some? <==> DetectAgent(env).Some?
    ensures r.Some? ==> r.value.agent == DetectAgent(env).value.harness && r.value.kind == KindCodingAgent
    ensures r.Some? ==> (r.value.meta.None? <==>
              repo.None? && DetectAgent(env).value.session.None? && DetectAgent(env).value.model.None?)
    ensures r.Some? && r.value.meta.Some? ==> r.value.meta.value == Meta(repo, DetectAgent(env).value)
  {
    match DetectAgent(env)
    case None => None
    case Some(id) =>
      var m := Meta(repo, id);
      MetaEmpty(repo, id);
      Some(AgentVars(id.harness, KindCodingAgent, if |m| == 0 then None else Some(m)))
  }

  /** The metadata is empty exactly when nothing is known. */
  lemma MetaEmpty(repo: Option<string>, id: Identity)
    ensures |Meta(repo, id)| == 0 <==> repo.None? && id.session.None? && id.model.None?
  {
    var m := Meta(repo, id);
    if repo.Some? {
      assert "repo" in m;
    } else if id.session.Some? {
      assert "session" in m;
    } else if id.model.Some? {
      assert "model" in m;
    }
  }
}

=== FILE: agents_md.dfy ===
/** The `AGENTS.md` step of `init` (src/main.rs:317-389): the agntz section is appended
    to the instructions file, left alone when the file already mentions it, or replaced
    when re-initialisation is forced. A section is a line starting with the marker
    `## agntz` up to the next line starting with `## `. */
module AgentsMd {
  import opened Common
  import opened Text

  const Marker := "## agntz"
  const HeadingPrefix := "## "

  predicate IsMarker(line: string) {
    StartsWith(line, Marker)
  }

  predicate IsHeading(line: string) {
    StartsWith(line, HeadingPrefix)
  }

  /** The marker line is itself a heading, so a marker never ends a section. */
  lemma MarkerIsHeading(line: string)
    ensures IsMarker(line) ==> IsHeading(line)
  {
    if IsMarker(line) {
      assert line[..3] == Marker[..3];
    }
  }

  // ---------------------------------------------------------------------------
  // Removing the section

  /** The loop of `remove_agntz_section` over the remaining lines, `inSection` being the
      loop's flag: a marker line is dropped and opens a section, a heading closes an open
      section and is kept, and other lines are kept outside a section. */
  function Scan(lines: seq<string>, inSection: bool): (kept: seq<string>)
    ensures |kept| <= |lines|
    ensures forall l :: l in kept ==> l in lines && !IsMarker(l)
    decreases |lines|
  {
    if |lines| == 0 then []
    else if IsMarker(lines[0]) then Scan(lines[1..], true)
    else
      var open := inSection && !IsHeading(lines[0]);
      var rest := Scan(lines[1..], open);
      assert forall l :: l in rest ==> l in lines;
      (if open then [] else [lines[0]]) + rest
  }

  /** `remove_agntz_section`: every kept line followed by a line feed; no line of the
      result starts with the marker. */
  function RemoveSection(content: string): (r: string)
    ensures NoLineStartsWith(r, Marker)
  {
    var kept := Scan(Lines(content), false);
    NoLineStartsWithJoin(kept, Marker);
    JoinLines(kept)
  }

  /** Independent description of the same loop: line `i` is inside a section when some
      earlier line is a marker and no heading lies between that marker and line `i`. */
  ghost predicate InSection(lines: seq<string>, i: nat)
    requires i <= |lines|
  {
    exists j :: 0 <= j < i && IsMarker(lines[j]) && forall k :: j < k < i ==> !IsHeading(lines[k])
  }

  /** Line `i` survives when it is not a marker and is either outside a section or the
      heading that closes one. */
  ghost predicate Kept(lines: seq<string>, i: nat)
    requires i < |lines|
  {
    !IsMarker(lines[i]) && (!InSection(lines, i) || IsHeading(lines[i]))
  }

  /** The lines from `i` on that survive, in order. */
  ghost function KeptFrom(lines: seq<string>, i: nat): seq<string>
    requires i <= |lines|
    decreases |lines| - i
  {
    if i == |lines| then []
    else (if Kept(lines, i) then [lines[i]] else []) + KeptFrom(lines, i + 1)
  }

  /** How being in a section changes from one line to the next. */
  lemma InSectionStep(lines: seq<string>, i: nat)
    requires i < |lines|
    ensures InSection(lines, i + 1)
        <==> IsMarker(lines[i]) || (InSection(lines, i) && !IsHeading(lines[i]))
  {
    MarkerIsHeading(lines[i]);
    if IsMarker(lines[i]) {
    } else if IsHeading(lines[i]) {
      forall j | 0 <= j < i + 1 && IsMarker(lines[j])
        ensures exists k :: j < k < i + 1 && IsHeading(lines[k])
      {
        assert j < i && IsHeading(lines[i]);
      }
    } else {
      if InSection(lines, i + 1) {
        var j :| 0 <= j < i + 1 && IsMarker(lines[j]) && forall k :: j < k < i + 1 ==> !IsHeading(lines[k]);
        assert j < i;
      }
      if InSection(lines, i) {
        var j :| 0 <= j < i && IsMarker(lines[j]) && forall k :: j < k < i ==> !IsHeading(lines[k]);
        assert forall k :: j < k < i + 1 ==> !IsHeading(lines[k]);
      }
    }
  }

  /** The loop keeps exactly the lines the description keeps. */
  lemma {:induction false} ScanMatchesReference(lines: seq<string>, i: nat)
    requires i <= |lines|
    ensures Scan(lines[i..], InSection(lines, i)) == KeptFrom(lines, i)
    decreases |lines| - i
  {
    if i < |lines| {
      InSectionStep(lines, i);
      ScanMatchesReference(lines, i + 1);
      assert lines[i..][1..] == lines[i + 1..];
      MarkerIsHeading(lines[i]);
    }
  }

  /** `remove_agntz_section` keeps exactly the surviving lines of its input. */
  lemma RemoveSectionKeeps(content: string)
    ensures RemoveSection(content) == JoinLines(KeptFrom(Lines(content), 0))
  {
    var lines := Lines(content);
    ScanMatchesReference(lines, 0);
    assert lines[0..] == lines;
    assert !InSection(lines, 0);
  }

  /** Without a marker line nothing is removed: the text comes back line by line. */
  lemma RemoveSectionWithoutMarker(content: string)
    requires NoLineStartsWith(content, Marker)
    ensures RemoveSection(content) == JoinLines(Lines(content))
  {
    var lines := Lines(content);
    NoLineStartsWithLines(content, Marker);
    forall k | 0 <= k < |lines| ensures !IsMarker(lines[k]) {
      assert lines[k] in lines;
    }
    ScanKeepsUnmarked(lines, []);
    assert lines + [] == lines;
  }

  /** Lines before the first marker pass through unchanged. */
  lemma {:induction false} ScanKeepsUnmarked(a: seq<string>, rest: seq<string>)
    requires forall k :: 0 <= k < |a| ==> !IsMarker(a[k])
    ensures Scan(a + rest, false) == a + Scan(rest, false)
    decreases |a|
  {
    if |a| > 0 {
      assert (a + rest)[1..] == a[1..] + rest;
      ScanKeepsUnmarked(a[1..], rest);
      assert [a[0]] + (a[1..] + Scan(rest, false)) == a + Scan(rest, false);
    } else {
      assert a + rest == rest;
    }
  }

  /** Inside a section, lines up to the next heading are dropped. */
  lemma {:induction false} ScanDropsBody(b: seq<string>, rest: seq<string>)
    requires forall k :: 0 <= k < |b| ==> !IsHeading(b[k])
    ensures Scan(b + rest, true) == Scan(rest, true)
    decreases |b|
  {
    if |b| > 0 {
      assert (b + rest)[1..] == b[1..] + rest;
      MarkerIsHeading(b[0]);
      ScanDropsBody(b[1..], rest);
    } else {
      assert b + rest == rest;
    }
  }

  /** The whole effect on a file with one section: the marker line and the body up to the
      next heading go, the heading and everything around stay. */
  lemma RemoveBlock(a: seq<string>, m: string, b: seq<string>, h: string, d: seq<string>)
    requires forall k :: 0 <= k < |a| ==> !IsMarker(a[k])
    requires IsMarker(m)
    requires forall k :: 0 <= k < |b| ==> !IsHeading(b[k])
    requires IsHeading(h) && !IsMarker(h)
    ensures Scan(a + [m] + b + [h] + d, false) == a + [h] + Scan(d, false)
  {
    assert a + [m] + b + [h] + d == a + ([m] + (b + ([h] + d)));
    ScanKeepsUnmarked(a, [m] + (b + ([h] + d)));
    assert ([m] + (b + ([h] + d)))[1..] == b + ([h] + d);
    ScanDropsBody(b, [h] + d);
    assert ([h] + d)[1..] == d;
    assert a + ([h] + Scan(d, false)) == a + [h] + Scan(d, false);
  }

  // ---------------------------------------------------------------------------
  // Writing the section

  /** The longer lines of the section `init` writes, each split where its comment
      column starts. */
  const IntroLine := "Use agntz for memory and coordination:"
  const SearchLine := "agntz memory search \"topic\"" + "    # Find relevant context"
  const AddLine := "agntz memory add \"insight\" -c category"
  const InboxLine := "agntz mail inbox" + "               # Check messages"
  const ReserveLine := "agntz reserve <file>" + "           " + "# Before " + "editing shared files"
  const ReleaseLine := "agntz release <file>" + "           # When done"

  /** The lines of the section `init` writes. */
  const SectionLines: seq<string> := [
    Marker, "", IntroLine, "", "```bash",
    SearchLine, AddLine, "agntz memory list", InboxLine, ReserveLine, ReleaseLine,
    "```"
  ]

  /** The section text: a blank separator line, then the section's lines. */
  const Section := "\n" + JoinLines(SectionLines)

  const HeaderLine := "# Agent Instructions"
  const NewFileHeader := HeaderLine + "\n"

  lemma HeaderLineFacts()
    ensures '\n' !in HeaderLine && '\r' !in HeaderLine && !IsMarker(HeaderLine)
    ensures !IsWhitespace(HeaderLine[|HeaderLine| - 1])
  {
    assert HeaderLine[..|Marker|][1] != Marker[1];
  }

  /** The header of a new file holds no marker line and no carriage return. */
  lemma NewFileHeaderFacts()
    ensures WellFormedBefore(NewFileHeader) && '\r' !in NewFileHeader
  {
    HeaderLineFacts();
    NoLineStartsWithJoin([HeaderLine], Marker);
    assert JoinLines([HeaderLine]) == NewFileHeader;
  }

  /** A body line of a section: not a heading, no line break. */
  predicate BodyLine(l: string) {
    (|l| == 0 || l[0] != '#') && '\n' !in l && '\r' !in l
  }

  lemma BodyLineIsNotHeading(l: string)
    requires BodyLine(l)
    ensures !IsHeading(l) && !IsMarker(l)
  {
    if |l| >= 3 {
      assert l[..3][0] == l[0];
    }
    MarkerIsHeading(l);
  }

  /** A body line extended by text without line breaks is still a body line. */
  lemma BodyLineAppend(a: string, b: string)
    requires BodyLine(a) && |a| > 0 && '\n' !in b && '\r' !in b
    ensures BodyLine(a + b)
  {
    assert (a + b)[0] == a[0];
    assert forall c :: c in a + b ==> c in a || c in b;
  }

  /** What a section written by `init` looks like: the marker line, then body lines. */
  predicate SectionShape(sec: seq<string>) {
    |sec| > 0 && sec[0] == Marker && forall k :: 1 <= k < |sec| ==> BodyLine(sec[k])
  }

  lemma SectionShapeFacts(sec: seq<string>)
    requires SectionShape(sec)
    ensures IsMarker(sec[0])
    ensures forall k :: 1 <= k < |sec| ==> !IsHeading(sec[k]) && !IsMarker(sec[k])
    ensures forall l :: l in sec ==> '\n' !in l && '\r' !in l
  {
    assert StartsWith(Marker, Marker);
    forall k | 1 <= k < |sec| ensures !IsHeading(sec[k]) && !IsMarker(sec[k]) {
      BodyLineIsNotHeading(sec[k]);
    }
    assert '\n' !in Marker && '\r' !in Marker;
    forall l | l in sec ensures '\n' !in l && '\r' !in l {
      var k :| 0 <= k < |sec| && sec[k] == l;
      if k > 0 {
        assert BodyLine(sec[k]);
      }
    }
  }

  lemma IntroLineIsBody() ensures BodyLine(IntroLine) {}
  lemma SearchLineIsBody() ensures BodyLine(SearchLine) {}
  lemma AddLineIsBody() ensures BodyLine(AddLine) {}
  lemma InboxLineIsBody() ensures BodyLine(InboxLine) {}
  lemma ReserveLineIsBody() ensures BodyLine(ReserveLine) {
    var a := "agntz reserve <file>" + "           ";
    BodyLineAppend(a, "# Before ");
    BodyLineAppend(a + "# Before ", "editing shared files");
  }
  lemma ReleaseLineIsBody() ensures BodyLine(ReleaseLine) {}

  lemma ShortLines()
    ensures BodyLine("") && BodyLine("```bash") && BodyLine("agntz memory list") && BodyLine("```")
  {
  }

  /** The section `init` writes has the shape above. */
  lemma SectionLinesShape()
    ensures SectionShape(SectionLines)
  {
    IntroLineIsBody();
    SearchLineIsBody();
    AddLineIsBody();
    InboxLineIsBody();
    ReserveLineIsBody();
    ReleaseLineIsBody();
    ShortLines();
  }

  /** What `init` does to `AGENTS.md`. */
  datatype AgentsMdUpdate =
    | Created(text: string)
    | Appended(text: string)
    | Replaced(text: string)
    | AlreadyPresent

  /** The `AGENTS.md` step: `existing` is the file's content, `None` when it does not
      exist. A file mentioning the marker anywhere counts as already holding the section. */
  function ComposeAgentsMd(existing: Option<string>, force: bool): (u: AgentsMdUpdate)
    ensures u.AlreadyPresent? <==> existing.Some? && Contains(existing.value, Marker) && !force
    ensures u.Created? <==> existing.None?
    ensures u.Replaced? <==> existing.Some? && Contains(existing.value, Marker) && force
    ensures !u.AlreadyPresent? ==> EndsWith(u.text, Section)
    ensures u.Created? ==> u.text == NewFileHeader + Section
    ensures u.Appended? ==>
              |u.text| >= |Section|
              && WithoutTrailingWhitespace(existing.value, u.text[..|u.text| - |Section|])
    ensures u.Replaced? ==>
              |u.text| >= |Section|
              && WithoutTrailingWhitespace(RemoveSection(existing.value), u.text[..|u.text| - |Section|])
  {
    match existing
    case None => Created(NewFileHeader + Section)
    case Some(content) =>
      if Contains(content, Marker) then
        if force then
          var kept := TrimEnd(RemoveSection(content));
          assert (kept + Section)[..|kept|] == kept;
          Replaced(kept + Section)
        else AlreadyPresent
      else
        var kept := TrimEnd(content);
        assert (kept + Section)[..|kept|] == kept;
        Appended(kept + Section)
  }

  /** Appending keeps the whole file but its trailing whitespace, then adds the section. */
  lemma AppendKeepsFile(p: string, w: string, force: bool)
    requires |p| == 0 || !IsWhitespace(p[|p| - 1])
    requires forall i :: 0 <= i < |w| ==> IsWhitespace(w[i])
    requires !Contains(p + w, Marker)
    ensures ComposeAgentsMd(Some(p + w), force) == Appended(p + Section)
  {
    TrimEndDropsWhitespaceTail(p, w);
  }

  /** Forcing keeps everything outside the old section but its trailing whitespace, then
      adds the section. */
  lemma ReplaceKeepsRest(content: string, p: string, w: string)
    requires Contains(content, Marker)
    requires RemoveSection(content) == p + w
    requires |p| == 0 || !IsWhitespace(p[|p| - 1])
    requires forall i :: 0 <= i < |w| ==> IsWhitespace(w[i])
    ensures ComposeAgentsMd(Some(content), true) == Replaced(p + Section)
  {
    TrimEndDropsWhitespaceTail(p, w);
  }

  /** A document made of text without marker lines followed by the section. */
  predicate WellFormedBefore(p: string) {
    NoLineStartsWith(p, Marker)
  }

  /** The lines of a marker-free text, a line break, and a section: the text's lines
      followed by the section's lines. */
  lemma {:induction false} LinesOfDocument(p: string, sec: seq<string>)
    requires WellFormedBefore(p) && SectionShape(sec)
    ensures var ls := Lines(p + "\n" + JoinLines(sec));
            |ls| >= |sec| && ls[|ls| - |sec|..] == sec
            && (forall k :: 0 <= k < |ls| - |sec| ==> !IsMarker(ls[k]))
            && ls[..|ls| - |sec|] == Lines(p + "\n")
  {
    SectionShapeFacts(sec);
    var head := p + "\n";
    LinesAppend(head, JoinLines(sec));
    LinesOfJoinPlain(sec);
    NoLineStartsWithNewline(p, Marker);
    NoLineStartsWithLines(head, Marker);
    var ls := Lines(p + "\n" + JoinLines(sec));
    var hl := Lines(head);
    assert ls == hl + sec;
    assert ls[..|hl|] == hl;
    forall k | 0 <= k < |hl| ensures !IsMarker(ls[k]) {
      assert ls[k] == hl[k] && hl[k] in hl;
    }
  }

  /** Every text `init` writes ends with the section's lines, and its only marker line is
      the section's first. */
  lemma WrittenDocument(p: string, sec: seq<string>)
    requires WellFormedBefore(p) && SectionShape(sec)
    ensures var ls := Lines(p + "\n" + JoinLines(sec));
            |ls| >= |sec| && ls[|ls| - |sec|..] == sec
            && forall k :: 0 <= k < |ls| ==> (IsMarker(ls[k]) <==> k == |ls| - |sec|)
  {
    LinesOfDocument(p, sec);
    SectionShapeFacts(sec);
    var ls := Lines(p + "\n" + JoinLines(sec));
    forall k | |ls| - |sec| <= k < |ls| ensures IsMarker(ls[k]) <==> k == |ls| - |sec| {
      assert ls[k] == sec[k - (|ls| - |sec|)];
    }
  }

  /** The texts `init` writes, each a marker-free prefix followed by the section. */
  lemma WrittenHasShape(existing: Option<string>, force: bool)
    requires !ComposeAgentsMd(existing, force).AlreadyPresent?
    ensures var t := ComposeAgentsMd(existing, force).text;
            exists p :: t == p + Section && WellFormedBefore(p)
  {
    var u := ComposeAgentsMd(existing, force);
    match existing
    case None =>
      NewFileHeaderFacts();
      assert u.text == NewFileHeader + Section;
    case Some(content) =>
      if Contains(content, Marker) {
        var removed := RemoveSection(content);
        NoLineStartsWithPrefix(removed, |TrimEnd(removed)|, Marker);
        assert removed[..|TrimEnd(removed)|] == TrimEnd(removed);
        assert u.text == TrimEnd(removed) + Section;
      } else {
        NoLineStartsWithAbsent(content, Marker);
        NoLineStartsWithPrefix(content, |TrimEnd(content)|, Marker);
        assert content[..|TrimEnd(content)|] == TrimEnd(content);
        assert u.text == TrimEnd(content) + Section;
      }
  }

  /** Every text `init` writes ends with the section's lines, and the section's marker
      line is its only one. */
  lemma WrittenEndsWithSection(existing: Option<string>, force: bool)
    requires !ComposeAgentsMd(existing, force).AlreadyPresent?
    ensures var ls := Lines(ComposeAgentsMd(existing, force).text);
            |ls| >= |SectionLines| && ls[|ls| - |SectionLines|..] == SectionLines
            && forall k :: 0 <= k < |ls| ==> (IsMarker(ls[k]) <==> k == |ls| - |SectionLines|)
  {
    WrittenHasShape(existing, force);
    var t := ComposeAgentsMd(existing, force).text;
    var p :| t == p + Section && WellFormedBefore(p);
    SectionAfter(p);
  }

  /** A marker-free text followed by the section ends with the section's lines, and the
      section's marker line is its only one. */
  lemma SectionAfter(p: string)
    requires WellFormedBefore(p)
    ensures var ls := Lines(p + Section);
            |ls| >= |SectionLines| && ls[|ls| - |SectionLines|..] == SectionLines
            && forall k :: 0 <= k < |ls| ==> (IsMarker(ls[k]) <==> k == |ls| - |SectionLines|)
  {
    SectionLinesShape();
    assert p + Section == p + "\n" + JoinLines(SectionLines);
    WrittenDocument(p, SectionLines);
  }

  /** A document holding the section mentions the marker. */
  lemma DocumentMentionsMarker(p: string, sec: seq<string>)
    requires SectionShape(sec)
    ensures Contains(p + "\n" + JoinLines(sec), Marker)
  {
    var t := p + "\n" + JoinLines(sec);
    assert JoinLines(sec) == sec[0] + "\n" + JoinLines(sec[1..]);
    assert t[|p| + 1..] == JoinLines(sec);
    assert JoinLines(sec)[..|Marker|] == Marker;
    ContainsAt(t, |p| + 1, Marker);
  }

  /** Running `init` again without `--force` leaves the file alone. */
  lemma SecondInitIsNoOp(existing: Option<string>, force: bool)
    requires !ComposeAgentsMd(existing, force).AlreadyPresent?
    ensures ComposeAgentsMd(Some(ComposeAgentsMd(existing, force).text), false) == AlreadyPresent
  {
    WrittenHasShape(existing, force);
    var t := ComposeAgentsMd(existing, force).text;
    var p :| t == p + Section && WellFormedBefore(p);
    SectionLinesShape();
    assert t == p + "\n" + JoinLines(SectionLines);
    DocumentMentionsMarker(p, SectionLines);
  }

  /** Removing the section from a document `init` wrote gives back the text before it,
      with its line break. */
  lemma RemoveSectionOfDocument(p: string, sec: seq<string>)
    requires WellFormedBefore(p) && SectionShape(sec) && '\r' !in p
    ensures RemoveSection(p + "\n" + JoinLines(sec)) == p + "\n"
  {
    LinesOfDocument(p, sec);
    SectionShapeFacts(sec);
    var ls := Lines(p + "\n" + JoinLines(sec));
    var hl := Lines(p + "\n");
    assert ls == hl + sec;
    ScanKeepsUnmarked(hl, sec);
    ScanDropsBody(sec[1..], []);
    assert sec[1..] + [] == sec[1..];
    assert Scan(sec, false) == [];
    assert hl + [] == hl;
    assert '\r' !in p + "\n";
    JoinLinesOfLines(p + "\n");
  }

  /** Forcing `init` over a document it wrote rewrites the text before the section with
      its trailing whitespace removed. */
  lemma ForceOverDocument(p: string)
    requires WellFormedBefore(p) && '\r' !in p
    ensures ComposeAgentsMd(Some(p + Section), true) == Replaced(TrimEnd(p + "\n") + Section)
  {
    var t := p + Section;
    SectionLinesShape();
    assert t == p + "\n" + JoinLines(SectionLines);
    DocumentMentionsMarker(p, SectionLines);
    assert Contains(t, Marker);
    RemoveSectionOfDocument(p, SectionLines);
    assert RemoveSection(t) == p + "\n";
  }

  /** The text before the section in a file `init` appended to or rewrote: marker-free,
      not ending in whitespace, and free of carriage returns when the old file was. */
  lemma WrittenPrefix(content: string, force: bool)
    requires '\r' !in content
    requires !ComposeAgentsMd(Some(content), force).AlreadyPresent?
    ensures var t := ComposeAgentsMd(Some(content), force).text;
            |t| >= |Section| && t == t[..|t| - |Section|] + Section
            && var p := t[..|t| - |Section|];
               WellFormedBefore(p) && '\r' !in p && (|p| == 0 || !IsWhitespace(p[|p| - 1]))
  {
    var t := ComposeAgentsMd(Some(content), force).text;
    var body := if Contains(content, Marker) then RemoveSection(content) else content;
    assert t == TrimEnd(body) + Section;
    var p := TrimEnd(body);
    assert t[..|t| - |Section|] == p;
    assert '\r' !in body by {
      if Contains(content, Marker) {
        LinesWithoutCR(content);
        var kept := Scan(Lines(content), false);
        assert forall l :: l in kept ==> l in Lines(content);
        JoinLinesWithoutCR(kept);
      }
    }
    assert p == body[..|p|];
    WrittenHasShape(Some(content), force);
  }

  /** Forcing `init` again over a file it appended to or rewrote changes nothing, when
      the file holds no carriage return. */
  lemma ForceIsStable(existing: Option<string>, force: bool)
    requires existing.Some? && '\r' !in existing.value
    requires !ComposeAgentsMd(existing, force).AlreadyPresent?
    ensures var t := ComposeAgentsMd(existing, force).text;
            ComposeAgentsMd(Some(t), true) == Replaced(t)
  {
    var t := ComposeAgentsMd(existing, force).text;
    WrittenPrefix(existing.value, force);
    var p := t[..|t| - |Section|];
    ForceOverPrefix(p);
  }

  /** Forcing over a trimmed, marker-free text followed by the section gives it back. */
  lemma ForceOverPrefix(p: string)
    requires WellFormedBefore(p) && '\r' !in p && (|p| == 0 || !IsWhitespace(p[|p| - 1]))
    ensures ComposeAgentsMd(Some(p + Section), true) == Replaced(p + Section)
  {
    ForceOverDocument(p);
    TrimEndDropsWhitespaceTail(p, "\n");
  }

  /** Forcing `init` over a one-line title, a blank line and the section drops the blank
      line. */
  lemma ForceAfterTitle(h: string)
    requires '\n' !in h && '\r' !in h && !IsMarker(h)
    requires |h| > 0 && !IsWhitespace(h[|h| - 1])
    ensures ComposeAgentsMd(Some(h + "\n" + Section), true) == Replaced(h + Section)
  {
    var p := h + "\n";
    assert WellFormedBefore(p) by {
      NoLineStartsWithJoin([h], Marker);
      assert JoinLines([h]) == p;
    }
    assert TrimEnd(p + "\n") == h by {
      assert p + "\n" == h + "\n\n";
      TrimEndDropsWhitespaceTail(h, "\n\n");
    }
    ForceOverDocument(p);
  }

  /** Forcing `init` over the file it just created drops the blank line between the
      title and the section; the text is stable from then on. */
  lemma ForceAfterCreate()
    ensures ComposeAgentsMd(Some(ComposeAgentsMd(None, false).text), true)
         == Replaced(HeaderLine + Section)
  {
    HeaderLineFacts();
    ForceAfterTitle(HeaderLine);
  }
}

=== FILE: argv.dfy ===
/** Argument vectors handed to the wrapped programs, and a conventional reader of such
    vectors standing for the receiving program: an option that takes a value consumes
    the element after it, a switch stands alone, and every other element is positional.
    The reader is the independent partner of every argument builder: reading back what
    a builder produced must give back the request it was built from. */
module Argv {
  import opened Common
  import opened Text

  /** `[flag, value]` when the option is present, nothing otherwise: the
      `if let Some(v) = opt { args.push(flag); args.push(v) }` idiom. */
  function Pair(flag: string, value: Option<string>): seq<string> {
    match value
    case Some(v) => [flag, v]
    case None => []
  }

  /** `[flag, n]` with `n` in decimal when the number is given, nothing otherwise. */
  function NumberPair(flag: string, n: Option<nat>): seq<string> {
    match n
    case Some(v) => Pair(flag, Some(NatToString(v)))
    case None => []
  }

  /** `[flag]` exactly when the switch is set. */
  function Switch(flag: string, on: bool): seq<string> {
    if on then [flag] else []
  }

  /** Which elements a receiving program treats as options. */
  datatype Grammar = Grammar(valued: set<string>, switches: set<string>) {
    predicate IsOption(a: string) {
      a in valued || a in switches
    }
  }

  /** What a receiving program sees: positionals in order, option values, switches. */
  datatype Parsed = Parsed(positionals: seq<string>, values: map<string, string>, switches: set<string>)

  const Empty := Parsed([], map[], {})

  function Lookup(m: map<string, string>, key: string): Option<string> {
    if key in m then Some(m[key]) else None
  }

  /** Reads an argument vector; `None` when a valued option is the last element. When an
      option is repeated, its first occurrence wins. */
  function Parse(args: seq<string>, g: Grammar): Option<Parsed>
    decreases |args|
  {
    if |args| == 0 then Some(Empty)
    else if args[0] in g.valued then
      if |args| == 1 then None
      else
        match Parse(args[2..], g)
        case None => None
        case Some(p) => Some(p.(values := p.values[args[0] := args[1]]))
    else
      match Parse(args[1..], g)
      case None => None
      case Some(p) =>
        if args[0] in g.switches then Some(p.(switches := p.switches + {args[0]}))
        else Some(p.(positionals := [args[0]] + p.positionals))
  }

  /** What reading `x` then `y` gives, the earlier occurrence of an option winning. */
  function Merge(a: Parsed, b: Parsed): Parsed {
    Parsed(a.positionals + b.positionals, b.values + a.values, a.switches + b.switches)
  }

  /** A vector that reads on its own reads the same at the front of a longer one. */
  lemma {:induction false} ParseAppend(x: seq<string>, y: seq<string>, g: Grammar)
    requires Parse(x, g).Some? && Parse(y, g).Some?
    ensures Parse(x + y, g) == Some(Merge(Parse(x, g).value, Parse(y, g).value))
    decreases |x|
  {
    var py := Parse(y, g).value;
    if |x| == 0 {
      assert x + y == y;
      assert Merge(Empty, py) == py;
    } else if x[0] in g.valued {
      assert (x + y)[2..] == x[2..] + y;
      ParseAppend(x[2..], y, g);
      var px' := Parse(x[2..], g).value;
      assert (py.values + px'.values)[x[0] := x[1]] == py.values + px'.values[x[0] := x[1]];
    } else {
      assert (x + y)[1..] == x[1..] + y;
      ParseAppend(x[1..], y, g);
      var px' := Parse(x[1..], g).value;
      if x[0] in g.switches {
        assert px'.switches + {x[0]} + py.switches == px'.switches + py.switches + {x[0]};
      } else {
        assert [x[0]] + px'.positionals + py.positionals == [x[0]] + (px'.positionals + py.positionals);
      }
    }
  }

  /** Elements that are not option names read as positionals, in order. */
  lemma {:induction false} ParsePositionals(ps: seq<string>, g: Grammar)
    requires forall a :: a in ps ==> !g.IsOption(a)
    ensures Parse(ps, g) == Some(Parsed(ps, map[], {}))
    decreases |ps|
  {
    if |ps| > 0 {
      assert ps[0] in ps;
      assert forall a :: a in ps[1..] ==> a in ps;
      ParsePositionals(ps[1..], g);
      assert [ps[0]] + ps[1..] == ps;
    }
  }

  function PairMap(flag: string, value: Option<string>): map<string, string> {
    if value.Some? then map[flag := value.value] else map[]
  }

  /** An option added beneath the ones already read is seen only under its own name. */
  lemma LookupUnder(flag: string, value: Option<string>, m: map<string, string>, key: string)
    requires flag !in m
    ensures Lookup(PairMap(flag, value) + m, key) == if key == flag then value else Lookup(m, key)
  {
  }

  /** A present option reads back as its value, an absent one as nothing. */
  lemma ParsePair(flag: string, value: Option<string>, g: Grammar)
    requires flag in g.valued
    ensures Parse(Pair(flag, value), g) == Some(Parsed([], PairMap(flag, value), {}))
  {
    if value.Some? {
      assert Pair(flag, value)[2..] == [];
    }
  }

  lemma ParseSwitch(flag: string, on: bool, g: Grammar)
    requires flag in g.switches && flag !in g.valued
    ensures Parse(Switch(flag, on), g) == Some(Parsed([], map[], if on then {flag} else {}))
  {
    if on {
      assert Switch(flag, on)[1..] == [];
      assert Empty.switches + {flag} == {flag};
    }
  }

  /** An optional valued option after a vector that reads: its value joins the others,
      nothing else changes. */
  lemma ParseThenPair(head: seq<string>, p: Parsed, flag: string, value: Option<string>, g: Grammar)
    requires Parse(head, g) == Some(p) && flag in g.valued
    ensures Parse(head + Pair(flag, value), g) == Some(p.(values := PairMap(flag, value) + p.values))
  {
    ParsePair(flag, value, g);
    ParseAppend(head, Pair(flag, value), g);
    assert p.positionals + [] == p.positionals;
    assert p.switches + {} == p.switches;
  }

  /** A switch after a vector that reads: it joins the switches exactly when it is set. */
  lemma ParseThenSwitch(head: seq<string>, p: Parsed, flag: string, on: bool, g: Grammar)
    requires Parse(head, g) == Some(p) && flag in g.switches && flag !in g.valued
    ensures Parse(head + Switch(flag, on), g)
         == Some(p.(switches := p.switches + if on then {flag} else {}))
  {
    ParseSwitch(flag, on, g);
    ParseAppend(head, Switch(flag, on), g);
    assert p.positionals + [] == p.positionals;
    assert map[] + p.values == p.values;
  }

  /** A valued option at the front of a vector that reads: its value joins the others. */
  lemma ParseValuedFirst(flag: string, value: string, rest: seq<string>, p: Parsed, g: Grammar)
    requires Parse(rest, g) == Some(p) && flag in g.valued
    ensures Parse([flag, value] + rest, g) == Some(p.(values := p.values[flag := value]))
  {
    assert ([flag, value] + rest)[2..] == rest;
  }
}

=== FILE: common.dfy ===
/** Small value types shared by every part of the dispatcher model. */
module Common {

  /** Rust's `Option`: a value that may be absent. */
  datatype Option<+T> = None | Some(value: T) {

    /** `Option::unwrap_or`. */
    function GetOr(default: T): T {
      match this
      case Some(v) => v
      case None => default
    }
  }

  /** Fixed-width unsigned integers of the source, as subset types of `nat`.
      Command-line parsing guarantees the range, so no wrap-around arises. */
  type u8 = n: nat | n < 0x100
  type u32 = n: nat | n < 0x1_0000_0000
  type usize = n: nat | n < 0x1_0000_0000_0000_0000
}

=== FILE: init.dfy ===
/** `agntz init` (src/main.rs, `handle_init`): name the repository, initialise the
    memory store, the mail system and the issue tracker for it, then add the agent
    instructions to `AGENTS.md`. The three programs' exit statuses are only used to
    decide whether to echo their error output, so only a program that cannot be started
    stops the command. */
module Init {
  import opened Common
  import opened Argv
  import opened Process
  import opened AgentsMd
  import Memory
  import Mail
  import Issues

  function MmryInitArgv(repo: string, force: bool): (r: seq<string>)
    ensures |r| >= 3 && r[..3] == ["init", "--store", repo]
    ensures |r| == 4 <==> force
    ensures |r| == 3 || r[3] == "--force"
  {
    ["init", "--store", repo] + Switch("--force", force)
  }

  function MailzInitArgv(force: bool): (r: seq<string>)
    ensures |r| >= 1 && r[0] == "init"
    ensures force <==> r == ["init", "--force"]
    ensures !force <==> r == ["init"]
  {
    ["init"] + Switch("--force", force)
  }

  function TrxInitArgv(repo: string): seq<string> {
    ["init", "--prefix", repo]
  }

  /** `mmry` reads its initialisation as: initialise the store named after the
      repository, forcing exactly when asked. */
  lemma ParseMmryInit(repo: string, force: bool)
    ensures Parse(MmryInitArgv(repo, force), Memory.MmryGrammar)
         == Some(Parsed(["init"], map["--store" := repo], if force then {"--force"} else {}))
  {
    var g := Memory.MmryGrammar;
    ParsePositionals([], g);
    ParseValuedFirst("--store", repo, [], Empty, g);
    assert ["--store", repo] + [] == ["--store", repo];
    ParsePositionals(["init"], g);
    ParseAppend(["init"], ["--store", repo], g);
    var p := Parsed(["init"], map["--store" := repo], {});
    assert ["init"] + [] == ["init"];
    assert map["--store" := repo] + map[] == map["--store" := repo];
    assert Merge(Parsed(["init"], map[], {}), Parsed([], map["--store" := repo], {})) == p;
    assert ["init"] + ["--store", repo] == ["init", "--store", repo];
    ParseThenSwitch(["init", "--store", repo], p, "--force", force, g);
    var sw: set<string> := if force then {"--force"} else {};
    assert p.switches + sw == sw;
  }

  lemma ParseMailzInit(force: bool)
    ensures Parse(MailzInitArgv(force), Mail.MailzGrammar)
         == Some(Parsed(["init"], map[], if force then {"--force"} else {}))
  {
    ParsePositionals(["init"], Mail.MailzGrammar);
    ParseThenSwitch(["init"], Parsed(["init"], map[], {}), "--force", force, Mail.MailzGrammar);
    var sw: set<string> := if force then {"--force"} else {};
    assert Parsed(["init"], map[], {}).switches + sw == sw;
  }

  /** `trx` reads its initialisation as: use the repository's name as issue prefix. */
  lemma ParseTrxInit(repo: string)
    ensures Parse(TrxInitArgv(repo), Issues.TrxGrammar) == Some(Parsed(["init"], map["--prefix" := repo], {}))
  {
    ParsePositionals(["init"], Issues.TrxGrammar);
    ParseThenPair(["init"], Parsed(["init"], map[], {}), "--prefix", Some(repo), Issues.TrxGrammar);
    assert map["--prefix" := repo] + map[] == map["--prefix" := repo];
  }

  const NoRepoName := "could not determine repo name"
  const MmryMissing := "failed to run mmry init - is mmry installed?"
  const MailzMissing := "failed to run mailz-cli init - is mailz installed?"
  const TrxMissing := "failed to run trx init - is trx installed?"

  /** How `init` ends: with an error message, or with what it did to `AGENTS.md`. */
  datatype InitResult = InitFailed(message: string) | Initialized(update: AgentsMdUpdate)

  /** `handle_init`, given the repository name `get_repo_name` found, how starting each
      of the three programs went, and the current `AGENTS.md` (`None` when absent). */
  function RunInit(force: bool, repo: Option<string>, mmry: Spawn, mailz: Spawn, trx: Spawn,
                   existing: Option<string>): (r: InitResult)
    ensures r == InitFailed(NoRepoName) <==> repo.None?
    ensures r.Initialized? <==> repo.Some? && mmry.Finished? && mailz.Finished? && trx.Finished?
    ensures r.Initialized? ==> r.update == ComposeAgentsMd(existing, force)
    ensures repo.Some? && mmry.NotStarted? ==> r == InitFailed(MmryMissing)
    ensures repo.Some? && mmry.Finished? && mailz.NotStarted? ==> r == InitFailed(MailzMissing)
    ensures repo.Some? && mmry.Finished? && mailz.Finished? && trx.NotStarted? ==> r == InitFailed(TrxMissing)
  {
    if repo.None? then InitFailed(NoRepoName)
    else if mmry.NotStarted? then InitFailed(MmryMissing)
    else if mailz.NotStarted? then InitFailed(MailzMissing)
    else if trx.NotStarted? then InitFailed(TrxMissing)
    else Initialized(ComposeAgentsMd(existing, force))
  }

  /** The programs' exit statuses never change what `init` does. */
  lemma StatusesIgnored(force: bool, repo: Option<string>, a: ExitStatus, b: ExitStatus, c: ExitStatus,
                        existing: Option<string>)
    ensures RunInit(force, repo, Finished(a), Finished(b), Finished(c), existing)
         == RunInit(force, repo, Finished(Exited(0)), Finished(Exited(0)), Finished(Exited(0)), existing)
  {
  }

  /** Running `init` twice without `--force` leaves `AGENTS.md` as the first run left it. */
  lemma InitTwice(repo: string, existing: Option<string>, force: bool)
    requires !ComposeAgentsMd(existing, force).AlreadyPresent?
    ensures var written := ComposeAgentsMd(existing, force).text;
            RunInit(false, Some(repo), Finished(Exited(0)), Finished(Exited(0)), Finished(Exited(0)), Some(written))
            == Initialized(AlreadyPresent)
  {
    SecondInitIsNoOp(existing, force);
  }
}

=== FILE: issues.dfy ===
/** The `issues` subcommands (src/issues.rs): each request becomes a `trx` argument
    vector. `trx` exiting unsuccessfully is not an error of the dispatcher. */
module Issues {
  import opened Common
  import opened Text
  import opened Argv
  import opened Process

  datatype IssuesCommand =
    | List(status: Option<string>, typeFilter: Option<string>)
    | Create(title: string, issueType: string, priority: u8, description: Option<string>)
    | Update(id: string, status: Option<string>, newPriority: Option<u8>)
    | Close(id: string, reason: Option<string>)
    | Show(id: string)

  /** Defaults the command line supplies for `issues create`. */
  const DefaultIssueType := "task"
  const DefaultPriority: u8 := 2

  /** The options `trx` reads, those of `trx init` included. */
  const TrxGrammar := Grammar({"--status", "--issue-type", "-t", "-p", "-d", "--priority", "-r", "--prefix"}, {})

  /** A user-supplied string that `trx` cannot mistake for one of its options. */
  predicate Plain(a: string) {
    !TrxGrammar.IsOption(a)
  }

  function CreateArgv(title: string, issueType: string, priority: u8, description: Option<string>): (r: seq<string>)
    ensures |r| >= 6 && r[..6] == ["create", title, "-t", issueType, "-p", NatToString(priority)]
    ensures |r| == 6 <==> description.None?
    ensures description.Some? ==> r[6..] == ["-d", description.value]
  {
    ["create", title, "-t", issueType, "-p", NatToString(priority)] + Pair("-d", description)
  }

  function ListArgv(status: Option<string>, issueType: Option<string>): (r: seq<string>)
    ensures |r| == 1 + (if status.Some? then 2 else 0) + (if issueType.Some? then 2 else 0)
    ensures r[0] == "list"
    ensures status.Some? ==> r[1..3] == ["--status", status.value]
    ensures issueType.Some? ==> r[|r| - 2..] == ["--issue-type", issueType.value]
  {
    var head := ["list"] + Pair("--status", status);
    var r := head + Pair("--issue-type", issueType);
    assert r[..|head|] == head;
    r
  }

  function UpdateArgv(id: string, status: Option<string>, priority: Option<u8>): (r: seq<string>)
    ensures |r| == 2 + (if status.Some? then 2 else 0) + (if priority.Some? then 2 else 0)
    ensures r[..2] == ["update", id]
    ensures status.Some? ==> r[2..4] == ["--status", status.value]
    ensures priority.Some? ==> r[|r| - 2..] == ["--priority", NatToString(priority.value)]
  {
    var head := ["update", id] + Pair("--status", status);
    var r := head + NumberPair("--priority", priority);
    assert r[..|head|] == head;
    r
  }

  /** The argument vector `handle` passes to `trx`; a bare `issues` lists. */
  function IssuesArgv(cmd: Option<IssuesCommand>): (r: seq<string>)
    ensures |r| > 0
    ensures (cmd.None? || cmd.value.List?) <==> r[0] == "list"
    ensures cmd.None? ==> r == ["list"]
    ensures cmd.Some? && cmd.value.List? ==> r == ListArgv(cmd.value.status, cmd.value.typeFilter)
    ensures cmd.Some? && cmd.value.Create? ==>
              r == CreateArgv(cmd.value.title, cmd.value.issueType, cmd.value.priority, cmd.value.description)
    ensures cmd.Some? && cmd.value.Update? ==>
              r == UpdateArgv(cmd.value.id, cmd.value.status, cmd.value.newPriority)
    ensures cmd.Some? && cmd.value.Close? ==>
              r == ["close", cmd.value.id] + (if cmd.value.reason.Some? then ["-r", cmd.value.reason.value] else [])
    ensures cmd.Some? && cmd.value.Show? ==> r == ["show", cmd.value.id]
  {
    match cmd
    case None => ["list"]
    case Some(List(status, issueType)) => ListArgv(status, issueType)
    case Some(Create(title, issueType, priority, description)) =>
      CreateArgv(title, issueType, priority, description)
    case Some(Update(id, status, priority)) => UpdateArgv(id, status, priority)
    case Some(Close(id, reason)) => ["close", id] + Pair("-r", reason)
    case Some(Show(id)) => ["show", id]
  }

  /** How `trx` reads an issues request back. */
  function DecodeIssues(args: seq<string>): Option<IssuesCommand> {
    match Parse(args, TrxGrammar)
    case None => None
    case Some(p) => Interpret(p)
  }

  function Interpret(p: Parsed): Option<IssuesCommand> {
    var pos, v := p.positionals, p.values;
    if pos == ["list"] then Some(List(Lookup(v, "--status"), Lookup(v, "--issue-type")))
    else if |pos| != 2 then None
    else if pos[0] == "create" then
      if "-t" in v && "-p" in v then
        match ParseNatBelow(v["-p"], 0x100)
        case Some(n) => Some(Create(pos[1], v["-t"], n, Lookup(v, "-d")))
        case None => None
      else None
    else if pos[0] == "update" then
      match ReadByte(Lookup(v, "--priority"))
      case Some(priority) => Some(Update(pos[1], Lookup(v, "--status"), priority))
      case None => None
    else if pos[0] == "close" then Some(Close(pos[1], Lookup(v, "-r")))
    else if pos[0] == "show" then Some(Show(pos[1]))
    else None
  }

  predicate PlainRequest(cmd: IssuesCommand) {
    match cmd
    case List(_, _) => true
    case Create(title, _, _, _) => Plain(title)
    case Update(id, _, _) => Plain(id)
    case Close(id, _) => Plain(id)
    case Show(id) => Plain(id)
  }

  lemma DecodeList(status: Option<string>, issueType: Option<string>)
    ensures DecodeIssues(IssuesArgv(Some(List(status, issueType)))) == Some(List(status, issueType))
  {
    var g := TrxGrammar;
    var p0 := Parsed(["list"], map[], {});
    ParsePositionals(["list"], g);
    ParseThenPair(["list"], p0, "--status", status, g);
    var m1 := PairMap("--status", status);
    assert m1 + map[] == m1;
    var p1 := p0.(values := m1);
    ParseThenPair(["list"] + Pair("--status", status), p1, "--issue-type", issueType, g);
    var v := PairMap("--issue-type", issueType) + m1;
    LookupUnder("--issue-type", issueType, m1, "--issue-type");
    LookupUnder("--issue-type", issueType, m1, "--status");
  }

  lemma DecodeCreate(title: string, issueType: string, priority: u8, description: Option<string>)
    requires Plain(title)
    ensures DecodeIssues(CreateArgv(title, issueType, priority, description))
         == Some(Create(title, issueType, priority, description))
  {
    var g := TrxGrammar;
    var text := NatToString(priority);
    var head := ["create", title, "-t", issueType, "-p", text];
    ParsePositionals(["create", title], g);
    assert ["-p", text] + [] == ["-p", text];
    ParseValuedFirst("-p", text, [], Empty, g);
    ParseValuedFirst("-t", issueType, ["-p", text], Parsed([], map["-p" := text], {}), g);
    var m := map["-p" := text]["-t" := issueType];
    ParseAppend(["create", title], ["-t", issueType] + ["-p", text], g);
    assert head == ["create", title] + (["-t", issueType] + ["-p", text]);
    var p := Parsed(["create", title], m, {});
    assert Parse(head, g) == Some(p);
    ParseThenPair(head, p, "-d", description, g);
    var v := PairMap("-d", description) + m;
    LookupUnder("-d", description, m, "-d");
    assert v["-t"] == issueType && v["-p"] == text;
    ParseNatBelowToString(priority, 0x100);
  }

  lemma DecodeUpdate(id: string, status: Option<string>, priority: Option<u8>)
    requires Plain(id)
    ensures DecodeIssues(IssuesArgv(Some(Update(id, status, priority)))) == Some(Update(id, status, priority))
  {
    var g := TrxGrammar;
    var p0 := Parsed(["update", id], map[], {});
    ParsePositionals(["update", id], g);
    ParseThenPair(["update", id], p0, "--status", status, g);
    var m1 := PairMap("--status", status);
    assert m1 + map[] == m1;
    var text := if priority.Some? then Some(NatToString(priority.value)) else None;
    assert NumberPair("--priority", priority) == Pair("--priority", text);
    ParseThenPair(["update", id] + Pair("--status", status), p0.(values := m1), "--priority", text, g);
    LookupUnder("--priority", text, m1, "--priority");
    LookupUnder("--priority", text, m1, "--status");
    if priority.Some? {
      ParseNatBelowToString(priority.value, 0x100);
    }
  }

  lemma DecodeClose(id: string, reason: Option<string>)
    requires Plain(id)
    ensures DecodeIssues(IssuesArgv(Some(Close(id, reason)))) == Some(Close(id, reason))
  {
    var g := TrxGrammar;
    ParsePositionals(["close", id], g);
    ParseThenPair(["close", id], Parsed(["close", id], map[], {}), "-r", reason, g);
    assert PairMap("-r", reason) + map[] == PairMap("-r", reason);
  }

  /** Every issues request reaches `trx` intact: reading the vector back gives the
      request, each optional field present exactly when it was given. */
  lemma DecodeIssuesArgv(cmd: IssuesCommand)
    requires PlainRequest(cmd)
    ensures DecodeIssues(IssuesArgv(Some(cmd))) == Some(cmd)
  {
    match cmd
    case List(status, issueType) => DecodeList(status, issueType);
    case Create(title, issueType, priority, description) =>
      DecodeCreate(title, issueType, priority, description);
    case Update(id, status, priority) => DecodeUpdate(id, status, priority);
    case Close(id, reason) => DecodeClose(id, reason);
    case Show(id) => ParsePositionals(["show", id], TrxGrammar);
  }

  /** A bare `issues` reaches `trx` as a list request with no filters. */
  lemma BareIssuesLists()
    ensures DecodeIssues(IssuesArgv(None)) == Some(List(None, None))
  {
    DecodeList(None, None);
    assert IssuesArgv(None) == IssuesArgv(Some(List(None, None)));
  }

  /** `issues create` with only a title asks `trx` for a task of priority 2. */
  lemma CreateDefaults(title: string, description: Option<string>)
    ensures CreateArgv(title, DefaultIssueType, DefaultPriority, description)[..6]
         == ["create", title, "-t", "task", "-p", "2"]
  {
    assert NatToString(2) == [DigitChar(2)];
  }

  /** `run_trx`: only a `trx` that cannot be started fails the request; its exit
      status is ignored. */
  function RunTrx(sp: Spawn): (o: Outcome)
    ensures o == Ok <==> sp.Finished?
    ensures sp.NotStarted? ==> o == Failed("failed to run trx - is trx installed?")
  {
    Relay(sp, "failed to run trx - is trx installed?", None)
  }
}

=== FILE: mail.dfy ===
/** The `mail` subcommands (src/mail.rs): each request becomes a `mailz-cli` argument
    vector, and the call fails exactly when `mailz-cli` does. */
module Mail {
  import opened Common
  import opened Argv
  import opened Process

  datatype MailCommand =
    | Inbox
    | Send(to: string, subject: string, body: Option<string>)
    | Read(id: string)
    | Ack(id: string)
    | Search(query: string)

  /** The options `mailz-cli` reads, over every request the dispatcher sends it
      (this file and the reservation commands of the top level). */
  const MailzGrammar := Grammar({"--body", "--ttl", "--reason"}, {"--all", "--force"})

  /** A user-supplied string that `mailz-cli` cannot mistake for one of its options. */
  predicate Plain(a: string) {
    !MailzGrammar.IsOption(a)
  }

  function SendArgv(to: string, subject: string, body: Option<string>): (r: seq<string>)
    ensures |r| == 3 || |r| == 5
    ensures r[..3] == ["send", to, subject]
    ensures |r| == 5 <==> body.Some?
    ensures body.Some? ==> r[3..] == ["--body", body.value]
  {
    ["send", to, subject] + Pair("--body", body)
  }

  /** The argument vector `handle` passes to `mailz-cli`. */
  function MailArgv(cmd: MailCommand): (r: seq<string>)
    ensures cmd.Inbox? <==> r == ["inbox"]
    ensures cmd.Send? ==> r == SendArgv(cmd.to, cmd.subject, cmd.body)
    ensures cmd.Read? ==> r == ["read", cmd.id]
    ensures cmd.Ack? ==> r == ["ack", cmd.id]
    ensures cmd.Search? ==> r == ["search", cmd.query]
  {
    match cmd
    case Inbox => ["inbox"]
    case Send(to, subject, body) => SendArgv(to, subject, body)
    case Read(id) => ["read", id]
    case Ack(id) => ["ack", id]
    case Search(query) => ["search", query]
  }

  /** How `mailz-cli` reads a mail request back. */
  function DecodeMail(args: seq<string>): Option<MailCommand> {
    match Parse(args, MailzGrammar)
    case None => None
    case Some(p) =>
      var pos := p.positionals;
      if pos == ["inbox"] then Some(Inbox)
      else if |pos| == 3 && pos[0] == "send" then Some(Send(pos[1], pos[2], Lookup(p.values, "--body")))
      else if |pos| == 2 && pos[0] == "read" then Some(Read(pos[1]))
      else if |pos| == 2 && pos[0] == "ack" then Some(Ack(pos[1]))
      else if |pos| == 2 && pos[0] == "search" then Some(Search(pos[1]))
      else None
  }

  predicate PlainRequest(cmd: MailCommand) {
    match cmd
    case Inbox => true
    case Send(to, subject, _) => Plain(to) && Plain(subject)
    case Read(id) => Plain(id)
    case Ack(id) => Plain(id)
    case Search(query) => Plain(query)
  }

  /** Every mail request reaches `mailz-cli` intact: reading the vector back gives the
      request, body included exactly when one was given. */
  lemma DecodeMailArgv(cmd: MailCommand)
    requires PlainRequest(cmd)
    ensures DecodeMail(MailArgv(cmd)) == Some(cmd)
  {
    match cmd
    case Inbox =>
      ParsePositionals(["inbox"], MailzGrammar);
    case Send(to, subject, body) =>
      ParsePositionals(["send", to, subject], MailzGrammar);
      ParsePair("--body", body, MailzGrammar);
      ParseAppend(["send", to, subject], Pair("--body", body), MailzGrammar);
    case Read(id) =>
      ParsePositionals(["read", id], MailzGrammar);
    case Ack(id) =>
      ParsePositionals(["ack", id], MailzGrammar);
    case Search(query) =>
      ParsePositionals(["search", query], MailzGrammar);
  }

  /** `run_mailz`: the request succeeds exactly when `mailz-cli` starts and exits successfully. */
  function RunMailz(sp: Spawn): (o: Outcome)
    ensures o == Ok <==> sp.Finished? && Success(sp.status)
    ensures sp.NotStarted? ==> o == Failed("failed to run mailz-cli - is mailz installed?")
    ensures sp.Finished? && o != Ok ==> o == Failed("mailz-cli failed")
  {
    Relay(sp, "failed to run mailz-cli - is mailz installed?", Some("mailz-cli failed"))
  }
}

=== FILE: memory.dfy ===
/** The `memory` subcommands (src/memory.rs): each request becomes an `mmry` argument
    vector. Every request but the store listing is addressed to the repository's own
    store, and the call fails exactly when `mmry` does. */
module Memory {
  import opened Common
  import opened Text
  import opened Argv
  import opened Process
  import opened AgentIdentity

  datatype MemoryCommand =
    | Add(content: string, category: Option<string>, tags: Option<string>, importance: Option<u8>)
    | Search(query: string, mode: string, limit: usize, json: bool)
    | Export(output: Option<string>, format: string, all: bool)
    | Import(file: string)
    | Stats
    | Stores
    | List(listLimit: Option<usize>, category: Option<string>, json: bool, full: bool)
    | Remove(id: string)

  /** Defaults the command line supplies for `memory search`. */
  const DefaultMode := "hybrid"
  const DefaultLimit: usize := 10

  /** The content argument that stands for standard input. */
  const StdinMarker := "-"

  /** The options `mmry` reads, `--store` and those of `mmry init` included. */
  const MmryGrammar := Grammar(
    {"--store", "-c", "-t", "-i", "--mode", "--limit", "-o", "--category"},
    {"--json", "--all", "--full", "--force"})

  predicate Plain(a: string) {
    !MmryGrammar.IsOption(a)
  }

  // ---------------------------------------------------------------------------
  // Argument vectors

  /** The text stored by `memory add`: the standard input when the content is `-`. */
  function ActualContent(content: string, stdin: string): (r: string)
    ensures content != StdinMarker ==> r == content
    ensures content == StdinMarker ==> r == stdin
  {
    if content == StdinMarker then stdin else content
  }

  function AddArgv(content: string, category: Option<string>, tags: Option<string>,
                   importance: Option<u8>): (r: seq<string>)
    ensures |r| >= 2 && r[..2] == ["add", content]
    ensures |r| == 2 + (if category.Some? then 2 else 0) + (if tags.Some? then 2 else 0)
                     + (if importance.Some? then 2 else 0)
    ensures category.Some? ==> r[2..4] == ["-c", category.value]
    ensures tags.Some? ==> (var k := if category.Some? then 4 else 2;
                             r[k..k + 2] == ["-t", tags.value])
    ensures importance.Some? ==> r[|r| - 2..] == ["-i", NatToString(importance.value)]
  {
    var head := ["add", content] + Pair("-c", category);
    var pairs := head + Pair("-t", tags);
    var r := pairs + NumberPair("-i", importance);
    assert r[..|pairs|] == pairs && pairs[..|head|] == head;
    r
  }

  function SearchArgv(query: string, mode: string, limit: usize, json: bool): (r: seq<string>)
    ensures |r| == 6 || |r| == 7
    ensures r[..6] == ["search", query, "--mode", mode, "--limit", NatToString(limit)]
    ensures |r| == 7 <==> json
    ensures json ==> r[6] == "--json"
  {
    ["search", query, "--mode", mode, "--limit", NatToString(limit)] + Switch("--json", json)
  }

  /** A `memory search` given only its query searches in `hybrid` mode for ten results. */
  lemma SearchDefaults(query: string)
    ensures SearchArgv(query, DefaultMode, DefaultLimit, false)
         == ["search", query, "--mode", "hybrid", "--limit", "10"]
  {
    assert NatToString(1) == "1" && NatToString(10) == NatToString(1) + "0";
    assert NatToString(DefaultLimit) == "10";
    assert Switch("--json", false) == [];
  }

  function ListArgv(limit: Option<usize>, category: Option<string>, json: bool, full: bool): (r: seq<string>)
    ensures |r| >= 1 && r[0] == "ls"
    ensures |r| == 1 + (if limit.Some? then 2 else 0) + (if category.Some? then 2 else 0)
                     + (if json then 1 else 0) + (if full then 1 else 0)
    ensures limit.Some? ==> r[1..3] == ["--limit", NatToString(limit.value)]
    ensures category.Some? ==> (var k := if limit.Some? then 3 else 1;
                                 r[k..k + 2] == ["--category", category.value])
    ensures json ==> r[1 + (if limit.Some? then 2 else 0) + (if category.Some? then 2 else 0)] == "--json"
    ensures full ==> r[|r| - 1] == "--full"
  {
    var head := ["ls"] + NumberPair("--limit", limit);
    var pairs := head + Pair("--category", category);
    var flags := pairs + Switch("--json", json);
    var r := flags + Switch("--full", full);
    assert r[..|flags|] == flags;
    assert flags[..|pairs|] == pairs;
    assert pairs[..|head|] == head;
    r
  }

  // ---------------------------------------------------------------------------
  // Export

  predicate IsMarkdown(format: string) {
    format == "md" || format == "markdown"
  }

  const MemoriesDir := ".memories"
  const MarkdownFile := "export.md"
  const JsonFile := "export.json"

  function ExportFileName(format: string): (r: string)
    ensures r == MarkdownFile <==> IsMarkdown(format)
    ensures r == MarkdownFile || r == JsonFile
  {
    if IsMarkdown(format) then MarkdownFile else JsonFile
  }

  function DefaultExportPath(format: string): string {
    MemoriesDir + "/" + ExportFileName(format)
  }

  /** What `export` does: the file it produces, whether it renders Markdown, and the
      vector it passes to `mmry`. A Markdown export has `mmry` write JSON to a
      temporary file first. */
  datatype ExportPlan = ExportPlan(path: string, markdown: bool, args: seq<string>)

  function PlanExport(output: Option<string>, format: string, all: bool, tempPath: string): (e: ExportPlan)
    ensures e.markdown <==> IsMarkdown(format)
    ensures output.Some? ==> e.path == output.value
    ensures |e.args| >= 3 && e.args[..3] == ["export", "-o", if e.markdown then tempPath else e.path]
    ensures |e.args| == 4 <==> all
    ensures all ==> e.args[3] == "--all"
  {
    var path := if output.Some? then output.value else DefaultExportPath(format);
    var markdown := IsMarkdown(format);
    ExportPlan(path, markdown, ["export", "-o", if markdown then tempPath else path] + Switch("--all", all))
  }

  /** The export format the command line supplies when none is given. */
  const DefaultFormat := "json"

  /** `memory export` with neither `--output` nor `--format` writes JSON straight to
      `.memories/export.json`. */
  lemma ExportDefaults(all: bool, tempPath: string)
    ensures var e := PlanExport(None, DefaultFormat, all, tempPath);
            !e.markdown && e.path == ".memories/export.json"
            && e.args[..3] == ["export", "-o", ".memories/export.json"]
  {
    assert !IsMarkdown(DefaultFormat);
    assert DefaultExportPath(DefaultFormat) == ".memories/export.json";
  }

  /** Without `--output`, the file is `.memories/export.md` exactly when the export is
      Markdown, and `.memories/export.json` otherwise: the file name and the exporter
      never disagree. */
  lemma DefaultFileMatchesExporter(format: string, all: bool, tempPath: string)
    ensures var e := PlanExport(None, format, all, tempPath);
            StartsWith(e.path, MemoriesDir + "/")
            && (AfterLast(e.path, '/') == MarkdownFile <==> e.markdown)
            && (AfterLast(e.path, '/') == JsonFile <==> !e.markdown)
  {
    var name := ExportFileName(format);
    assert '/' !in name;
    AfterLastSep(MemoriesDir, '/', name);
    assert (MemoriesDir + "/" + name)[..|MemoriesDir + "/"|] == MemoriesDir + "/";
  }

  // ---------------------------------------------------------------------------
  // The vector `mmry` receives

  /** The arguments a handler passes to `run_mmry`, or to `run_mmry_raw` for `stores`. */
  function MemoryArgs(cmd: MemoryCommand, stdin: string, tempPath: string): (r: seq<string>)
    ensures |r| > 0
    ensures cmd.Add? ==> r == AddArgv(ActualContent(cmd.content, stdin), cmd.category, cmd.tags, cmd.importance)
    ensures cmd.Search? ==> r == SearchArgv(cmd.query, cmd.mode, cmd.limit, cmd.json)
    ensures cmd.Export? ==> r == PlanExport(cmd.output, cmd.format, cmd.all, tempPath).args
    ensures cmd.Import? ==> r == ["import", cmd.file]
    ensures cmd.Stats? ==> r == ["stats"]
    ensures cmd.Stores? ==> r == ["stores", "list"]
    ensures cmd.List? ==> r == ListArgv(cmd.listLimit, cmd.category, cmd.json, cmd.full)
    ensures cmd.Remove? ==> r == ["rm", cmd.id]
  {
    match cmd
    case Add(content, category, tags, importance) =>
      AddArgv(ActualContent(content, stdin), category, tags, importance)
    case Search(query, mode, limit, json) => SearchArgv(query, mode, limit, json)
    case Export(output, format, all) => PlanExport(output, format, all, tempPath).args
    case Import(file) => ["import", file]
    case Stats => ["stats"]
    case Stores => ["stores", "list"]
    case List(limit, category, json, full) => ListArgv(limit, category, json, full)
    case Remove(id) => ["rm", id]
  }

  /** Whether the handler goes through `run_mmry`, which selects the repository's store. */
  predicate UsesStore(cmd: MemoryCommand) {
    !cmd.Stores?
  }

  /** `run_mmry`'s vector: the store selection first when the repository has a name. */
  function WithStore(repo: Option<string>, args: seq<string>): (r: seq<string>)
    ensures repo.None? ==> r == args
    ensures repo.Some? ==> |r| == |args| + 2 && r[..2] == ["--store", repo.value] && r[2..] == args
  {
    match repo
    case Some(name) => ["--store", name] + args
    case None => args
  }

  /** The full vector `mmry` is started with. */
  function MmryArgv(cmd: MemoryCommand, stdin: string, tempPath: string, repo: Option<string>): (r: seq<string>)
    ensures !UsesStore(cmd) ==> r == ["stores", "list"]
    ensures UsesStore(cmd) ==> r == WithStore(repo, MemoryArgs(cmd, stdin, tempPath))
  {
    var args := MemoryArgs(cmd, stdin, tempPath);
    if UsesStore(cmd) then WithStore(repo, args) else args
  }

  /** The attribution variables `mmry` is started with: the detected agent's for every
      request `run_mmry` makes, none for the store listing, which `run_mmry_raw` makes. */
  function MmryEnv(cmd: MemoryCommand, env: Env, repo: Option<string>): (r: Option<AgentVars>)
    ensures cmd.Stores? ==> r.None?
    ensures !cmd.Stores? ==> r == AgentVarsFor(env, repo)
    ensures r.Some? ==> !cmd.Stores? && DetectAgent(env).Some?
  {
    if UsesStore(cmd) then AgentVarsFor(env, repo) else None
  }

  // ---------------------------------------------------------------------------
  // Reading a vector back

  /** A memory request as `mmry` understands it. */
  datatype MmryRequest =
    | MAdd(content: string, category: Option<string>, tags: Option<string>, importance: Option<u8>)
    | MSearch(query: string, mode: string, limit: usize, json: bool)
    | MExport(path: string, all: bool)
    | MImport(file: string)
    | MStats
    | MStoresList
    | MList(listLimit: Option<usize>, category: Option<string>, json: bool, full: bool)
    | MRemove(id: string)

  /** What `mmry` must be asked for each command: the same fields, with the standard
      input in place of `-` and the export written where the plan says. */
  function Intended(cmd: MemoryCommand, stdin: string, tempPath: string): MmryRequest {
    match cmd
    case Add(content, category, tags, importance) =>
      MAdd(ActualContent(content, stdin), category, tags, importance)
    case Search(query, mode, limit, json) => MSearch(query, mode, limit, json)
    case Export(output, format, all) =>
      var e := PlanExport(output, format, all, tempPath);
      MExport(if e.markdown then tempPath else e.path, all)
    case Import(file) => MImport(file)
    case Stats => MStats
    case Stores => MStoresList
    case List(limit, category, json, full) => MList(limit, category, json, full)
    case Remove(id) => MRemove(id)
  }

  function ReadUsize(text: Option<string>): (r: Option<Option<usize>>)
    ensures text.None? ==> r == Some(None)
  {
    match text
    case None => Some(None)
    case Some(t) =>
      match ParseNatBelow(t, 0x1_0000_0000_0000_0000)
      case Some(n) => Some(Some(n))
      case None => None
  }

  /** How `mmry` reads a vector: the store it selects and the request. */
  function DecodeMmry(args: seq<string>): Option<(Option<string>, MmryRequest)> {
    match Parse(args, MmryGrammar)
    case None => None
    case Some(p) =>
      match Interpret(p)
      case None => None
      case Some(req) => Some((Lookup(p.values, "--store"), req))
  }

  function Interpret(p: Parsed): Option<MmryRequest> {
    var pos, v, sw := p.positionals, p.values, p.switches;
    if pos == ["stats"] then Some(MStats)
    else if pos == ["stores", "list"] then Some(MStoresList)
    else if pos == ["export"] then
      if "-o" in v then Some(MExport(v["-o"], "--all" in sw)) else None
    else if pos == ["ls"] then
      match ReadUsize(Lookup(v, "--limit"))
      case Some(limit) => Some(MList(limit, Lookup(v, "--category"), "--json" in sw, "--full" in sw))
      case None => None
    else if |pos| != 2 then None
    else if pos[0] == "add" then
      match ReadByte(Lookup(v, "-i"))
      case Some(importance) => Some(MAdd(pos[1], Lookup(v, "-c"), Lookup(v, "-t"), importance))
      case None => None
    else if pos[0] == "search" then
      if "--mode" in v && "--limit" in v then
        match ParseNatBelow(v["--limit"], 0x1_0000_0000_0000_0000)
        case Some(n) => Some(MSearch(pos[1], v["--mode"], n, "--json" in sw))
        case None => None
      else None
    else if pos[0] == "import" then Some(MImport(pos[1]))
    else if pos[0] == "rm" then Some(MRemove(pos[1]))
    else None
  }

  /** The user-supplied strings of a command (and the standard input or temporary path
      it may use) are not `mmry` option names. */
  predicate PlainRequest(cmd: MemoryCommand, stdin: string, tempPath: string) {
    match cmd
    case Add(content, _, _, _) => Plain(ActualContent(content, stdin))
    case Search(query, _, _, _) => Plain(query)
    case Export(output, format, _) =>
      (output.Some? ==> Plain(output.value)) && (IsMarkdown(format) ==> Plain(tempPath))
    case Import(file) => Plain(file)
    case Stats => true
    case Stores => true
    case List(_, _, _, _) => true
    case Remove(id) => Plain(id)
  }

  /** The number text the add vector gives for its importance. */
  function ImportanceText(importance: Option<u8>): Option<string> {
    if importance.Some? then Some(NatToString(importance.value)) else None
  }

  /** The add vector reads as `add content` with the options that were given. */
  lemma ParseAddArgv(content: string, category: Option<string>, tags: Option<string>, importance: Option<u8>)
    requires Plain(content)
    ensures Parse(AddArgv(content, category, tags, importance), MmryGrammar)
         == Some(Parsed(["add", content],
                        PairMap("-i", ImportanceText(importance)) + (PairMap("-t", tags) + PairMap("-c", category)),
                        {}))
  {
    var g := MmryGrammar;
    var text := ImportanceText(importance);
    var m1 := PairMap("-c", category);
    var m2 := PairMap("-t", tags) + m1;
    var p0 := Parsed(["add", content], map[], {});
    ParsePositionals(["add", content], g);
    ParseThenPair(["add", content], p0, "-c", category, g);
    assert m1 + map[] == m1;
    var h1 := ["add", content] + Pair("-c", category);
    ParseThenPair(h1, p0.(values := m1), "-t", tags, g);
    assert NumberPair("-i", importance) == Pair("-i", text);
    ParseThenPair(h1 + Pair("-t", tags), p0.(values := m2), "-i", text, g);
  }

  lemma DecodeAdd(content: string, category: Option<string>, tags: Option<string>, importance: Option<u8>)
    requires Plain(content)
    ensures var p := Parse(AddArgv(content, category, tags, importance), MmryGrammar);
            p.Some? && Interpret(p.value) == Some(MAdd(content, category, tags, importance))
            && "--store" !in p.value.values
  {
    var text := ImportanceText(importance);
    var m1 := PairMap("-c", category);
    var m2 := PairMap("-t", tags) + m1;
    var m3 := PairMap("-i", text) + m2;
    ParseAddArgv(content, category, tags, importance);
    assert Lookup(m3, "-i") == text && Lookup(m3, "-c") == category && Lookup(m3, "-t") == tags
           && "--store" !in m3 by {
      LookupUnder("-i", text, m2, "-i");
      LookupUnder("-i", text, m2, "-c");
      LookupUnder("-i", text, m2, "-t");
      LookupUnder("-t", tags, m1, "-c");
      LookupUnder("-t", tags, m1, "-t");
    }
    assert ReadByte(text) == Some(importance) by {
      if importance.Some? {
        ParseNatBelowToString(importance.value, 0x100);
      }
    }
  }

  lemma DecodeSearch(query: string, mode: string, limit: usize, json: bool)
    requires Plain(query)
    ensures var p := Parse(SearchArgv(query, mode, limit, json), MmryGrammar);
            p.Some? && Interpret(p.value) == Some(MSearch(query, mode, limit, json))
            && "--store" !in p.value.values
  {
    var g := MmryGrammar;
    var text := NatToString(limit);
    ParsePositionals(["search", query], g);
    ParseValuedFirst("--limit", text, [], Empty, g);
    assert ["--limit", text] + [] == ["--limit", text];
    ParseValuedFirst("--mode", mode, ["--limit", text], Parsed([], map["--limit" := text], {}), g);
    var m := map["--limit" := text]["--mode" := mode];
    ParseAppend(["search", query], ["--mode", mode] + ["--limit", text], g);
    var head := ["search", query, "--mode", mode, "--limit", text];
    assert head == ["search", query] + (["--mode", mode] + ["--limit", text]);
    var p := Parsed(["search", query], m, {});
    assert Parse(head, g) == Some(p);
    ParseThenSwitch(head, p, "--json", json, g);
    ParseNatBelowToString(limit, 0x1_0000_0000_0000_0000);
  }

  /** The number text the list vector gives for its limit. */
  function LimitText(limit: Option<usize>): Option<string> {
    if limit.Some? then Some(NatToString(limit.value)) else None
  }

  /** The list vector reads as `ls` with the limit and category options and the switches
      that were set. */
  lemma ParseListArgv(limit: Option<usize>, category: Option<string>, json: bool, full: bool)
    ensures Parse(ListArgv(limit, category, json, full), MmryGrammar)
         == Some(Parsed(["ls"], PairMap("--category", category) + PairMap("--limit", LimitText(limit)),
                        (if json then {"--json"} else {}) + (if full then {"--full"} else {})))
  {
    var g := MmryGrammar;
    var text := LimitText(limit);
    var m1 := PairMap("--limit", text);
    var m2 := PairMap("--category", category) + m1;
    var s3: set<string> := if json then {"--json"} else {};
    var p0 := Parsed(["ls"], map[], {});
    ParsePositionals(["ls"], g);
    assert NumberPair("--limit", limit) == Pair("--limit", text);
    ParseThenPair(["ls"], p0, "--limit", text, g);
    assert m1 + map[] == m1;
    var h1 := ["ls"] + Pair("--limit", text);
    ParseThenPair(h1, p0.(values := m1), "--category", category, g);
    var p2 := p0.(values := m2);
    var h2 := h1 + Pair("--category", category);
    ParseThenSwitch(h2, p2, "--json", json, g);
    assert {} + s3 == s3;
    ParseThenSwitch(h2 + Switch("--json", json), p2.(switches := s3), "--full", full, g);
  }

  lemma DecodeList(limit: Option<usize>, category: Option<string>, json: bool, full: bool)
    ensures var p := Parse(ListArgv(limit, category, json, full), MmryGrammar);
            p.Some? && Interpret(p.value) == Some(MList(limit, category, json, full))
            && "--store" !in p.value.values
  {
    var text := LimitText(limit);
    var m1 := PairMap("--limit", text);
    var m2 := PairMap("--category", category) + m1;
    var s4 := (if json then {"--json"} else {}) + (if full then {"--full"} else {});
    ParseListArgv(limit, category, json, full);
    assert Lookup(m2, "--limit") == text && Lookup(m2, "--category") == category && "--store" !in m2 by {
      LookupUnder("--category", category, m1, "--category");
      LookupUnder("--category", category, m1, "--limit");
    }
    assert ReadUsize(text) == Some(limit) by {
      if limit.Some? {
        ParseNatBelowToString(limit.value, 0x1_0000_0000_0000_0000);
      }
    }
    assert ("--json" in s4 <==> json) && ("--full" in s4 <==> full);
  }

  lemma DecodeExport(path: string, all: bool)
    requires Plain(path)
    ensures var p := Parse(["export", "-o", path] + Switch("--all", all), MmryGrammar);
            p.Some? && Interpret(p.value) == Some(MExport(path, all))
            && "--store" !in p.value.values
  {
    var g := MmryGrammar;
    ParsePositionals(["export"], g);
    ParseValuedFirst("-o", path, [], Empty, g);
    assert ["-o", path] + [] == ["-o", path];
    ParseAppend(["export"], ["-o", path], g);
    assert ["export"] + ["-o", path] == ["export", "-o", path];
    var p := Parsed(["export"], map["-o" := path], {});
    assert Parse(["export", "-o", path], g) == Some(p);
    ParseThenSwitch(["export", "-o", path], p, "--all", all, g);
  }

  /** The vector of every command, read without the store selection, gives the
      intended request. */
  lemma DecodeMemoryArgs(cmd: MemoryCommand, stdin: string, tempPath: string)
    requires PlainRequest(cmd, stdin, tempPath)
    ensures var p := Parse(MemoryArgs(cmd, stdin, tempPath), MmryGrammar);
            p.Some? && Interpret(p.value) == Some(Intended(cmd, stdin, tempPath))
            && "--store" !in p.value.values
  {
    var g := MmryGrammar;
    match cmd
    case Add(content, category, tags, importance) =>
      DecodeAdd(ActualContent(content, stdin), category, tags, importance);
    case Search(query, mode, limit, json) => DecodeSearch(query, mode, limit, json);
    case Export(output, format, all) =>
      var e := PlanExport(output, format, all, tempPath);
      var target := if e.markdown then tempPath else e.path;
      if output.None? && !e.markdown {
        assert |DefaultExportPath(format)| == 21;
      }
      assert Plain(target);
      DecodeExport(target, all);
    case Import(file) => ParsePositionals(["import", file], g);
    case Stats => ParsePositionals(["stats"], g);
    case Stores => ParsePositionals(["stores", "list"], g);
    case List(limit, category, json, full) => DecodeList(limit, category, json, full);
    case Remove(id) => ParsePositionals(["rm", id], g);
  }

  /** Selecting a store changes nothing else `mmry` reads. */
  lemma InterpretIgnoresStore(p: Parsed, repo: string)
    ensures Interpret(p.(values := p.values["--store" := repo])) == Interpret(p)
  {
    var v, w := p.values, p.values["--store" := repo];
    assert forall k :: k != "--store" ==> Lookup(w, k) == Lookup(v, k);
    assert forall k :: k != "--store" ==> (k in w <==> k in v);
  }

  /** Every memory request reaches `mmry` intact and addressed to the repository's
      store when it has a name; the store listing selects no store. */
  lemma DecodeMmryArgv(cmd: MemoryCommand, stdin: string, tempPath: string, repo: Option<string>)
    requires PlainRequest(cmd, stdin, tempPath)
    ensures DecodeMmry(MmryArgv(cmd, stdin, tempPath, repo))
         == Some((if UsesStore(cmd) then repo else None, Intended(cmd, stdin, tempPath)))
  {
    DecodeMemoryArgs(cmd, stdin, tempPath);
    var args := MemoryArgs(cmd, stdin, tempPath);
    var p := Parse(args, MmryGrammar).value;
    if UsesStore(cmd) && repo.Some? {
      ParseValuedFirst("--store", repo.value, args, p, MmryGrammar);
      InterpretIgnoresStore(p, repo.value);
    }
  }

  /** `run_mmry` and `run_mmry_raw`: the request succeeds exactly when `mmry` starts
      and exits successfully. */
  function RunMmry(sp: Spawn): (o: Outcome)
    ensures o == Ok <==> sp.Finished? && Success(sp.status)
    ensures sp.NotStarted? ==> o == Failed("failed to run mmry - is mmry installed?")
    ensures sp.Finished? && o != Ok ==> o == Failed("mmry command failed")
  {
    Relay(sp, "failed to run mmry - is mmry installed?", Some("mmry command failed"))
  }
}

=== FILE: memory_export.dfy ===
/** The Markdown export of memories (src/memory.rs, `export_markdown`): the memories
    `mmry` exported as JSON, grouped by category and rendered as a Markdown list. The
    JSON decoding is outside the model; its result is an input, `None` when the text
    did not decode. The order of the category sections is that of a hash map's
    iteration, which the source leaves unspecified; it is an input too, constrained
    only to list every category present exactly once. */
module MemoryExport {
  import opened Common
  import opened Text

  datatype Memory = Memory(content: string, category: Option<string>, importance: Option<u8>)

  const Uncategorized := "uncategorized"

  function CategoryOf(m: Memory): string {
    m.category.GetOr(Uncategorized)
  }

  /** The memories of one category, in input order. */
  function Group(ms: seq<Memory>, c: string): (g: seq<Memory>)
    ensures forall m :: m in g ==> m in ms && CategoryOf(m) == c
    ensures |g| <= |ms|
    decreases |ms|
  {
    if |ms| == 0 then []
    else (if CategoryOf(ms[0]) == c then [ms[0]] else []) + Group(ms[1..], c)
  }

  /** The categories that occur, each exactly once, in the order the map yields them. */
  predicate ValidOrder(ms: seq<Memory>, order: seq<string>) {
    (forall i, j :: 0 <= i < j < |order| ==> order[i] != order[j])
    && (forall c :: c in order ==> exists m :: m in ms && CategoryOf(m) == c)
    && (forall m :: m in ms ==> CategoryOf(m) in order)
  }

  function Groups(ms: seq<Memory>, order: seq<string>): (gs: seq<seq<Memory>>)
    ensures |gs| == |order|
    ensures forall i :: 0 <= i < |order| ==> gs[i] == Group(ms, order[i])
    decreases |order|
  {
    if |order| == 0 then [] else [Group(ms, order[0])] + Groups(ms, order[1..])
  }

  function Flatten(gs: seq<seq<Memory>>): seq<Memory>
    decreases |gs|
  {
    if |gs| == 0 then [] else gs[0] + Flatten(gs[1..])
  }

  // ---------------------------------------------------------------------------
  // Rendering

  const Title := "# Memories\n\n"

  /** ` [i:<n>]` for a memory with an importance, nothing otherwise. */
  function ImportanceTag(importance: Option<u8>): (r: string)
    ensures importance.None? <==> r == ""
  {
    match importance
    case Some(n) => " [i:" + NatToString(n) + "]"
    case None => ""
  }

  /** An importance `n` is tagged as ` [i:n]`, with `n` in decimal, which reads back as
      `n`. */
  lemma ImportanceTagShape(n: u8)
    ensures var digits := NatToString(n);
            ImportanceTag(Some(n)) == " [i:" + digits + "]"
            && ParseNat(digits) == Some(n as nat)
  {
    ParseNatToString(n);
  }

  function ItemLine(m: Memory): string {
    "- " + Trim(m.content) + ImportanceTag(m.importance) + "\n"
  }

  function Items(ms: seq<Memory>): string
    decreases |ms|
  {
    if |ms| == 0 then [] else ItemLine(ms[0]) + Items(ms[1..])
  }

  function SectionText(c: string, ms: seq<Memory>): string {
    "## " + c + "\n\n" + Items(ms) + "\n"
  }

  /** The category sections, in the map's order, each listing its group. */
  function RenderGroups(order: seq<string>, gs: seq<seq<Memory>>): string
    requires |gs| == |order|
    decreases |order|
  {
    if |order| == 0 then [] else SectionText(order[0], gs[0]) + RenderGroups(order[1..], gs[1..])
  }

  /** The Markdown document written to the export file: the title, then the groups. */
  function RenderMarkdown(ms: seq<Memory>, order: seq<string>): (r: string)
    requires ValidOrder(ms, order)
    ensures StartsWith(r, Title)
  {
    Title + RenderGroups(order, Groups(ms, order))
  }

  /** What `export_markdown` writes for the decoded export; text that does not decode
      exports no memories. */
  function ExportDocument(decoded: Option<seq<Memory>>, order: seq<string>): (r: string)
    requires ValidOrder(decoded.GetOr([]), order)
    ensures decoded.None? ==> r == Title
    ensures decoded.Some? ==> r == RenderMarkdown(decoded.value, order)
  {
    if decoded.None? then
      NoCategories(order);
      assert RenderGroups(order, Groups([], order)) == [];
      RenderMarkdown([], order)
    else
      RenderMarkdown(decoded.value, order)
  }

  /** An export with no memories has no categories. */
  lemma NoCategories(order: seq<string>)
    ensures ValidOrder([], order) <==> order == []
  {
    if order != [] {
      assert order[0] in order;
    }
  }

  // ---------------------------------------------------------------------------
  // Every memory appears exactly once, under its own category, in input order

  /** The memories whose category is one of `cats`, in input order. */
  ghost function SelectIn(ms: seq<Memory>, cats: set<string>): seq<Memory>
    decreases |ms|
  {
    if |ms| == 0 then []
    else (if CategoryOf(ms[0]) in cats then [ms[0]] else []) + SelectIn(ms[1..], cats)
  }

  lemma {:induction false} SelectSplit(ms: seq<Memory>, c: string, rest: set<string>)
    requires c !in rest
    ensures multiset(SelectIn(ms, {c} + rest)) == multiset(Group(ms, c)) + multiset(SelectIn(ms, rest))
    decreases |ms|
  {
    if |ms| > 0 {
      SelectSplit(ms[1..], c, rest);
    }
  }

  lemma {:induction false} SelectAll(ms: seq<Memory>, cats: set<string>)
    requires forall m :: m in ms ==> CategoryOf(m) in cats
    ensures SelectIn(ms, cats) == ms
    decreases |ms|
  {
    if |ms| > 0 {
      assert ms[0] in ms;
      assert forall m :: m in ms[1..] ==> m in ms;
      SelectAll(ms[1..], cats);
      assert [ms[0]] + ms[1..] == ms;
    }
  }

  lemma {:induction false} FlattenGroups(ms: seq<Memory>, order: seq<string>)
    requires forall i, j :: 0 <= i < j < |order| ==> order[i] != order[j]
    ensures multiset(Flatten(Groups(ms, order))) == multiset(SelectIn(ms, set c | c in order))
    decreases |order|
  {
    if |order| == 0 {
      assert (set c | c in order) == {};
      SelectNone(ms);
    } else {
      var c, rest := order[0], order[1..];
      FlattenGroups(ms, rest);
      assert Flatten(Groups(ms, order)) == Group(ms, c) + Flatten(Groups(ms, rest)) by {
        assert Groups(ms, order) == [Group(ms, c)] + Groups(ms, rest);
        ConsTail(Group(ms, c), Groups(ms, rest));
      }
      assert (set x | x in order) == {c} + (set x | x in rest);
      forall k | 0 <= k < |rest| ensures rest[k] != c {
        assert order[k + 1] == rest[k];
      }
      assert c !in (set x | x in rest);
      SelectSplit(ms, c, set x | x in rest);
    }
  }

  lemma {:induction false} SelectNone(ms: seq<Memory>)
    ensures SelectIn(ms, {}) == []
    decreases |ms|
  {
    if |ms| > 0 {
      SelectNone(ms[1..]);
    }
  }

  /** The document renders one group per category, and the groups together hold every
      memory exactly as often as the export does: nothing is lost, duplicated or moved
      to another category. */
  lemma GroupsPartition(ms: seq<Memory>, order: seq<string>)
    requires ValidOrder(ms, order)
    ensures RenderMarkdown(ms, order) == Title + RenderGroups(order, Groups(ms, order))
    ensures multiset(Flatten(Groups(ms, order))) == multiset(ms)
    ensures forall i, m :: 0 <= i < |order| && m in Groups(ms, order)[i] ==> CategoryOf(m) == order[i]
  {
    FlattenGroups(ms, order);
    var cats := set c | c in order;
    forall m | m in ms ensures CategoryOf(m) in cats {
      assert CategoryOf(m) in order;
    }
    SelectAll(ms, cats);
  }

  /** Within a category, memories keep their input order: grouping a concatenation
      groups each part. */
  lemma {:induction false} GroupAppend(a: seq<Memory>, b: seq<Memory>, c: string)
    ensures Group(a + b, c) == Group(a, c) + Group(b, c)
    decreases |a|
  {
    if |a| == 0 {
      assert a + b == b;
    } else {
      assert (a + b)[1..] == a[1..] + b;
      GroupAppend(a[1..], b, c);
    }
  }

  /** A category's memories are exactly those carrying it, or none for uncategorized. */
  lemma {:induction false} GroupMembers(ms: seq<Memory>, c: string, m: Memory)
    ensures m in Group(ms, c) <==> m in ms && CategoryOf(m) == c
    decreases |ms|
  {
    if |ms| > 0 {
      GroupMembers(ms[1..], c, m);
      assert m in ms <==> m == ms[0] || m in ms[1..];
    }
  }

  /** The items are one line per memory, in order: no text for no memories, the memory's
      line for one (`ItemsOne`), and for a list the items of its parts one after the
      other. */
  lemma {:induction false} ItemsAppend(a: seq<Memory>, b: seq<Memory>)
    ensures Items([]) == []
    ensures Items(a + b) == Items(a) + Items(b)
    decreases |a|
  {
    if |a| == 0 {
      assert a + b == b;
    } else {
      assert (a + b)[1..] == a[1..] + b;
      ItemsAppend(a[1..], b);
    }
  }

  lemma ItemsOne(m: Memory)
    ensures Items([m]) == ItemLine(m)
  {
    assert Items([m]) == ItemLine(m) + Items([]);
  }

  /** A listed memory's line is among the items. */
  lemma {:induction false} ItemListed(g: seq<Memory>, m: Memory)
    requires m in g
    ensures Contains(Items(g), ItemLine(m))
    decreases |g|
  {
    var first, rest := ItemLine(g[0]), Items(g[1..]);
    assert Items(g) == first + rest;
    if g[0] == m {
      ContainsParts(first, rest, first);
    } else {
      assert m in g[1..];
      ItemListed(g[1..], m);
      ContainsParts(first, rest, ItemLine(m));
    }
  }

  /** The sections of two runs of categories are those of the first, then those of the
      second. */
  lemma {:induction false} RenderGroupsAppend(o1: seq<string>, g1: seq<seq<Memory>>,
                                              o2: seq<string>, g2: seq<seq<Memory>>)
    requires |g1| == |o1| && |g2| == |o2|
    ensures RenderGroups(o1 + o2, g1 + g2) == RenderGroups(o1, g1) + RenderGroups(o2, g2)
    decreases |o1|
  {
    if |o1| == 0 {
      assert o1 + o2 == o2 && g1 + g2 == g2;
    } else {
      assert (o1 + o2)[1..] == o1[1..] + o2 && (g1 + g2)[1..] == g1[1..] + g2;
      RenderGroupsAppend(o1[1..], g1[1..], o2, g2);
    }
  }

  /** The sections follow the map's order: the k-th category's section sits between the
      sections of the categories before it and those after it. */
  lemma RenderGroupsAt(order: seq<string>, gs: seq<seq<Memory>>, k: nat)
    requires |gs| == |order| && k < |order|
    ensures RenderGroups(order, gs)
         == RenderGroups(order[..k], gs[..k]) + SectionText(order[k], gs[k])
            + RenderGroups(order[k + 1..], gs[k + 1..])
  {
    var x, l, y := RenderGroups(order[..k], gs[..k]), SectionText(order[k], gs[k]),
                   RenderGroups(order[k + 1..], gs[k + 1..]);
    var o, t := [order[k]] + order[k + 1..], [gs[k]] + gs[k + 1..];
    assert RenderGroups(order, gs) == x + RenderGroups(o, t) by {
      SplitAt(order, k);
      SplitAt(gs, k);
      RenderGroupsAppend(order[..k], gs[..k], o, t);
    }
    assert RenderGroups(o, t) == l + y by {
      RenderGroupsAppend([order[k]], [gs[k]], order[k + 1..], gs[k + 1..]);
      assert RenderGroups([order[k]], [gs[k]]) == l + RenderGroups([], []);
    }
    AppendAssoc(x, l, y);
  }

  /** The document is the title followed by one section per category, in the map's
      order. The k-th section is the heading `## c`, a blank line, the item lines of the
      category's memories in input order, and a blank line. */
  lemma SectionsInOrder(ms: seq<Memory>, order: seq<string>, k: nat)
    requires ValidOrder(ms, order) && k < |order|
    ensures var gs := Groups(ms, order);
            RenderMarkdown(ms, order)
            == Title + (RenderGroups(order[..k], gs[..k])
                        + ("## " + order[k] + "\n\n" + Items(Group(ms, order[k])) + "\n")
                        + RenderGroups(order[k + 1..], gs[k + 1..]))
  {
    RenderGroupsAt(order, Groups(ms, order), k);
  }

  /** Every exported memory is listed, as its own line, in the section headed by its
      category, and that section is in the document. */
  lemma EveryMemoryListed(ms: seq<Memory>, order: seq<string>, m: Memory)
    requires ValidOrder(ms, order) && m in ms
    ensures var c := CategoryOf(m);
            var section := SectionText(c, Group(ms, c));
            Contains(RenderMarkdown(ms, order), section)
            && StartsWith(section, "## " + c + "\n\n")
            && Contains(section, ItemLine(m))
  {
    var c := CategoryOf(m);
    var k :| 0 <= k < |order| && order[k] == c;
    var section := SectionText(c, Group(ms, c));
    assert Contains(RenderMarkdown(ms, order), section) by {
      var gs := Groups(ms, order);
      var x, after := RenderGroups(order[..k], gs[..k]), RenderGroups(order[k + 1..], gs[k + 1..]);
      var before := Title + x;
      assert gs[k] == Group(ms, c);
      RenderGroupsAt(order, gs, k);
      assert RenderGroups(order, gs) == x + section + after;
      assert RenderMarkdown(ms, order) == Title + (x + section + after);
      AppendAssoc(Title, x + section, after);
      AppendAssoc(Title, x, section);
      assert StartsWith(section, section);
      ContainsInMiddle(before, section, after, section);
    }
    GroupMembers(ms, c, m);
    SectionHasItem(c, Group(ms, c), m);
  }

  lemma SectionHasItem(c: string, g: seq<Memory>, m: Memory)
    requires m in g
    ensures StartsWith(SectionText(c, g), "## " + c + "\n\n")
    ensures Contains(SectionText(c, g), ItemLine(m))
  {
    var head, items := "## " + c + "\n\n", Items(g);
    assert SectionText(c, g) == head + items + "\n";
    assert StartsWith(SectionText(c, g), head) by {
      SliceAppend(head + items, "\n", |head|);
      SliceAppend(head, items, |head|);
    }
    assert Contains(SectionText(c, g), ItemLine(m)) by {
      ItemListed(g, m);
      ContainsInMiddle(head, items, "\n", ItemLine(m));
    }
  }

  /** One memory's line: the content with surrounding whitespace removed, then its
      importance when it has one. */
  lemma ItemLineShape(m: Memory)
    ensures var line := ItemLine(m);
            StartsWith(line, "- " + Trim(m.content)) && line[|line| - 1] == '\n'
            && (m.importance.None? ==> line == "- " + Trim(m.content) + "\n")
            && (m.importance.Some? ==>
                  line == "- " + Trim(m.content) + " [i:" + NatToString(m.importance.value) + "]" + "\n")
  {
    var head, tag := "- " + Trim(m.content), ImportanceTag(m.importance);
    assert ItemLine(m) == head + tag + "\n";
    assert StartsWith(ItemLine(m), head) by {
      SliceAppend(head + tag, "\n", |head|);
      SliceAppend(head, tag, |head|);
    }
    assert ItemLine(m)[|ItemLine(m)| - 1] == '\n' by {
      assert (head + tag + "\n")[|head + tag|] == '\n';
    }
    if m.importance.Some? {
      var d := NatToString(m.importance.value);
      ImportanceTagShape(m.importance.value);
      assert head + tag == head + " [i:" + d + "]" by {
        AppendAssoc(head, " [i:" + d, "]");
        AppendAssoc(head, " [i:", d);
      }
    }
  }
}

=== FILE: process.dfy ===
/** How the dispatcher turns a wrapped program's exit status into its own outcome.
    Spawning the program and relaying its output are outside the model; the exit
    status is an input. */
module Process {
  import opened Common

  /** `std::process::ExitStatus`: a normal exit with a code, or termination by a signal. */
  datatype ExitStatus = Exited(code: int) | Signalled

  /** `ExitStatus::success`: a normal exit with code zero. */
  predicate Success(s: ExitStatus) {
    s.Exited? && s.code == 0
  }

  /** The `Result<()>` a handler returns, with the `anyhow` message on failure. */
  datatype Outcome = Ok | Failed(message: string)

  /** Spawning a program: it either could not be started (not installed, say) or ran
      to an exit status. */
  datatype Spawn = NotStarted | Finished(status: ExitStatus)

  /** How every wrapper treats a spawned program. A program that cannot be started
      fails the call with the wrapper's context message. A program that ran fails it
      only when the wrapper checks the status (`failure` is `Some`) and the status is
      unsuccessful; wrappers that do not check succeed whatever the exit status. */
  function Relay(sp: Spawn, context: string, failure: Option<string>): (o: Outcome)
    ensures sp.NotStarted? ==> o == Failed(context)
    ensures sp.Finished? && failure.None? ==> o == Ok
    ensures sp.Finished? && failure.Some? ==> o == Checked(sp.status, failure.value)
  {
    match sp
    case NotStarted => Failed(context)
    case Finished(status) =>
      match failure
      case None => Ok
      case Some(message) => Checked(status, message)
  }

  /** The rule shared by `run_mmry`, `run_mmry_raw`, `run_mailz`, `run_mailz_cli` and
      `run_skdlr`: the call fails, with the given message, exactly when the program
      did not exit successfully. */
  function Checked(s: ExitStatus, message: string): (o: Outcome)
    ensures o.Ok? <==> Success(s)
    ensures o.Failed? ==> o.message == message
  {
    if Success(s) then Ok else Failed(message)
  }
}

=== FILE: repo_name.dfy ===
/** `get_repo_name` (src/main.rs and src/memory.rs carry identical copies): the name of
    the repository the dispatcher runs in, taken from the `origin` remote's URL, or from
    the working directory's name when `git` reports failure. */
module RepoName {
  import opened Common
  import opened Text
  import opened Process

  /** What running `git remote get-url origin` gave: `git` could not be started, or it
      ran with an exit status and (decoded) standard output. */
  datatype GitRemote = GitMissing | GitExited(status: ExitStatus, stdout: string)

  /** The repository name in a remote URL: the URL trimmed, every trailing `.git`
      removed, then the text after the last `/`. */
  function NameFromUrl(url: string): (r: string)
    ensures '/' !in r
    ensures !EndsWith(r, ".git")
    ensures EndsWith(TrimEndMatches(Trim(url), ".git"), r)
    ensures var s := TrimEndMatches(Trim(url), ".git");
            |r| == |s| || s[|s| - |r| - 1] == '/'
  {
    var stripped := TrimEndMatches(Trim(url), ".git");
    var r := AfterLast(stripped, '/');
    EndsWithTrans(stripped, r, ".git");
    r
  }

  /** The name is the whole text after the last `/`: a text is the name exactly when it
      is a suffix of the stripped URL that holds no `/` and starts the URL or follows a
      `/`. */
  lemma NameIsAfterLastSlash(url: string, n: string)
    ensures var s := TrimEndMatches(Trim(url), ".git");
            n == NameFromUrl(url) <==> EndsWith(s, n) && '/' !in n && (|n| == |s| || s[|s| - |n| - 1] == '/')
  {
    var s := TrimEndMatches(Trim(url), ".git");
    assert NameFromUrl(url) == AfterLast(s, '/');
    AfterLastUnique(s, '/', n);
  }

  /** A suffix of a suffix is a suffix. */
  lemma EndsWithTrans(s: string, t: string, u: string)
    requires EndsWith(s, t)
    ensures EndsWith(t, u) ==> EndsWith(s, u)
  {
    if EndsWith(t, u) {
      assert s[|s| - |u|..] == t[|t| - |u|..];
    }
  }

  /** The repository name: the remote's when `git` succeeds, the directory's when `git`
      ran and failed, and none when `git` could not be started. */
  function GetRepoName(git: GitRemote, cwdName: Option<string>): (r: Option<string>)
    ensures git.GitMissing? ==> r.None?
    ensures git.GitExited? && Success(git.status) ==> r == Some(NameFromUrl(git.stdout))
    ensures git.GitExited? && !Success(git.status) ==> r == cwdName
  {
    match git
    case GitMissing => None
    case GitExited(status, stdout) =>
      if Success(status) then Some(NameFromUrl(stdout)) else cwdName
  }

  /** Any remote URL of the form `<path>/<name>` or `<path>/<name>.git`, followed by
      whitespace (the newline `git` prints), names the repository `<name>`. The SSH form
      `git@github.com:user/repo.git` and the HTTPS form `https://github.com/user/repo.git`
      are the instances with `<path>` `git@github.com:user` and `https://github.com/user`. */
  lemma {:induction false} NameOfRemote(path: string, name: string, withGit: bool, w: string)
    requires |path| == 0 || !IsWhitespace(path[0])
    requires |name| > 0 && !IsWhitespace(name[|name| - 1])
    requires '/' !in name && !EndsWith(name, ".git")
    requires forall i :: 0 <= i < |w| ==> IsWhitespace(w[i])
    ensures NameFromUrl(path + "/" + name + (if withGit then ".git" else "") + w) == name
  {
    var base := path + ['/'] + name;
    var t := base + (if withGit then ".git" else "");
    assert path + "/" + name + (if withGit then ".git" else "") + w == t + w;
    assert t[0] == (if |path| == 0 then '/' else path[0]);
    assert t[|t| - 1] == (if withGit then 't' else name[|name| - 1]);
    TrimPadded(t, w);
    assert Trim(t + w) == t;
    NotEndsWithAcrossSep(path, '/', name, ".git");
    if withGit {
      TrimEndMatchesOnce(base, ".git");
    } else {
      assert t == base;
    }
    assert TrimEndMatches(t, ".git") == base;
    AfterLastSep(path, '/', name);
  }

  /** The remote is used whenever `git` succeeds, even when the name it yields is empty
      (a URL ending in `/`): the directory fallback is never taken after success. */
  lemma TrailingSlashGivesEmptyName(path: string, cwdName: Option<string>)
    requires |path| == 0 || !IsWhitespace(path[0])
    ensures GetRepoName(GitExited(Exited(0), path + "/"), cwdName) == Some("")
  {
    var t := path + "/";
    assert t == path + ['/'] + [];
    assert t[0] == (if |path| == 0 then '/' else path[0]);
    TrimPadded(t, []);
    assert t + [] == t;
    assert Trim(t) == t;
    NotEndsWithAcrossSep(path, '/', [], ".git");
    assert TrimEndMatches(t, ".git") == t;
    AfterLastSep(path, '/', []);
    assert NameFromUrl(t) == [];
  }
}

=== FILE: schedule.dfy ===
/** The `schedule` subcommands (src/schedule.rs): each request becomes an `skdlr`
    argument vector, and the call fails exactly when `skdlr` does. */
module Schedule {
  import opened Common
  import opened Text
  import opened Argv
  import opened Process

  datatype ScheduleCommand =
    | Add(name: string, schedule: string, command: string, workdir: Option<string>,
          description: Option<string>, disabled: bool)
    | List(status: Option<string>)
    | Show(name: string)
    | Edit(name: string, newSchedule: Option<string>, newCommand: Option<string>,
           newWorkdir: Option<string>, newDescription: Option<string>)
    | Remove(name: string, yes: bool)
    | Enable(name: string)
    | Disable(name: string)
    | Run(name: string, dryRun: bool)
    | Logs(name: string, last: usize)
    | Status
    | Next
    | Backend
    | Doctor

  /** The options `skdlr` reads. */
  const SkdlrGrammar := Grammar(
    {"--schedule", "--command", "--workdir", "--description", "--enabled", "--status", "--last"},
    {"--yes", "--dry-run"})

  /** The number of runs `schedule logs` shows when none is given. */
  const DefaultLast: usize := 10

  predicate Plain(a: string) {
    !SkdlrGrammar.IsOption(a)
  }

  function AddArgv(name: string, schedule: string, command: string, workdir: Option<string>,
                   description: Option<string>, disabled: bool): (r: seq<string>)
    ensures |r| >= 6 && r[..6] == ["add", name, "--schedule", schedule, "--command", command]
    ensures disabled ==> r[|r| - 2..] == ["--enabled", "false"]
    ensures |r| == 6 + (if workdir.Some? then 2 else 0) + (if description.Some? then 2 else 0)
                     + (if disabled then 2 else 0)
    ensures workdir.Some? ==> r[6..8] == ["--workdir", workdir.value]
    ensures description.Some? ==> (var k := if workdir.Some? then 8 else 6;
                                    r[k..k + 2] == ["--description", description.value])
  {
    ["add", name, "--schedule", schedule, "--command", command]
    + Pair("--workdir", workdir)
    + Pair("--description", description)
    + (if disabled then ["--enabled", "false"] else [])
  }

  function EditArgv(name: string, schedule: Option<string>, command: Option<string>,
                    workdir: Option<string>, description: Option<string>): (r: seq<string>)
    ensures |r| >= 2 && r[..2] == ["edit", name]
    ensures |r| == 2 + (if schedule.Some? then 2 else 0) + (if command.Some? then 2 else 0)
                     + (if workdir.Some? then 2 else 0) + (if description.Some? then 2 else 0)
    ensures schedule.Some? ==> r[2..4] == ["--schedule", schedule.value]
    ensures command.Some? ==> (var k := if schedule.Some? then 4 else 2;
                                r[k..k + 2] == ["--command", command.value])
    ensures workdir.Some? ==> (var k := 2 + (if schedule.Some? then 2 else 0) + (if command.Some? then 2 else 0);
                                r[k..k + 2] == ["--workdir", workdir.value])
    ensures description.Some? ==> r[|r| - 2..] == ["--description", description.value]
  {
    var a := ["edit", name] + Pair("--schedule", schedule);
    var b := a + Pair("--command", command);
    var c := b + Pair("--workdir", workdir);
    var r := c + Pair("--description", description);
    assert r[..|c|] == c;
    assert c[..|b|] == b;
    assert b[..|a|] == a;
    r
  }

  /** `schedule logs <name>` without `--last` asks for the last ten runs. */
  lemma LogsDefault(name: string)
    ensures ScheduleArgv(Logs(name, DefaultLast)) == ["logs", name, "--last", "10"]
  {
    assert NatToString(1) == "1" && NatToString(10) == NatToString(1) + "0";
    assert NatToString(DefaultLast) == "10";
  }

  /** The argument vector `handle` passes to `skdlr`. */
  function ScheduleArgv(cmd: ScheduleCommand): (r: seq<string>)
    ensures cmd.Add? ==> r == AddArgv(cmd.name, cmd.schedule, cmd.command, cmd.workdir, cmd.description, cmd.disabled)
    ensures cmd.Edit? ==> r == EditArgv(cmd.name, cmd.newSchedule, cmd.newCommand, cmd.newWorkdir, cmd.newDescription)
    ensures cmd.List? && cmd.status.None? ==> r == ["list"]
    ensures cmd.List? && cmd.status.Some? ==> r == ["list", "--status", cmd.status.value]
    ensures cmd.Show? ==> r == ["show", cmd.name]
    ensures cmd.Enable? ==> r == ["enable", cmd.name]
    ensures cmd.Disable? ==> r == ["disable", cmd.name]
    ensures cmd.Status? ==> r == ["status"]
    ensures cmd.Next? ==> r == ["next"]
    ensures cmd.Backend? ==> r == ["backend"]
    ensures cmd.Doctor? ==> r == ["doctor"]
    ensures cmd.Remove? ==> |r| >= 2 && r[..2] == ["remove", cmd.name] && (cmd.yes <==> r == ["remove", cmd.name, "--yes"])
    ensures cmd.Run? ==> |r| >= 2 && r[..2] == ["run", cmd.name] && (cmd.dryRun <==> r == ["run", cmd.name, "--dry-run"])
    ensures cmd.Logs? ==> r == ["logs", cmd.name, "--last", NatToString(cmd.last)]
  {
    match cmd
    case Add(name, schedule, command, workdir, description, disabled) =>
      AddArgv(name, schedule, command, workdir, description, disabled)
    case List(status) => ["list"] + Pair("--status", status)
    case Show(name) => ["show", name]
    case Edit(name, schedule, command, workdir, description) =>
      EditArgv(name, schedule, command, workdir, description)
    case Remove(name, yes) => ["remove", name] + Switch("--yes", yes)
    case Enable(name) => ["enable", name]
    case Disable(name) => ["disable", name]
    case Run(name, dryRun) => ["run", name] + Switch("--dry-run", dryRun)
    case Logs(name, last) => ["logs", name, "--last", NatToString(last)]
    case Status => ["status"]
    case Next => ["next"]
    case Backend => ["backend"]
    case Doctor => ["doctor"]
  }

  /** How `skdlr` reads a request back. */
  function DecodeSchedule(args: seq<string>): Option<ScheduleCommand> {
    match Parse(args, SkdlrGrammar)
    case None => None
    case Some(p) => Interpret(p)
  }

  function Interpret(p: Parsed): Option<ScheduleCommand> {
    var pos := p.positionals;
    var v := p.values;
    if |pos| == 1 then
      if pos[0] == "list" then Some(List(Lookup(v, "--status")))
      else if pos[0] == "status" then Some(Status)
      else if pos[0] == "next" then Some(Next)
      else if pos[0] == "backend" then Some(Backend)
      else if pos[0] == "doctor" then Some(Doctor)
      else None
    else if |pos| == 2 then
      var verb, name := pos[0], pos[1];
      if verb == "add" then
        if "--schedule" in v && "--command" in v then
          Some(Add(name, v["--schedule"], v["--command"], Lookup(v, "--workdir"),
                   Lookup(v, "--description"), Lookup(v, "--enabled") == Some("false")))
        else None
      else if verb == "show" then Some(Show(name))
      else if verb == "edit" then
        Some(Edit(name, Lookup(v, "--schedule"), Lookup(v, "--command"), Lookup(v, "--workdir"),
                  Lookup(v, "--description")))
      else if verb == "remove" then Some(Remove(name, "--yes" in p.switches))
      else if verb == "enable" then Some(Enable(name))
      else if verb == "disable" then Some(Disable(name))
      else if verb == "run" then Some(Run(name, "--dry-run" in p.switches))
      else if verb == "logs" then
        match Lookup(v, "--last")
        case Some(text) =>
          (match ParseNat(text)
           case Some(n) => if n < 0x1_0000_0000_0000_0000 then Some(Logs(name, n)) else None
           case None => None)
        case None => None
      else None
    else None
  }

  predicate PlainRequest(cmd: ScheduleCommand) {
    match cmd
    case Add(name, _, _, _, _, _) => Plain(name)
    case Show(name) => Plain(name)
    case Edit(name, _, _, _, _) => Plain(name)
    case Remove(name, _) => Plain(name)
    case Enable(name) => Plain(name)
    case Disable(name) => Plain(name)
    case Run(name, _) => Plain(name)
    case Logs(name, _) => Plain(name)
    case _ => true
  }

  lemma ParseAddHead(name: string, schedule: string, command: string)
    requires Plain(name)
    ensures Parse(["add", name, "--schedule", schedule, "--command", command], SkdlrGrammar)
         == Some(Parsed(["add", name], map["--schedule" := schedule, "--command" := command], {}))
  {
    var g := SkdlrGrammar;
    ParsePositionals(["add", name], g);
    assert ["add", name, "--schedule", schedule, "--command", command]
        == ["add", name] + ["--schedule", schedule, "--command", command];
    assert ["--schedule", schedule, "--command", command][2..] == ["--command", command];
    assert ["--command", command][2..] == [];
    assert Parse(["--command", command], g) == Some(Parsed([], map["--command" := command], {}));
    assert map["--command" := command]["--schedule" := schedule]
        == map["--schedule" := schedule, "--command" := command];
    ParseAppend(["add", name], ["--schedule", schedule, "--command", command], g);
  }

  lemma ParseAddArgv(name: string, schedule: string, command: string, workdir: Option<string>,
                     description: Option<string>, disabled: bool)
    requires Plain(name)
    ensures Parse(AddArgv(name, schedule, command, workdir, description, disabled), SkdlrGrammar)
         == Some(Parsed(["add", name], PairMap("--enabled", if disabled then Some("false") else None)
              + (PairMap("--description", description) + (PairMap("--workdir", workdir)
              + map["--schedule" := schedule, "--command" := command])), {}))
  {
    var g := SkdlrGrammar;
    var head := ["add", name, "--schedule", schedule, "--command", command];
    var enabled := if disabled then Some("false") else None;
    var w, d := Pair("--workdir", workdir), Pair("--description", description);
    var e := Pair("--enabled", enabled);
    var m0 := map["--schedule" := schedule, "--command" := command];
    var m1 := PairMap("--workdir", workdir) + m0;
    var m2 := PairMap("--description", description) + m1;
    ParseAddHead(name, schedule, command);
    assert ["add", name] + [] == ["add", name];
    ParsePair("--workdir", workdir, g);
    ParseAppend(head, w, g);
    assert Parse(head, g).value == Parsed(["add", name], m0, {});
    assert Parse(w, g).value == Parsed([], PairMap("--workdir", workdir), {});
    assert Merge(Parse(head, g).value, Parse(w, g).value) == Parsed(["add", name], m1, {});
    assert Parse(head + w, g) == Some(Parsed(["add", name], m1, {}));
    ParsePair("--description", description, g);
    ParseAppend(head + w, d, g);
    assert Parse(head + w + d, g) == Some(Parsed(["add", name], m2, {}));
    ParsePair("--enabled", enabled, g);
    ParseAppend(head + w + d, e, g);
  }

  lemma DecodeAdd(name: string, schedule: string, command: string, workdir: Option<string>,
                  description: Option<string>, disabled: bool)
    requires Plain(name)
    ensures DecodeSchedule(AddArgv(name, schedule, command, workdir, description, disabled))
         == Some(Add(name, schedule, command, workdir, description, disabled))
  {
    var enabled := if disabled then Some("false") else None;
    ParseAddArgv(name, schedule, command, workdir, description, disabled);
    var m0 := map["--schedule" := schedule, "--command" := command];
    var m1 := PairMap("--workdir", workdir) + m0;
    var m2 := PairMap("--description", description) + m1;
    var v := PairMap("--enabled", enabled) + m2;
    forall key ensures Lookup(v, key) == if key == "--enabled" then enabled else Lookup(m2, key) {
      LookupUnder("--enabled", enabled, m2, key);
    }
    forall key ensures Lookup(m2, key) == if key == "--description" then description else Lookup(m1, key) {
      LookupUnder("--description", description, m1, key);
    }
    forall key ensures Lookup(m1, key) == if key == "--workdir" then workdir else Lookup(m0, key) {
      LookupUnder("--workdir", workdir, m0, key);
    }
  }

  lemma ParseEditArgv(name: string, schedule: Option<string>, command: Option<string>,
                      workdir: Option<string>, description: Option<string>)
    requires Plain(name)
    ensures Parse(EditArgv(name, schedule, command, workdir, description), SkdlrGrammar)
         == Some(Parsed(["edit", name], PairMap("--description", description)
              + (PairMap("--workdir", workdir) + (PairMap("--command", command)
              + PairMap("--schedule", schedule))), {}))
  {
    var g := SkdlrGrammar;
    var head := ["edit", name];
    var s, c := Pair("--schedule", schedule), Pair("--command", command);
    var w, d := Pair("--workdir", workdir), Pair("--description", description);
    var m0 := PairMap("--schedule", schedule);
    var m1 := PairMap("--command", command) + m0;
    var m2 := PairMap("--workdir", workdir) + m1;
    ParsePositionals(head, g);
    ParsePair("--schedule", schedule, g);
    ParseAppend(head, s, g);
    assert Parse(head + s, g) == Some(Parsed(head, m0, {}));
    ParsePair("--command", command, g);
    ParseAppend(head + s, c, g);
    assert Parse(head + s + c, g) == Some(Parsed(head, m1, {}));
    ParsePair("--workdir", workdir, g);
    ParseAppend(head + s + c, w, g);
    assert Parse(head + s + c + w, g) == Some(Parsed(head, m2, {}));
    ParsePair("--description", description, g);
    ParseAppend(head + s + c + w, d, g);
  }

  lemma DecodeEdit(name: string, schedule: Option<string>, command: Option<string>,
                   workdir: Option<string>, description: Option<string>)
    requires Plain(name)
    ensures DecodeSchedule(EditArgv(name, schedule, command, workdir, description))
         == Some(Edit(name, schedule, command, workdir, description))
  {
    ParseEditArgv(name, schedule, command, workdir, description);
    var m0 := PairMap("--schedule", schedule);
    var m1 := PairMap("--command", command) + m0;
    var m2 := PairMap("--workdir", workdir) + m1;
    var v := PairMap("--description", description) + m2;
    forall key ensures Lookup(v, key) == if key == "--description" then description else Lookup(m2, key) {
      LookupUnder("--description", description, m2, key);
    }
    forall key ensures Lookup(m2, key) == if key == "--workdir" then workdir else Lookup(m1, key) {
      LookupUnder("--workdir", workdir, m1, key);
    }
    forall key ensures Lookup(m1, key) == if key == "--command" then command else Lookup(m0, key) {
      LookupUnder("--command", command, m0, key);
    }
  }

  lemma DecodeLogs(name: string, last: usize)
    requires Plain(name)
    ensures DecodeSchedule(ScheduleArgv(Logs(name, last))) == Some(Logs(name, last))
  {
    var g := SkdlrGrammar;
    var text := NatToString(last);
    ParsePositionals(["logs", name], g);
    ParsePair("--last", Some(text), g);
    ParseAppend(["logs", name], ["--last", text], g);
    assert ["logs", name] + ["--last", text] == ["logs", name, "--last", text];
    var p := Parsed(["logs", name], map["--last" := text], {});
    assert Parse(ScheduleArgv(Logs(name, last)), g) == Some(p);
    assert Lookup(p.values, "--last") == Some(text);
    ParseNatToString(last);
  }

  lemma DecodeList(status: Option<string>)
    ensures DecodeSchedule(ScheduleArgv(List(status))) == Some(List(status))
  {
    var g := SkdlrGrammar;
    ParsePositionals(["list"], g);
    ParsePair("--status", status, g);
    ParseAppend(["list"], Pair("--status", status), g);
    assert Parse(ScheduleArgv(List(status)), g)
        == Some(Parsed(["list"], PairMap("--status", status), {}));
  }

  lemma DecodeBare(verb: string)
    requires verb in {"status", "next", "backend", "doctor"}
    ensures Parse([verb], SkdlrGrammar) == Some(Parsed([verb], map[], {}))
  {
    ParsePositionals([verb], SkdlrGrammar);
  }

  lemma DecodeNamed(verb: string, name: string)
    requires Plain(name) && verb in {"show", "enable", "disable"}
    ensures Parse([verb, name], SkdlrGrammar) == Some(Parsed([verb, name], map[], {}))
  {
    ParsePositionals([verb, name], SkdlrGrammar);
  }

  lemma DecodeFlagged(verb: string, name: string, flag: string, on: bool)
    requires Plain(name) && verb in {"remove", "run"} && flag in {"--yes", "--dry-run"}
    ensures Parse([verb, name] + Switch(flag, on), SkdlrGrammar)
         == Some(Parsed([verb, name], map[], if on then {flag} else {}))
  {
    var g := SkdlrGrammar;
    ParsePositionals([verb, name], g);
    ParseSwitch(flag, on, g);
    ParseAppend([verb, name], Switch(flag, on), g);
  }

  /** Every schedule request reaches `skdlr` intact: reading the vector back gives the
      request, each optional field present exactly when it was given. */
  lemma DecodeScheduleArgv(cmd: ScheduleCommand)
    requires PlainRequest(cmd)
    ensures DecodeSchedule(ScheduleArgv(cmd)) == Some(cmd)
  {
    match cmd
    case Add(name, schedule, command, workdir, description, disabled) =>
      DecodeAdd(name, schedule, command, workdir, description, disabled);
    case List(status) =>
      DecodeList(status);
    case Show(name) =>
      DecodeNamed("show", name);
    case Edit(name, schedule, command, workdir, description) =>
      DecodeEdit(name, schedule, command, workdir, description);
    case Remove(name, yes) =>
      DecodeFlagged("remove", name, "--yes", yes);
    case Enable(name) =>
      DecodeNamed("enable", name);
    case Disable(name) =>
      DecodeNamed("disable", name);
    case Run(name, dryRun) =>
      DecodeFlagged("run", name, "--dry-run", dryRun);
    case Logs(name, last) =>
      DecodeLogs(name, last);
    case Status =>
      DecodeBare("status");
    case Next =>
      DecodeBare("next");
    case Backend =>
      DecodeBare("backend");
    case Doctor =>
      DecodeBare("doctor");
  }

  /** `run_skdlr`: the request succeeds exactly when `skdlr` starts and exits successfully. */
  function RunSkdlr(sp: Spawn): (o: Outcome)
    ensures o == Ok <==> sp.Finished? && Success(sp.status)
    ensures sp.NotStarted? ==> o == Failed("failed to run skdlr - is skdlr installed?")
    ensures sp.Finished? && o != Ok ==> o == Failed("skdlr command failed")
  {
    Relay(sp, "failed to run skdlr - is skdlr installed?", Some("skdlr command failed"))
  }
}

=== FILE: text.dfy ===
/** The operations of Rust's `str` that the dispatcher relies on, over sequences of
    Unicode scalar values: prefix and suffix tests, substring search, whitespace
    trimming, `lines`, `split_whitespace`, `rsplit` and the decimal `to_string` of
    unsigned integers. */
module Text {
  import opened Common

  predicate StartsWith(s: string, prefix: string) {
    |prefix| <= |s| && s[..|prefix|] == prefix
  }

  predicate EndsWith(s: string, suffix: string) {
    |suffix| <= |s| && s[|s| - |suffix|..] == suffix
  }

  /** `str::contains` with a string pattern. */
  predicate Contains(s: string, pattern: string)
    decreases |s|
  {
    StartsWith(s, pattern) || (|s| > 0 && Contains(s[1..], pattern))
  }

  lemma {:induction false} ContainsInPrefix(s: string, n: nat, pattern: string)
    requires n <= |s|
    requires Contains(s[..n], pattern)
    ensures Contains(s, pattern)
    decreases n
  {
    if StartsWith(s[..n], pattern) {
      assert s[..n][..|pattern|] == s[..|pattern|];
    } else {
      assert s[..n][1..] == s[1..][..n - 1];
      ContainsInPrefix(s[1..], n - 1, pattern);
    }
  }

  lemma {:induction false} ContainsInSuffix(s: string, k: nat, pattern: string)
    requires k <= |s|
    requires Contains(s[k..], pattern)
    ensures Contains(s, pattern)
    decreases k
  {
    if k > 0 {
      assert s[k..] == s[1..][k - 1..];
      ContainsInSuffix(s[1..], k - 1, pattern);
    }
  }

  /** An occurrence at any position is found by `Contains`. */
  lemma ContainsAt(s: string, p: nat, pattern: string)
    requires p <= |s| && StartsWith(s[p..], pattern)
    ensures Contains(s, pattern)
  {
    ContainsInSuffix(s, p, pattern);
  }

  /** An occurrence inside the middle part is an occurrence in the whole. */
  lemma ContainsInMiddle(a: string, b: string, c: string, pattern: string)
    requires Contains(b, pattern)
    ensures Contains(a + b + c, pattern)
  {
    assert (a + b)[|a|..] == b;
    ContainsInSuffix(a + b, |a|, pattern);
    assert (a + b + c)[..|a + b|] == a + b;
    ContainsInPrefix(a + b + c, |a + b|, pattern);
  }

  /** A text contains its own beginning and anything its end contains. */
  lemma ContainsParts(a: string, b: string, pattern: string)
    ensures Contains(a + b, a)
    ensures Contains(b, pattern) ==> Contains(a + b, pattern)
  {
    assert (a + b)[..|a|] == a;
    assert (a + b)[|a|..] == b;
    if Contains(b, pattern) {
      ContainsInSuffix(a + b, |a|, pattern);
    }
  }

  lemma StartsWithReachingLast(s: string, c: char, pattern: string)
    ensures StartsWith(s + [c], pattern) && |pattern| > |s| ==> c in pattern
  {
    if StartsWith(s + [c], pattern) && |pattern| > |s| {
      assert (s + [c])[..|pattern|][|s|] == c;
      assert pattern[|s|] in pattern;
    }
  }

  /** Appending a character that the pattern does not use creates no occurrence. */
  lemma {:induction false} ContainsAppendForeign(s: string, c: char, pattern: string)
    requires c !in pattern
    requires Contains(s + [c], pattern)
    ensures Contains(s, pattern)
    decreases |s|
  {
    StartsWithReachingLast(s, c, pattern);
    if StartsWith(s + [c], pattern) {
      assert (s + [c])[..|pattern|] == s[..|pattern|];
    } else {
      assert |s| > 0;
      assert (s + [c])[1..] == s[1..] + [c];
      ContainsAppendForeign(s[1..], c, pattern);
    }
  }

  /** Unicode White_Space, the set `char::is_whitespace` tests. */
  predicate IsWhitespace(c: char) {
    c == ' ' || ('\t' <= c && c <= '\r') || c == '\U{85}' || c == '\U{A0}' || c == '\U{1680}'
    || ('\U{2000}' <= c && c <= '\U{200A}') || c == '\U{2028}' || c == '\U{2029}'
    || c == '\U{202F}' || c == '\U{205F}' || c == '\U{3000}'
  }

  /** `str::trim_end`: the longest prefix that does not end in whitespace. */
  function TrimEnd(s: string): (r: string)
    ensures StartsWith(s, r)
    ensures |r| == 0 || !IsWhitespace(r[|r| - 1])
    ensures forall i :: |r| <= i < |s| ==> IsWhitespace(s[i])
    decreases |s|
  {
    if |s| > 0 && IsWhitespace(s[|s| - 1]) then TrimEnd(s[..|s| - 1]) else s
  }

  /** `p` is `s` with its trailing whitespace removed: a prefix of `s`, not ending in
      whitespace, followed in `s` by whitespace only. */
  predicate WithoutTrailingWhitespace(s: string, p: string) {
    StartsWith(s, p) && (|p| == 0 || !IsWhitespace(p[|p| - 1]))
    && forall i :: |p| <= i < |s| ==> IsWhitespace(s[i])
  }

  /** `str::trim_end` is the only way to remove trailing whitespace. */
  lemma TrimEndUnique(s: string, p: string)
    requires WithoutTrailingWhitespace(s, p)
    ensures p == TrimEnd(s)
  {
    var r := TrimEnd(s);
    assert |p| == |r|;
  }

  /** `str::trim_start`: the longest suffix that does not start with whitespace. */
  function TrimStart(s: string): (r: string)
    ensures EndsWith(s, r)
    ensures |r| == 0 || !IsWhitespace(r[0])
    ensures forall i :: 0 <= i < |s| - |r| ==> IsWhitespace(s[i])
    decreases |s|
  {
    if |s| > 0 && IsWhitespace(s[0]) then TrimStart(s[1..]) else s
  }

  /** `str::trim`: whitespace removed at both ends. */
  function Trim(s: string): (r: string)
    ensures |r| <= |s|
    ensures |r| == 0 || (!IsWhitespace(r[0]) && !IsWhitespace(r[|r| - 1]))
  {
    TrimStart(TrimEnd(s))
  }

  /** Trimming a string that already ends in non-whitespace, extended by whitespace,
      gives the string back. */
  lemma {:induction false} TrimEndDropsWhitespaceTail(t: string, w: string)
    requires |t| == 0 || !IsWhitespace(t[|t| - 1])
    requires forall i :: 0 <= i < |w| ==> IsWhitespace(w[i])
    ensures TrimEnd(t + w) == t
    decreases |w|
  {
    if |w| == 0 {
      assert t + w == t;
    } else {
      assert (t + w)[..|t + w| - 1] == t + w[..|w| - 1];
      TrimEndDropsWhitespaceTail(t, w[..|w| - 1]);
    }
  }

  /** Trimming text that starts and ends in non-whitespace, followed by whitespace, gives
      the text back. */
  lemma TrimPadded(t: string, w: string)
    requires |t| == 0 || (!IsWhitespace(t[0]) && !IsWhitespace(t[|t| - 1]))
    requires forall i :: 0 <= i < |w| ==> IsWhitespace(w[i])
    ensures Trim(t + w) == t
  {
    TrimEndDropsWhitespaceTail(t, w);
  }

  /** `t` is `pat` repeated some number of times. */
  predicate IsRepetition(t: string, pat: string)
    requires |pat| > 0
    decreases |t|
  {
    |t| == 0 || (EndsWith(t, pat) && IsRepetition(t[..|t| - |pat|], pat))
  }

  lemma RepetitionExtend(t: string, pat: string)
    requires |pat| > 0 && IsRepetition(t, pat)
    ensures IsRepetition(t + pat, pat)
  {
    assert (t + pat)[..|t + pat| - |pat|] == t;
    assert (t + pat)[|t + pat| - |pat|..] == pat;
  }

  /** `str::trim_end_matches` with a string pattern: every trailing copy of `pat` removed. */
  function TrimEndMatches(s: string, pat: string): (r: string)
    requires |pat| > 0
    ensures StartsWith(s, r)
    ensures !EndsWith(r, pat)
    ensures IsRepetition(s[|r|..], pat)
    decreases |s|
  {
    if EndsWith(s, pat) then
      var shorter := s[..|s| - |pat|];
      var r := TrimEndMatches(shorter, pat);
      RepetitionExtend(shorter[|r|..], pat);
      assert s[|r|..] == shorter[|r|..] + pat;
      assert s[..|r|] == shorter[..|r|];
      r
    else
      assert s[|s|..] == [];
      s
  }

  /** One trailing copy of `pat` over text that does not end in `pat` is all that is removed. */
  lemma TrimEndMatchesOnce(x: string, pat: string)
    requires |pat| > 0 && !EndsWith(x, pat)
    ensures TrimEndMatches(x + pat, pat) == x
  {
    assert (x + pat)[..|x + pat| - |pat|] == x;
    assert (x + pat)[|x + pat| - |pat|..] == pat;
  }

  /** Text ending in `sep` followed by `n` ends in `pat` only if `n` does, when `pat` has
      no `sep` in it. */
  lemma NotEndsWithAcrossSep(a: string, sep: char, n: string, pat: string)
    requires sep !in pat && !EndsWith(n, pat)
    ensures !EndsWith(a + [sep] + n, pat)
  {
    var x := a + [sep] + n;
    if |pat| <= |n| {
      assert n[|n| - |pat|..] == x[|x| - |pat|..];
    } else if |pat| <= |x| {
      assert x[|x| - |n| - 1] == sep;
      assert x[|x| - |pat|..][|pat| - |n| - 1] == sep;
    }
  }

  /** `AfterLast` is the only suffix without `sep` that starts `s` or follows a `sep`. */
  lemma AfterLastUnique(s: string, sep: char, n: string)
    ensures n == AfterLast(s, sep) <==> EndsWith(s, n) && sep !in n && (|n| == |s| || s[|s| - |n| - 1] == sep)
  {
    if EndsWith(s, n) && sep !in n && (|n| == |s| || s[|s| - |n| - 1] == sep) {
      var r := AfterLast(s, sep);
      assert |n| == |r|;
      assert n == s[|s| - |n|..];
    }
  }

  /** The first item of `str::rsplit(sep)`: the text after the last `sep`, or all of `s`. */
  function AfterLast(s: string, sep: char): (r: string)
    ensures EndsWith(s, r)
    ensures sep !in r
    ensures |r| == |s| || s[|s| - |r| - 1] == sep
    decreases |s|
  {
    if |s| == 0 || s[|s| - 1] == sep then []
    else
      var t, c := s[..|s| - 1], s[|s| - 1];
      var r := AfterLast(t, sep);
      assert EndsWith(s, r + [c]) by {
        assert s == t + [c];
        assert t[|t| - |r|..] == r;
        assert s[|s| - |r| - 1..] == r + [c];
      }
      assert |r| < |t| ==> s[|s| - |r| - 2] == t[|t| - |r| - 1];
      r + [c]
  }

  /** What follows the last `sep` is exactly the text after a `sep` that has none. */
  lemma {:induction false} AfterLastSep(a: string, sep: char, n: string)
    requires sep !in n
    ensures AfterLast(a + [sep] + n, sep) == n
    decreases |n|
  {
    var x := a + [sep] + n;
    if |n| > 0 {
      assert n[|n| - 1] in n;
      assert x[..|x| - 1] == a + [sep] + n[..|n| - 1];
      assert forall c :: c in n[..|n| - 1] ==> c in n;
      AfterLastSep(a, sep, n[..|n| - 1]);
      assert n[..|n| - 1] + [n[|n| - 1]] == n;
    }
  }

  // ---------------------------------------------------------------------------
  // Lines

  /** Index of the first line feed, or `|s|` when there is none. */
  function LineEnd(s: string): (i: nat)
    ensures i <= |s|
    ensures forall k :: 0 <= k < i ==> s[k] != '\n'
    ensures i < |s| ==> s[i] == '\n'
    decreases |s|
  {
    if |s| == 0 || s[0] == '\n' then 0 else 1 + LineEnd(s[1..])
  }

  lemma LineEndIs(s: string, i: nat)
    requires i < |s| && s[i] == '\n'
    requires forall k :: 0 <= k < i ==> s[k] != '\n'
    ensures LineEnd(s) == i
  {
  }

  /** One carriage return removed from the end of a terminated line. */
  function StripCR(line: string): (r: string)
    ensures StartsWith(line, r)
  {
    if |line| > 0 && line[|line| - 1] == '\r' then line[..|line| - 1] else line
  }

  /** `str::lines`: the text split at line feeds, a `\r` before a line feed removed,
      and no empty line produced for a final line feed. A last line without a line
      feed keeps a trailing `\r`. */
  function Lines(s: string): (ls: seq<string>)
    ensures forall l :: l in ls ==> '\n' !in l
    decreases |s|
  {
    if |s| == 0 then []
    else
      var i := LineEnd(s);
      if i == |s| then [s] else [StripCR(s[..i])] + Lines(s[i + 1..])
  }

  /** A text whose first line feed is at `i` splits into its first line and the lines
      after it. */
  lemma LinesUnfold(s: string, i: nat)
    requires i < |s| && LineEnd(s) == i
    ensures Lines(s) == [StripCR(s[..i])] + Lines(s[i + 1..])
  {
  }

  /** Slicing a concatenation inside its first part. */
  lemma SliceAppend<T>(x: seq<T>, y: seq<T>, j: nat)
    requires j <= |x|
    ensures (x + y)[..j] == x[..j]
    ensures (x + y)[j..] == x[j..] + y
  {
  }

  lemma AppendAssoc<T>(x: seq<T>, y: seq<T>, z: seq<T>)
    ensures (x + y) + z == x + (y + z)
  {
  }

  lemma ConsAppend<T>(h: T, a: seq<T>, b: seq<T>)
    ensures [h] + (a + b) == ([h] + a) + b
  {
  }

  lemma EmptyAppend<T>(s: seq<T>)
    ensures [] + s == s
  {
  }

  /** The tail of `[h] + t` is `t`. */
  lemma ConsTail<T>(h: T, t: seq<T>)
    ensures ([h] + t)[0] == h && ([h] + t)[1..] == t
  {
  }

  /** A sequence is what comes before a position, the element there, and the rest. */
  lemma SplitAt<T>(s: seq<T>, i: nat)
    requires i < |s|
    ensures s == s[..i] + ([s[i]] + s[i + 1..])
  {
  }

  /** A text is what comes before a position, the character there, and the rest. */
  lemma SplitAround(s: string, i: nat)
    requires i < |s|
    ensures s == s[..i] + [s[i]] + s[i + 1..]
  {
    assert s[..i] + [s[i]] == s[..i + 1];
    assert s[..i + 1] + s[i + 1..] == s;
  }

  /** Every line written out followed by one line feed, as the removal loop does. */
  function JoinLines(ls: seq<string>): (s: string)
    ensures |ls| > 0 ==> |s| > 0 && s[|s| - 1] == '\n'
    decreases |ls|
  {
    if |ls| == 0 then [] else ls[0] + "\n" + JoinLines(ls[1..])
  }

  function StripCRs(ls: seq<string>): (r: seq<string>)
    ensures |r| == |ls|
  {
    seq(|ls|, i requires 0 <= i < |ls| => StripCR(ls[i]))
  }

  lemma StripCRsCons(ls: seq<string>)
    requires |ls| > 0
    ensures StripCRs(ls) == [StripCR(ls[0])] + StripCRs(ls[1..])
  {
    var r, t := StripCRs(ls), [StripCR(ls[0])] + StripCRs(ls[1..]);
    forall k | 0 <= k < |ls| ensures r[k] == t[k] {
      if k > 0 {
        assert t[k] == StripCRs(ls[1..])[k - 1];
      }
    }
  }

  /** Splitting joined lines gives them back, less a trailing carriage return each. */
  lemma {:induction false} LinesOfJoin(ls: seq<string>)
    requires forall l :: l in ls ==> '\n' !in l
    ensures Lines(JoinLines(ls)) == StripCRs(ls)
    decreases |ls|
  {
    if |ls| > 0 {
      var line, rest := ls[0], JoinLines(ls[1..]);
      var head := line + "\n";
      var s := head + rest;
      var i := |line|;
      assert s == JoinLines(ls);
      SliceAppend(line, "\n", i);
      SliceAppend(head, rest, i);
      SliceAppend(head, rest, i + 1);
      assert head[i + 1..] == [];
      assert s[i] == '\n';
      assert '\n' !in line;
      LineEndIs(s, i);
      LinesUnfold(s, i);
      LinesOfJoin(ls[1..]);
      StripCRsCons(ls);
    }
  }

  /** Lines that carry no carriage return come back unchanged. */
  lemma LinesOfJoinPlain(ls: seq<string>)
    requires forall l :: l in ls ==> '\n' !in l && '\r' !in l
    ensures Lines(JoinLines(ls)) == ls
  {
    LinesOfJoin(ls);
    forall i | 0 <= i < |ls|
      ensures StripCRs(ls)[i] == ls[i]
    {
      assert ls[i] in ls;
      if |ls[i]| > 0 {
        assert ls[i][|ls[i]| - 1] in ls[i];
      }
    }
  }

  /** Text that ends at a line boundary splits independently of what follows. */
  lemma {:induction false} LinesAppend(x: string, y: string)
    requires |x| == 0 || x[|x| - 1] == '\n'
    ensures Lines(x + y) == Lines(x) + Lines(y)
    decreases |x|
  {
    if |x| == 0 {
      assert x + y == y;
      assert Lines(x) == [];
      EmptyAppend(Lines(y));
    } else {
      var i := LineEnd(x);
      assert i < |x|;
      assert Lines(x[i + 1..] + y) == Lines(x[i + 1..]) + Lines(y) by {
        LinesAppend(x[i + 1..], y);
      }
      LinesAppendStep(x, y, i);
    }
  }

  /** The step of `LinesAppend`: the first line is split off both texts alike. */
  lemma LinesAppendStep(x: string, y: string, i: nat)
    requires i < |x| && LineEnd(x) == i
    requires Lines(x[i + 1..] + y) == Lines(x[i + 1..]) + Lines(y)
    ensures Lines(x + y) == Lines(x) + Lines(y)
  {
    var rest, first := x[i + 1..], StripCR(x[..i]);
    assert Lines(x + y) == [first] + (Lines(rest) + Lines(y)) by {
      var xy := x + y;
      assert forall k :: 0 <= k < i ==> xy[k] == x[k];
      LineEndIs(xy, i);
      SliceAppend(x, y, i);
      SliceAppend(x, y, i + 1);
      LinesUnfold(xy, i);
    }
    assert Lines(x) == [first] + Lines(rest) by {
      LinesUnfold(x, i);
    }
    ConsAppend(first, Lines(rest), Lines(y));
  }

  /** Joining the lines of text without carriage returns that ends at a line boundary
      restores the text. */
  lemma {:induction false} JoinLinesOfLines(s: string)
    requires '\r' !in s
    requires |s| == 0 || s[|s| - 1] == '\n'
    ensures JoinLines(Lines(s)) == s
    decreases |s|
  {
    if |s| > 0 {
      var i := LineEnd(s);
      assert i < |s|;
      var line := s[..i];
      if |line| > 0 {
        assert line[|line| - 1] == s[i - 1];
        assert s[i - 1] in s;
      }
      assert StripCR(line) == line;
      assert forall c :: c in s[i + 1..] ==> c in s;
      var rest := s[i + 1..];
      JoinLinesOfLines(rest);
      LinesUnfold(s, i);
      var ls := Lines(s);
      assert ls == [line] + Lines(rest);
      assert ls[1..] == Lines(rest);
      assert JoinLines(ls) == line + "\n" + JoinLines(Lines(rest));
      SplitAround(s, i);
      assert [s[i]] == "\n";
    }
  }

  lemma {:induction false} LinesWithoutCR(s: string)
    requires '\r' !in s
    ensures forall l :: l in Lines(s) ==> '\r' !in l
    decreases |s|
  {
    if |s| > 0 {
      var i := LineEnd(s);
      if i < |s| {
        assert forall c :: c in s[..i] ==> c in s;
        assert forall c :: c in s[i + 1..] ==> c in s;
        LinesWithoutCR(s[i + 1..]);
      }
    }
  }

  lemma {:induction false} JoinLinesWithoutCR(ls: seq<string>)
    requires forall l :: l in ls ==> '\r' !in l
    ensures '\r' !in JoinLines(ls)
    decreases |ls|
  {
    if |ls| > 0 {
      assert ls[0] in ls;
      assert forall l :: l in ls[1..] ==> l in ls;
      JoinLinesWithoutCR(ls[1..]);
    }
  }

  // ---------------------------------------------------------------------------
  // Line-start occurrences

  predicate LineStartsAt(s: string, p: nat)
    requires p <= |s|
  {
    p == 0 || s[p - 1] == '\n'
  }

  /** No line of `s` begins with `pat`, stated on positions of the raw text. */
  predicate NoLineStartsWith(s: string, pat: string) {
    forall p :: 0 <= p <= |s| && LineStartsAt(s, p) ==> !StartsWith(s[p..], pat)
  }

  lemma {:induction false} NoLineStartsWithLines(s: string, pat: string)
    requires NoLineStartsWith(s, pat)
    ensures forall l :: l in Lines(s) ==> !StartsWith(l, pat)
    decreases |s|
  {
    if |s| > 0 {
      assert LineStartsAt(s, 0);
      assert s[0..] == s;
      var i := LineEnd(s);
      if i < |s| {
        var rest := s[i + 1..];
        forall p | 0 <= p <= |rest| && LineStartsAt(rest, p)
          ensures !StartsWith(rest[p..], pat)
        {
          assert LineStartsAt(s, i + 1 + p);
          assert rest[p..] == s[i + 1 + p..];
        }
        NoLineStartsWithLines(rest, pat);
      }
    }
  }

  lemma NoLineStartsWithPrefix(s: string, n: nat, pat: string)
    requires n <= |s| && NoLineStartsWith(s, pat)
    ensures NoLineStartsWith(s[..n], pat)
  {
    var t := s[..n];
    forall p | 0 <= p <= |t| && LineStartsAt(t, p)
      ensures !StartsWith(t[p..], pat)
    {
      assert LineStartsAt(s, p);
      if |pat| <= |t| - p {
        assert t[p..][..|pat|] == s[p..][..|pat|];
      }
    }
  }

  lemma NoLineStartsWithNewline(s: string, pat: string)
    requires |pat| > 0 && '\n' !in pat
    requires NoLineStartsWith(s, pat)
    ensures NoLineStartsWith(s + "\n", pat)
  {
    var t := s + "\n";
    forall p | 0 <= p <= |t| && LineStartsAt(t, p)
      ensures !StartsWith(t[p..], pat)
    {
      if p <= |s| {
        assert LineStartsAt(s, p);
        if p + |pat| <= |s| {
          assert t[p..][..|pat|] == s[p..][..|pat|];
        } else if p + |pat| <= |t| {
          assert t[p..][..|pat|][|s| - p] == '\n';
          assert pat[|s| - p] in pat;
        }
      }
    }
  }

  lemma {:induction false} NoLineStartsWithJoin(ls: seq<string>, pat: string)
    requires |pat| > 0 && '\n' !in pat
    requires forall l :: l in ls ==> '\n' !in l && !StartsWith(l, pat)
    ensures NoLineStartsWith(JoinLines(ls), pat)
    decreases |ls|
  {
    if |ls| > 0 {
      var s := JoinLines(ls);
      var head := ls[0];
      var rest := JoinLines(ls[1..]);
      assert head in ls;
      assert forall l :: l in ls[1..] ==> l in ls;
      NoLineStartsWithJoin(ls[1..], pat);
      assert s == head + "\n" + rest;
      forall k | 0 <= k < |head|
        ensures s[k] != '\n'
      {
        assert head[k] in head;
      }
      if |pat| <= |head| {
        assert s[..|pat|] == head[..|pat|];
      } else if |pat| <= |s| {
        assert s[..|pat|][|head|] == '\n';
        assert pat[|head|] in pat;
      }
      forall p | 0 <= p <= |s| && LineStartsAt(s, p)
        ensures !StartsWith(s[p..], pat)
      {
        if p == 0 {
        } else if p > |head| {
          var q := p - |head| - 1;
          assert s[p..] == rest[q..];
          assert LineStartsAt(rest, q);
        }
      }
    }
  }

  lemma NoLineStartsWithAbsent(s: string, pat: string)
    requires !Contains(s, pat)
    ensures NoLineStartsWith(s, pat)
  {
    forall p | 0 <= p <= |s| && LineStartsAt(s, p)
      ensures !StartsWith(s[p..], pat)
    {
      if StartsWith(s[p..], pat) {
        ContainsAt(s, p, pat);
      }
    }
  }

  // ---------------------------------------------------------------------------
  // Whitespace-separated words

  /** Length of the leading run of non-whitespace characters. */
  function WordLength(s: string): (n: nat)
    ensures n <= |s|
    ensures forall i :: 0 <= i < n ==> !IsWhitespace(s[i])
    ensures n < |s| ==> IsWhitespace(s[n])
    decreases |s|
  {
    if |s| == 0 || IsWhitespace(s[0]) then 0 else 1 + WordLength(s[1..])
  }

  /** `str::split_whitespace`. */
  function SplitWhitespace(s: string): (words: seq<string>)
    ensures forall w :: w in words ==> |w| > 0 && forall i :: 0 <= i < |w| ==> !IsWhitespace(w[i])
    decreases |s|
  {
    if |s| == 0 then []
    else if IsWhitespace(s[0]) then SplitWhitespace(s[1..])
    else
      var n := WordLength(s);
      [s[..n]] + SplitWhitespace(s[n..])
  }

  function Concat(words: seq<string>): string
    decreases |words|
  {
    if |words| == 0 then [] else words[0] + Concat(words[1..])
  }

  /** The characters of `s` that are not whitespace, in order. */
  function NonWhitespace(s: string): string
    decreases |s|
  {
    if |s| == 0 then [] else (if IsWhitespace(s[0]) then [] else [s[0]]) + NonWhitespace(s[1..])
  }

  lemma {:induction false} NonWhitespaceOfWord(s: string, n: nat)
    requires n <= |s|
    requires forall i :: 0 <= i < n ==> !IsWhitespace(s[i])
    ensures NonWhitespace(s) == s[..n] + NonWhitespace(s[n..])
    decreases n
  {
    if n > 0 {
      var t := s[1..];
      assert forall i :: 0 <= i < n - 1 ==> t[i] == s[i + 1];
      NonWhitespaceOfWord(t, n - 1);
      assert t[n - 1..] == s[n..];
      assert !IsWhitespace(s[0]);
      var rest := NonWhitespace(s[n..]);
      assert NonWhitespace(s) == [s[0]] + (t[..n - 1] + rest);
      ConsAppend(s[0], t[..n - 1], rest);
      assert [s[0]] + t[..n - 1] == s[..n];
    }
  }

  /** The words, put back together, are exactly the non-whitespace characters of the
      input in order: nothing is lost, duplicated or reordered. */
  lemma {:induction false} SplitWhitespaceKeepsText(s: string)
    ensures Concat(SplitWhitespace(s)) == NonWhitespace(s)
    decreases |s|
  {
    if |s| > 0 {
      if IsWhitespace(s[0]) {
        SplitWhitespaceKeepsText(s[1..]);
      } else {
        var n := WordLength(s);
        SplitWhitespaceKeepsText(s[n..]);
        NonWhitespaceOfWord(s, n);
        var words := SplitWhitespace(s);
        assert words == [s[..n]] + SplitWhitespace(s[n..]);
        assert words[1..] == SplitWhitespace(s[n..]);
      }
    }
  }

  /** Text with a non-whitespace character has at least one word. */
  lemma HasFirstWord(s: string, k: nat)
    requires k < |s| && !IsWhitespace(s[k])
    ensures |SplitWhitespace(s)| > 0
  {
    SplitWhitespaceKeepsText(s);
    NonWhitespaceOfWord(s[k..], 1);
    NonWhitespaceSplit(s, k);
  }

  lemma {:induction false} NonWhitespaceSplit(s: string, k: nat)
    requires k <= |s|
    ensures |NonWhitespace(s)| >= |NonWhitespace(s[k..])|
    decreases k
  {
    if k > 0 {
      NonWhitespaceSplit(s[1..], k - 1);
      assert s[1..][k - 1..] == s[k..];
    }
  }

  // ---------------------------------------------------------------------------
  // Decimal rendering of unsigned integers

  predicate IsDigit(c: char) {
    '0' <= c && c <= '9'
  }

  function DigitChar(d: nat): (c: char)
    requires d < 10
    ensures IsDigit(c) && c as int - '0' as int == d
  {
    ('0' as int + d) as char
  }

  /** `to_string` of an unsigned integer: decimal digits without leading zeros. */
  function NatToString(n: nat): (r: string)
    ensures |r| > 0
    ensures forall i :: 0 <= i < |r| ==> IsDigit(r[i])
    ensures r[0] == '0' ==> n == 0
    decreases n
  {
    if n < 10 then [DigitChar(n)] else NatToString(n / 10) + [DigitChar(n % 10)]
  }

  function DigitOf(c: char): (d: nat)
    requires IsDigit(c)
    ensures d < 10
  {
    c as int - '0' as int
  }

  function DigitsValue(s: string): nat
    requires forall i :: 0 <= i < |s| ==> IsDigit(s[i])
    decreases |s|
  {
    if |s| == 0 then 0 else DigitsValue(s[..|s| - 1]) * 10 + DigitOf(s[|s| - 1])
  }

  /** How a receiving program reads an unsigned decimal argument. */
  function ParseNat(s: string): Option<nat> {
    if |s| > 0 && forall i :: 0 <= i < |s| ==> IsDigit(s[i]) then Some(DigitsValue(s)) else None
  }

  /** Reading back the decimal text of a number gives the number. */
  lemma {:induction false} ParseNatToString(n: nat)
    ensures ParseNat(NatToString(n)) == Some(n)
    decreases n
  {
    if n >= 10 {
      ParseNatToString(n / 10);
      var s := NatToString(n);
      var q, d := n / 10, n % 10;
      assert s == NatToString(q) + [DigitChar(d)];
      assert s[..|s| - 1] == NatToString(q);
      assert DigitOf(s[|s| - 1]) == d;
      assert DigitsValue(s) == DigitsValue(NatToString(q)) * 10 + d;
      assert q * 10 + d == n;
    }
  }
  /** Reads decimal text into a value below `bound`, as reading an unsigned integer of a
      fixed width does: `None` for text that is not a number or a number out of range. */
  function ParseNatBelow(s: string, bound: nat): (r: Option<nat>)
    ensures r.Some? ==> r.value < bound
    ensures r.Some? <==> ParseNat(s).Some? && ParseNat(s).value < bound
  {
    match ParseNat(s)
    case Some(n) => if n < bound then Some(n) else None
    case None => None
  }

  lemma ParseNatBelowToString(n: nat, bound: nat)
    requires n < bound
    ensures ParseNatBelow(NatToString(n), bound) == Some(n)
  {
    ParseNatToString(n);
  }

  /** Reads an optional byte-sized number (a `u8` option); the outer `None` marks
      unreadable text. */
  function ReadByte(text: Option<string>): (r: Option<Option<u8>>)
    ensures text.None? ==> r == Some(None)
    ensures text.Some? ==> (r.Some? <==> ParseNatBelow(text.value, 0x100).Some?)
    ensures text.Some? && r.Some? ==> r.value == Some(ParseNatBelow(text.value, 0x100).value as u8)
  {
    match text
    case None => Some(None)
    case Some(t) =>
      match ParseNatBelow(t, 0x100)
      case Some(n) => Some(Some(n))
      case None => None
  }
}

=== FILE: tools.dfy ===
/** The tool catalogue (src/tools.rs): which companion programs exist, how each is
    installed and updated, and the health verdict. Whether a program is installed
    (`which <binary>` succeeding) is an input, the set of installed binaries; the
    commands are planned rather than run, and starting them is an input too. */
module Tools {
  import opened Common
  import opened Text
  import opened Process

  datatype ToolInfo = ToolInfo(name: string, description: string, binary: string, crate: string)

  /** Every tool is installed from crates.io: its install command is
      `cargo install <crate>`. */
  const CargoInstall := "cargo" + " " + "install" + " "

  function InstallCmd(t: ToolInfo): string {
    CargoInstall + t.crate
  }

  /** `TOOLS`. */
  const Tools := [
    ToolInfo("mmry", "Memory storage and search", "mmry", "mmry-cli"),
    ToolInfo("mailz", "Agent coordination and messaging", "mailz-cli", "mailz"),
    ToolInfo("bd", "Issue tracking (beads)", "bd", "beads"),
    ToolInfo("bv", "Issue triage and analytics", "bv", "beads-viewer"),
    ToolInfo("cass", "Agent session history search", "cass", "coding-agent-session-search")
  ]

  /** A crate name is one non-empty whitespace-free word. */
  predicate IsWord(w: string) {
    |w| > 0 && forall i :: 0 <= i < |w| ==> !IsWhitespace(w[i])
  }

  predicate WellFormed(t: ToolInfo) {
    IsWord(t.crate)
  }

  /** The catalogue's names are distinct, and every install command has words to run. */
  lemma CatalogueWellFormed()
    ensures forall i, j :: 0 <= i < j < |Tools| ==> Tools[i].name != Tools[j].name
    ensures forall i :: 0 <= i < |Tools| ==> WellFormed(Tools[i])
  {
    NamesDistinct();
    CratesAreWords();
  }

  lemma NamesDistinct()
    ensures forall i, j :: 0 <= i < j < |Tools| ==> Tools[i].name != Tools[j].name
  {
    assert Tools[0].name[0] == 'm' && Tools[1].name[1] == 'a' && |Tools[1].name| == 5;
    assert Tools[2].name[1] == 'd' && Tools[3].name[1] == 'v' && Tools[4].name[0] == 'c';
  }

  lemma CratesAreWords()
    ensures forall i :: 0 <= i < |Tools| ==> WellFormed(Tools[i])
  {
    CrateIsWord("mmry-cli");
    CrateIsWord("mailz");
    CrateIsWord("beads");
    CrateIsWord("beads-viewer");
    CrateIsWord("coding-agent-session-search");
  }

  /** Lower-case letters and hyphens make a word. */
  lemma CrateIsWord(w: string)
    requires |w| > 0 && forall i :: 0 <= i < |w| ==> 'a' <= w[i] <= 'z' || w[i] == '-'
    ensures IsWord(w)
  {
  }

  // ---------------------------------------------------------------------------
  // Splitting the install command

  lemma {:induction false} WordLengthOfWord(w: string, rest: string)
    requires forall i :: 0 <= i < |w| ==> !IsWhitespace(w[i])
    requires |rest| == 0 || IsWhitespace(rest[0])
    ensures WordLength(w + rest) == |w|
    decreases |w|
  {
    if |w| > 0 {
      assert (w + rest)[1..] == w[1..] + rest;
      WordLengthOfWord(w[1..], rest);
    } else {
      assert w + rest == rest;
    }
  }

  /** A word followed by a separator, or by nothing, splits off first. */
  lemma SplitFirstWord(w: string, rest: string)
    requires IsWord(w)
    requires |rest| == 0 || IsWhitespace(rest[0])
    ensures SplitWhitespace(w + rest) == [w] + SplitWhitespace(rest)
  {
    WordLengthOfWord(w, rest);
    assert (w + rest)[..|w|] == w;
    assert (w + rest)[|w|..] == rest;
  }

  /** A word and a space split off the word. */
  lemma SplitWordSpace(w: string, rest: string)
    requires IsWord(w)
    ensures SplitWhitespace(w + " " + rest) == [w] + SplitWhitespace(rest)
  {
    var tail := " " + rest;
    assert w + " " + rest == w + tail;
    SplitFirstWord(w, tail);
    assert tail[1..] == rest;
  }

  /** Three words joined by single spaces split back into the three words. */
  lemma SplitThreeWords(a: string, b: string, c: string)
    requires IsWord(a) && IsWord(b) && IsWord(c)
    ensures SplitWhitespace(a + " " + b + " " + c) == [a, b, c]
  {
    var bc := b + " " + c;
    assert SplitWhitespace(bc) == [b, c] by {
      SplitWordSpace(b, c);
      assert c + [] == c;
      SplitFirstWord(c, []);
    }
    assert a + " " + b + " " + c == a + " " + bc by {
      var p := a + " ";
      AppendAssoc(p + b, " ", c);
      AppendAssoc(p, b, " " + c);
      AppendAssoc(b, " ", c);
    }
    SplitWordSpace(a, bc);
  }

  /** `cargo install <crate>` splits into the three words. */
  lemma InstallWords(crate: string)
    requires IsWord(crate)
    ensures SplitWhitespace(CargoInstall + crate) == ["cargo", "install", crate]
  {
    assert IsWord("cargo") && IsWord("install");
    SplitThreeWords("cargo", "install", crate);
  }

  // ---------------------------------------------------------------------------
  // Commands

  datatype Command = Command(program: string, args: seq<string>)

  /** A planned command and the message its failing to start is reported with. */
  datatype Step = Step(command: Command, context: string)

  /** `install_tool`'s command: the first word of the install command run with the rest. */
  function InstallCommand(t: ToolInfo): (c: Command)
    requires WellFormed(t)
    ensures c == Command("cargo", ["install", t.crate])
  {
    InstallWords(t.crate);
    var parts := SplitWhitespace(InstallCmd(t));
    Command(parts[0], parts[1..])
  }

  function InstallStep(t: ToolInfo): Step
    requires WellFormed(t)
  {
    Step(InstallCommand(t), "failed to run: " + InstallCmd(t))
  }

  /** `install_tool` runs `cargo install <crate>` and reports a command that cannot start
      with `failed to run: cargo install <crate>`. */
  lemma InstallStepShape(t: ToolInfo)
    requires WellFormed(t)
    ensures InstallStep(t) == Step(Command("cargo", ["install", t.crate]), "failed to run: cargo install " + t.crate)
  {
    assert "failed to run: " + CargoInstall == "failed to run: cargo install ";
    AppendAssoc("failed to run: ", CargoInstall, t.crate);
  }

  /** `update_tool`'s command: the install command with `--force` added last. */
  function UpdateCommand(t: ToolInfo): (c: Command)
    requires WellFormed(t)
    ensures c.program == InstallCommand(t).program
    ensures c.args == InstallCommand(t).args + ["--force"]
    ensures c == Command("cargo", ["install", t.crate, "--force"])
  {
    InstallWords(t.crate);
    var parts := SplitWhitespace(InstallCmd(t));
    Command(parts[0], parts[1..] + ["--force"])
  }

  function UpdateStep(t: ToolInfo): Step
    requires WellFormed(t)
  {
    Step(UpdateCommand(t), "failed to update " + t.name)
  }

  // ---------------------------------------------------------------------------
  // Planning

  /** `TOOLS.iter().find(|t| t.name == name)`: the first tool of that name. */
  function Find(ts: seq<ToolInfo>, name: string): (r: Option<ToolInfo>)
    ensures r.Some? <==> exists i :: 0 <= i < |ts| && ts[i].name == name
    ensures r.Some? ==> r.value in ts && r.value.name == name
    decreases |ts|
  {
    if |ts| == 0 then None
    else if ts[0].name == name then Some(ts[0])
    else Find(ts[1..], name)
  }

  /** Each catalogue entry is found by its own name. */
  lemma FindByName(k: nat)
    requires k < |Tools|
    ensures Find(Tools, Tools[k].name) == Some(Tools[k])
  {
    CatalogueWellFormed();
    FindDistinct(Tools, k);
  }

  lemma {:induction false} FindDistinct(ts: seq<ToolInfo>, k: nat)
    requires k < |ts|
    requires forall i, j :: 0 <= i < j < |ts| ==> ts[i].name != ts[j].name
    ensures Find(ts, ts[k].name) == Some(ts[k])
    decreases k
  {
    if k > 0 {
      assert ts[0].name != ts[k].name;
      assert ts[1..][k - 1] == ts[k];
      FindDistinct(ts[1..], k - 1);
    }
  }

  /** `install all`: every tool in catalogue order, each skipped when installed. */
  function InstallEach(ts: seq<ToolInfo>, installed: set<string>): (r: seq<Step>)
    requires forall i :: 0 <= i < |ts| ==> WellFormed(ts[i])
    ensures |r| <= |ts|
    ensures forall s :: s in r ==> exists t :: t in ts && WellFormed(t) && t.binary !in installed && s == InstallStep(t)
    decreases |ts|
  {
    if |ts| == 0 then []
    else
      var tail := ts[1..];
      assert forall i :: 0 <= i < |tail| ==> WellFormed(tail[i]) by {
        forall i | 0 <= i < |tail| ensures WellFormed(tail[i]) {
          assert tail[i] == ts[i + 1];
        }
      }
      var rest := InstallEach(tail, installed);
      var r := (if ts[0].binary in installed then [] else [InstallStep(ts[0])]) + rest;
      assert forall s :: s in r ==> exists t :: t in ts && WellFormed(t) && t.binary !in installed && s == InstallStep(t) by {
        forall s | s in r ensures exists t :: t in ts && WellFormed(t) && t.binary !in installed && s == InstallStep(t) {
          if s in rest {
            var t :| t in tail && WellFormed(t) && t.binary !in installed && s == InstallStep(t);
            assert t in ts;
          } else {
            assert ts[0] in ts;
          }
        }
      }
      r
  }

  /** `update all`: the installed tools, in catalogue order. */
  function UpdateEach(ts: seq<ToolInfo>, installed: set<string>): (r: seq<Step>)
    requires forall i :: 0 <= i < |ts| ==> WellFormed(ts[i])
    ensures |r| <= |ts|
    ensures forall s :: s in r ==> exists t :: t in ts && WellFormed(t) && t.binary in installed && s == UpdateStep(t)
    decreases |ts|
  {
    if |ts| == 0 then []
    else
      var tail := ts[1..];
      assert forall i :: 0 <= i < |tail| ==> WellFormed(tail[i]) by {
        forall i | 0 <= i < |tail| ensures WellFormed(tail[i]) {
          assert tail[i] == ts[i + 1];
        }
      }
      var rest := UpdateEach(tail, installed);
      var r := (if ts[0].binary in installed then [UpdateStep(ts[0])] else []) + rest;
      assert forall s :: s in r ==> exists t :: t in ts && WellFormed(t) && t.binary in installed && s == UpdateStep(t) by {
        forall s | s in r ensures exists t :: t in ts && WellFormed(t) && t.binary in installed && s == UpdateStep(t) {
          if s in rest {
            var t :| t in tail && WellFormed(t) && t.binary in installed && s == UpdateStep(t);
            assert t in ts;
          } else {
            assert ts[0] in ts;
          }
        }
      }
      r
  }

  /** Every tool's install step, in order. */
  function InstallSteps(ts: seq<ToolInfo>): (r: seq<Step>)
    requires forall i :: 0 <= i < |ts| ==> WellFormed(ts[i])
    ensures |r| == |ts|
    decreases |ts|
  {
    if |ts| == 0 then []
    else
      var tail := ts[1..];
      assert forall i :: 0 <= i < |tail| ==> WellFormed(tail[i]) by {
        forall i | 0 <= i < |tail| ensures WellFormed(tail[i]) {
          assert tail[i] == ts[i + 1];
        }
      }
      [InstallStep(ts[0])] + InstallSteps(tail)
  }

  /** The `k`-th install step is that of the `k`-th tool. */
  lemma {:induction false} InstallStepsAt(ts: seq<ToolInfo>, k: nat)
    requires forall i :: 0 <= i < |ts| ==> WellFormed(ts[i])
    requires k < |ts|
    ensures InstallSteps(ts)[k] == InstallStep(ts[k])
    decreases k
  {
    if k > 0 {
      var tail := ts[1..];
      assert tail[k - 1] == ts[k];
      InstallStepsAt(tail, k - 1);
    }
  }

  /** With nothing installed, `install all` plans every tool, in catalogue order. */
  lemma {:induction false} InstallAllMissing(ts: seq<ToolInfo>, installed: set<string>)
    requires forall i :: 0 <= i < |ts| ==> WellFormed(ts[i])
    requires forall i :: 0 <= i < |ts| ==> ts[i].binary !in installed
    ensures InstallEach(ts, installed) == InstallSteps(ts)
    decreases |ts|
  {
    if |ts| > 0 {
      var tail := ts[1..];
      assert forall i :: 0 <= i < |tail| ==> tail[i] == ts[i + 1];
      InstallAllMissing(tail, installed);
    }
  }

  /** With everything installed, `install all` plans nothing. */
  lemma {:induction false} InstallNoneMissing(ts: seq<ToolInfo>, installed: set<string>)
    requires forall i :: 0 <= i < |ts| ==> WellFormed(ts[i])
    requires forall i :: 0 <= i < |ts| ==> ts[i].binary in installed
    ensures InstallEach(ts, installed) == []
    decreases |ts|
  {
    if |ts| > 0 {
      var tail := ts[1..];
      assert forall i :: 0 <= i < |tail| ==> tail[i] == ts[i + 1];
      InstallNoneMissing(tail, installed);
    }
  }

  /** The tools that are not installed, in catalogue order. */
  function MissingTools(ts: seq<ToolInfo>, installed: set<string>): (r: seq<ToolInfo>)
    ensures forall t :: t in r <==> t in ts && t.binary !in installed
    decreases |ts|
  {
    if |ts| == 0 then []
    else (if ts[0].binary in installed then [] else [ts[0]]) + MissingTools(ts[1..], installed)
  }

  /** `install all` installs the missing tools and only those, in catalogue order. */
  lemma {:induction false} InstallEachMissing(ts: seq<ToolInfo>, installed: set<string>)
    requires forall i :: 0 <= i < |ts| ==> WellFormed(ts[i])
    ensures forall i :: 0 <= i < |MissingTools(ts, installed)| ==> WellFormed(MissingTools(ts, installed)[i])
    ensures InstallEach(ts, installed) == InstallSteps(MissingTools(ts, installed))
    decreases |ts|
  {
    if |ts| > 0 {
      var tail := ts[1..];
      assert forall i :: 0 <= i < |tail| ==> tail[i] == ts[i + 1];
      InstallEachMissing(tail, installed);
      var rest := MissingTools(tail, installed);
      var all := MissingTools(ts, installed);
      forall i | 0 <= i < |all| ensures WellFormed(all[i]) {
        assert all[i] in ts;
      }
      if ts[0].binary !in installed {
        assert all == [ts[0]] + rest;
        assert all[1..] == rest;
      } else {
        assert all == rest;
      }
    }
  }

  /** The installed tools, in catalogue order. */
  function InstalledTools(ts: seq<ToolInfo>, installed: set<string>): (r: seq<ToolInfo>)
    ensures forall t :: t in r <==> t in ts && t.binary in installed
    decreases |ts|
  {
    if |ts| == 0 then []
    else (if ts[0].binary in installed then [ts[0]] else []) + InstalledTools(ts[1..], installed)
  }

  /** Every tool's update step, in order. */
  function UpdateSteps(ts: seq<ToolInfo>): (r: seq<Step>)
    requires forall i :: 0 <= i < |ts| ==> WellFormed(ts[i])
    ensures |r| == |ts|
    decreases |ts|
  {
    if |ts| == 0 then []
    else
      var tail := ts[1..];
      assert forall i :: 0 <= i < |tail| ==> WellFormed(tail[i]) by {
        forall i | 0 <= i < |tail| ensures WellFormed(tail[i]) {
          assert tail[i] == ts[i + 1];
        }
      }
      [UpdateStep(ts[0])] + UpdateSteps(tail)
  }

  /** `update all` updates the installed tools and only those, in catalogue order. */
  lemma {:induction false} UpdateEachInstalled(ts: seq<ToolInfo>, installed: set<string>)
    requires forall i :: 0 <= i < |ts| ==> WellFormed(ts[i])
    ensures forall i :: 0 <= i < |InstalledTools(ts, installed)| ==> WellFormed(InstalledTools(ts, installed)[i])
    ensures UpdateEach(ts, installed) == UpdateSteps(InstalledTools(ts, installed))
    decreases |ts|
  {
    if |ts| > 0 {
      var tail := ts[1..];
      assert forall i :: 0 <= i < |tail| ==> tail[i] == ts[i + 1];
      UpdateEachInstalled(tail, installed);
      var rest := InstalledTools(tail, installed);
      var all := InstalledTools(ts, installed);
      forall i | 0 <= i < |all| ensures WellFormed(all[i]) {
        assert all[i] in ts;
      }
      if ts[0].binary in installed {
        assert all == [ts[0]] + rest;
        assert all[1..] == rest;
      } else {
        assert all == rest;
      }
    }
  }

  /** Update visits exactly the installed tools: one step per installed tool. */
  lemma {:induction false} UpdateEachCount(ts: seq<ToolInfo>, installed: set<string>, t: ToolInfo)
    requires forall i :: 0 <= i < |ts| ==> WellFormed(ts[i])
    requires t in ts && t.binary in installed
    ensures UpdateStep(t) in UpdateEach(ts, installed)
    decreases |ts|
  {
    if ts[0] != t {
      UpdateEachCount(ts[1..], installed, t);
    }
  }

  /** `handle_install`: `all`, one known tool, or an unknown name (which plans nothing
      and succeeds). */
  function PlanInstall(tool: string, installed: set<string>): (r: seq<Step>)
    ensures tool != "all" && Find(Tools, tool).None? ==> r == []
    ensures tool != "all" && Find(Tools, tool).Some? ==>
              (r == [] <==> Find(Tools, tool).value.binary in installed)
    ensures tool != "all" && Find(Tools, tool).Some? && Find(Tools, tool).value.binary !in installed ==>
              var crate := Find(Tools, tool).value.crate;
              r == [Step(Command("cargo", ["install", crate]), "failed to run: cargo install " + crate)]
    ensures tool == "all" ==>
              (forall i :: 0 <= i < |Tools| ==> WellFormed(Tools[i])) && r == InstallEach(Tools, installed)
  {
    CatalogueWellFormed();
    if tool == "all" then InstallEach(Tools, installed)
    else
      match Find(Tools, tool)
      case Some(t) =>
        if t.binary in installed then []
        else
          InstallStepShape(t);
          [InstallStep(t)]
      case None => []
  }

  /** `handle_update`: a named tool is updated whether or not it is installed. */
  function PlanUpdate(tool: string, installed: set<string>): (r: seq<Step>)
    ensures tool != "all" && Find(Tools, tool).None? ==> r == []
    ensures tool == "all" ==>
              (forall i :: 0 <= i < |Tools| ==> WellFormed(Tools[i])) && r == UpdateEach(Tools, installed)
    ensures tool != "all" && Find(Tools, tool).Some? ==>
              |r| == 1 && r[0].context == "failed to update " + tool
              && r[0].command == Command("cargo", ["install", Find(Tools, tool).value.crate, "--force"])
  {
    CatalogueWellFormed();
    if tool == "all" then UpdateEach(Tools, installed)
    else
      var found := Find(Tools, tool);
      if found.Some? then [UpdateStep(found.value)] else []
  }

  /** Running a plan: a command that cannot be started stops the plan with its
      message; a command that ran continues it whatever its exit status. `ran` counts
      the commands attempted. */
  method RunPlan(steps: seq<Step>, spawns: seq<Spawn>) returns (ran: nat, o: Outcome)
    requires |spawns| == |steps|
    ensures ran <= |steps|
    ensures o == Ok <==> forall i :: 0 <= i < |steps| ==> spawns[i].Finished?
    ensures o == Ok ==> ran == |steps|
    ensures o.Failed? ==> 0 < ran && spawns[ran - 1].NotStarted? && o == Failed(steps[ran - 1].context)
                          && forall i :: 0 <= i < ran - 1 ==> spawns[i].Finished?
  {
    var i := 0;
    while i < |steps|
      invariant 0 <= i <= |steps|
      invariant forall j :: 0 <= j < i ==> spawns[j].Finished?
    {
      if spawns[i].NotStarted? {
        return i + 1, Failed(steps[i].context);
      }
      i := i + 1;
    }
    return |steps|, Ok;
  }

  /** `handle_doctor`: each tool's status in catalogue order, and whether all are
      installed. `handle_list` reports the same statuses. */
  method Doctor(installed: set<string>) returns (allOk: bool, statuses: seq<bool>)
    ensures |statuses| == |Tools|
    ensures forall i :: 0 <= i < |Tools| ==> (statuses[i] <==> Tools[i].binary in installed)
    ensures allOk <==> forall i :: 0 <= i < |Tools| ==> Tools[i].binary in installed
  {
    allOk := true;
    statuses := [];
    var i := 0;
    while i < |Tools|
      invariant 0 <= i <= |Tools|
      invariant |statuses| == i
      invariant forall j :: 0 <= j < i ==> (statuses[j] <==> Tools[j].binary in installed)
      invariant allOk <==> forall j :: 0 <= j < i ==> Tools[j].binary in installed
    {
      var ok := Tools[i].binary in installed;
      statuses := statuses + [ok];
      if !ok {
        allOk := false;
      }
      i := i + 1;
    }
  }
}

=== FILE: top_level.dfy ===
/** The commands `main` handles itself (src/main.rs): file reservations through
    `mailz-cli`, the ready-issue listing through `trx`, and the session-history search
    through `cass`. */
module TopLevel {
  import opened Common
  import opened Text
  import opened Argv
  import opened Process
  import Mail

  /** The default reservation time, in seconds. */
  const DefaultTtl: u32 := 1800

  // ---------------------------------------------------------------------------
  // Reservations

  function ReserveArgv(files: seq<string>, reason: Option<string>, ttl: u32): (r: seq<string>)
    ensures |r| == 3 + |files| + (if reason.Some? then 2 else 0)
    ensures r[..1 + |files|] == ["reserve"] + files
    ensures r[1 + |files|..3 + |files|] == ["--ttl", NatToString(ttl)]
    ensures reason.Some? ==> r[3 + |files|..] == ["--reason", reason.value]
  {
    var r := ["reserve"] + files + ["--ttl", NatToString(ttl)] + Pair("--reason", reason);
    assert r[..1 + |files|] == ["reserve"] + files;
    r
  }

  /** A reservation made without `--ttl` lasts 1800 seconds. */
  lemma ReserveDefaultTtl(files: seq<string>, reason: Option<string>)
    ensures ReserveArgv(files, reason, DefaultTtl)[1 + |files|..3 + |files|] == ["--ttl", "1800"]
  {
    assert NatToString(1) == "1" && NatToString(18) == NatToString(1) + "8";
    assert NatToString(180) == NatToString(18) + "0";
    assert NatToString(1800) == NatToString(180) + "0";
    assert NatToString(DefaultTtl) == "1800";
  }

  const ReservationsArgv := ["reservations"]

  /** `--all` releases everything; the files given with it are ignored. */
  function ReleaseArgv(files: seq<string>, all: bool): (r: seq<string>)
    ensures all ==> r == ["release", "--all"]
    ensures !all ==> r == ["release"] + files
  {
    if all then ["release", "--all"] else ["release"] + files
  }

  /** A reservation request as `mailz-cli` understands it. */
  datatype ReservationRequest =
    | Reserve(files: seq<string>, reason: Option<string>, ttl: u32)
    | Reservations
    | Release(files: seq<string>, all: bool)

  function ReadU32(text: string): Option<u32> {
    match ParseNatBelow(text, 0x1_0000_0000)
    case Some(n) => Some(n)
    case None => None
  }

  /** How `mailz-cli` reads a reservation request back. */
  function DecodeReservation(args: seq<string>): Option<ReservationRequest> {
    match Parse(args, Mail.MailzGrammar)
    case None => None
    case Some(p) =>
      var pos := p.positionals;
      if pos == ["reservations"] then Some(Reservations)
      else if |pos| == 0 then None
      else if pos[0] == "reserve" && "--ttl" in p.values then
        match ReadU32(p.values["--ttl"])
        case Some(ttl) => Some(Reserve(pos[1..], Lookup(p.values, "--reason"), ttl))
        case None => None
      else if pos[0] == "release" then
        Some(Release(pos[1..], "--all" in p.switches))
      else None
  }

  predicate PlainFiles(files: seq<string>) {
    forall f :: f in files ==> Mail.Plain(f)
  }

  lemma DecodeReserve(files: seq<string>, reason: Option<string>, ttl: u32)
    requires PlainFiles(files)
    ensures DecodeReservation(ReserveArgv(files, reason, ttl)) == Some(Reserve(files, reason, ttl))
  {
    var g := Mail.MailzGrammar;
    var text := NatToString(ttl);
    var head := ["reserve"] + files;
    assert forall a :: a in head ==> a == "reserve" || a in files;
    ParsePositionals(head, g);
    ParseValuedFirst("--ttl", text, [], Empty, g);
    assert ["--ttl", text] + [] == ["--ttl", text];
    ParseAppend(head, ["--ttl", text], g);
    var p := Parsed(head, map["--ttl" := text], {});
    assert head + [] == head;
    assert map["--ttl" := text] + map[] == map["--ttl" := text];
    assert Merge(Parsed(head, map[], {}), Parsed([], map["--ttl" := text], {})) == p;
    assert Parse(head + ["--ttl", text], g) == Some(p);
    ParseThenPair(head + ["--ttl", text], p, "--reason", reason, g);
    LookupUnder("--reason", reason, map["--ttl" := text], "--reason");
    assert head[1..] == files;
    ParseNatBelowToString(ttl, 0x1_0000_0000);
  }

  lemma DecodeRelease(files: seq<string>, all: bool)
    requires PlainFiles(files)
    ensures DecodeReservation(ReleaseArgv(files, all)) == Some(Release(if all then [] else files, all))
  {
    var g := Mail.MailzGrammar;
    if all {
      ParsePositionals(["release"], g);
      ParseThenSwitch(["release"], Parsed(["release"], map[], {}), "--all", true, g);
    } else {
      var head := ["release"] + files;
      assert forall a :: a in head ==> a == "release" || a in files;
      ParsePositionals(head, g);
      assert head[1..] == files;
    }
  }

  /** Every reservation request reaches `mailz-cli` intact; a release of everything
      carries no files. */
  lemma DecodeReservationArgv(req: ReservationRequest)
    requires req.Reserve? || req.Release? ==> PlainFiles(req.files)
    requires req.Release? && req.all ==> req.files == []
    ensures DecodeReservation(match req
                              case Reserve(files, reason, ttl) => ReserveArgv(files, reason, ttl)
                              case Reservations => ReservationsArgv
                              case Release(files, all) => ReleaseArgv(files, all)) == Some(req)
  {
    match req
    case Reserve(files, reason, ttl) => DecodeReserve(files, reason, ttl);
    case Reservations => ParsePositionals(["reservations"], Mail.MailzGrammar);
    case Release(files, all) => DecodeRelease(files, all);
  }

  /** `run_mailz_cli`: the same rule, and the same messages, as the mail commands. */
  function RunMailzCli(sp: Spawn): (o: Outcome)
    ensures o == Ok <==> sp.Finished? && Success(sp.status)
    ensures sp.NotStarted? ==> o == Failed("failed to run mailz-cli - is mailz installed?")
    ensures sp.Finished? && o != Ok ==> o == Failed("mailz-cli failed")
  {
    Mail.RunMailz(sp)
  }

  // ---------------------------------------------------------------------------
  // Ready issues

  const ReadyArgv := ["ready"]

  /** `handle_ready`: only a `trx` that cannot be started fails; its status is ignored. */
  function RunReady(sp: Spawn): (o: Outcome)
    ensures o == Ok <==> sp.Finished?
    ensures sp.NotStarted? ==> o == Failed("failed to run trx ready - is trx installed?")
  {
    Relay(sp, "failed to run trx ready - is trx installed?", None)
  }

  // ---------------------------------------------------------------------------
  // Session-history search

  const CassGrammar := Grammar({"--workspace", "--days"}, {})

  function DaysPair(days: Option<u32>): seq<string> {
    match days
    case Some(d) => Pair("--days", Some(NatToString(d)))
    case None => []
  }

  function SearchArgv(query: string, repo: Option<string>, days: Option<u32>): (r: seq<string>)
    ensures |r| == 2 + (if repo.Some? then 2 else 0) + (if days.Some? then 2 else 0)
    ensures r[..2] == ["search", query]
    ensures repo.Some? ==> r[2..4] == ["--workspace", repo.value]
    ensures days.Some? ==> r[|r| - 2..] == ["--days", NatToString(days.value)]
  {
    ["search", query] + Pair("--workspace", repo) + DaysPair(days)
  }

  datatype SearchRequest = SearchRequest(query: string, workspace: Option<string>, days: Option<u32>)

  /** How `cass` reads a search request back. */
  function DecodeSearch(args: seq<string>): Option<SearchRequest> {
    match Parse(args, CassGrammar)
    case None => None
    case Some(p) =>
      if |p.positionals| != 2 || p.positionals[0] != "search" then None
      else
        match Lookup(p.values, "--days")
        case None => Some(SearchRequest(p.positionals[1], Lookup(p.values, "--workspace"), None))
        case Some(text) =>
          match ReadU32(text)
          case Some(d) => Some(SearchRequest(p.positionals[1], Lookup(p.values, "--workspace"), Some(d)))
          case None => None
  }

  /** The query, the workspace and the day limit all reach `cass` intact. */
  lemma DecodeSearchArgv(query: string, repo: Option<string>, days: Option<u32>)
    requires !CassGrammar.IsOption(query)
    ensures DecodeSearch(SearchArgv(query, repo, days)) == Some(SearchRequest(query, repo, days))
  {
    var g := CassGrammar;
    var p0 := Parsed(["search", query], map[], {});
    ParsePositionals(["search", query], g);
    ParseThenPair(["search", query], p0, "--workspace", repo, g);
    var m1 := PairMap("--workspace", repo);
    assert m1 + map[] == m1;
    var text := if days.Some? then Some(NatToString(days.value)) else None;
    assert DaysPair(days) == Pair("--days", text);
    ParseThenPair(["search", query] + Pair("--workspace", repo), p0.(values := m1), "--days", text, g);
    LookupUnder("--days", text, m1, "--days");
    LookupUnder("--days", text, m1, "--workspace");
    if days.Some? {
      ParseNatBelowToString(days.value, 0x1_0000_0000);
    }
  }

  /** `handle_search`: only a `cass` that cannot be started fails; its status is ignored. */
  function RunCass(sp: Spawn): (o: Outcome)
    ensures o == Ok <==> sp.Finished?
    ensures sp.NotStarted? ==> o == Failed("failed to run cass - is coding_agent_session_search installed?")
  {
    Relay(sp, "failed to run cass - is coding_agent_session_search installed?", None)
  }
}
